=== FILE: README.md ===
# RecipeFinderV2 — the deterministic core in Dafny

RecipeFinderV2 is a recipe web application: a React front end, a Node/Express
API over a Supabase database, and a Python service that asks a language model
for recipes. Most of it is glue. The pieces below hold real logic, and this
project models each of them as pure functions over immutable data, with
contracts and lemmas about what they do:

- the ingredient normaliser `cleanIngredient`, whose result is the
  deduplication key of the shopping list (`clean_ingredient.dfy`, on top of
  the ASCII text toolkit in `text.dfy`);
- the shopping-list endpoints, as transitions over the `shopping_list` table:
  the bulk POST merge loop with its pending inserts, GET by user, the clamped
  PATCH and the DELETE by id (`shopping_list.dfy`);
- the recipe row mapping of the API: tag flattening, ingredient lines, step
  ordering, and the search filters applied after the 120-row database limit
  (`recipes.dfy`);
- the bearer-token gate `requireUser`, which checks the `Bearer ` prefix, the
  three-segment shape of the JWS Compact Serialization (section 7.1 of RFC 7515),
  and the `sub` claim (section 4.1.2 of RFC 7519) (`auth.dfy`);
- the CORS origin test, used by the `cors` callback and by the manual header
  override (`cors.dfy`);
- the recipe generator of the Python service: the greedy `{...}` search, the
  truthy-or field merge and the fixed fallback recipe (`llm_client.dfy`);
- the client-side favourites state machine (`favorites_context.dfy`) and the
  favourites page filter (`favorites_view.dfy`);
- the comma and newline list parsing of the profile and generator forms,
  with the `", "` display form (`form_parsing.dfy`);
- the search-parameter filter and the response handling of the front-end API
  client (`api_client.dfy`).

`base.dfy` holds `Option`, an order-keeping `Filter`, and the subsequence
relation that the "in input order" properties are stated with.

Foreign calls are parameters. The database is a sequence of rows. Its title
match is an uninterpreted predicate. Base64url decoding plus `JSON.parse` is
one partial function, and so is `json.loads` plus the field reads. The
values read are the ones pydantic would keep; the source applies the `or`
chains to the raw values and validates the merged recipe only afterwards
(see `LlmClient.Merge` under "Left out"). The
model call is a `Reply` outcome, and uuid generation is an `id` parameter.
Each API call of the front end is a success or failure flag. The `api` object
in `frontend/src/lib/api.ts` (lines 29-64) defines no `getFavorites`,
`addFavorite`, `removeFavorite`, `getProfile` or `updateProfile`, so as
written each of those calls throws a `TypeError`. For the three favourites
calls the `catch` in `FavoritesContext.tsx` (lines 44 and 63) swallows it:
every favourites call is the failure case, and by `FavoritesContext.Toggle`
and `FavoritesContext.Load` the favourites state never changes. The two
profile calls in `profile.tsx` have no `catch`: `getProfile` (line 30) is
outside any `try`, and `updateProfile` (line 64) sits in a `try`/`finally`.
Both reject unhandled, and "Profile saved." is never shown. The model covers
both outcomes of every call, as if the calls existed.

The key function of the shopping list is a parameter `keyOf`.
`ShoppingList.PostWithCleanKeys` instantiates it with the modelled
`cleanIngredient`, as the server does.

`cleanIngredient` is sometimes described as idempotent. The code does not
make it so, because only one leading quantity is stripped: "1 2 3 eggs" gives
"3 eggs", which gives "eggs". The model follows the code, and
`CleanIngredient.CleanNotIdempotent` proves the counterexample for every such
line.

## Model

| member | source | states |
|---|---|---|
| `CleanIngredient.QuantityEnd` | node-api/src/cleaningredient.js:7 | the quantity match is empty exactly when the line does not start with a number; the matched prefix holds only digits, `/`, `.` and whitespace, and the character after a non-final match is not whitespace |
| `CleanIngredient.StripQuantity` | node-api/src/cleaningredient.js:7 | the result is a suffix of the line; the line is unchanged exactly when it does not start with a number; only digits and separators are removed; a shortened result never starts with whitespace |
| `CleanIngredient.QuantityEndAt` | node-api/src/cleaningredient.js:7 | one greedy match: leading whitespace, digits, an optional separator followed by digits, then trailing whitespace are removed, and nothing after them |
| `CleanIngredient.StripIndentedNumber` | node-api/src/cleaningredient.js:7 | an indented number goes with its indentation and the space after it ("  2 cups" loses "  2 ") |
| `CleanIngredient.DropWordsDeletes` | node-api/src/cleaningredient.js:9-13 | dropping listed words only deletes characters: the result is a subsequence of the input |
| `CleanIngredient.DropWordsWords` | node-api/src/cleaningredient.js:9-13 | the words of the result are the words of the input whose lower-case form is not listed, in order: only whole `\b` words go |
| `CleanIngredient.DropWordsUnchanged` | node-api/src/cleaningredient.js:9 | a line with no listed whole word is unchanged (so "cupcake" keeps its "cup") |
| `CleanIngredient.RemovePunctuationDeletes` | node-api/src/cleaningredient.js:11 | the punctuation step only deletes characters and leaves no `.` or `,` |
| `CleanIngredient.RemovePunctuationNone` | node-api/src/cleaningredient.js:11 | a line without `.` or `,` is unchanged |
| `CleanIngredient.RemovePunctuationAppend` | node-api/src/cleaningredient.js:11 | the punctuation step distributes over concatenation |
| `CleanIngredient.CollapseShape` | node-api/src/cleaningredient.js:15 | after collapsing, no two whitespace characters are adjacent, every character comes from the input or is a space, and the first character stays whitespace or not |
| `CleanIngredient.CollapseWords` | node-api/src/cleaningredient.js:15 | collapsing whitespace keeps every word, in order |
| `CleanIngredient.CollapseNoDouble` | node-api/src/cleaningredient.js:15 | a line without two adjacent whitespace characters is unchanged |
| `CleanIngredient.TrimWords` | node-api/src/cleaningredient.js:16 | trimming keeps every word, in order |
| `CleanIngredient.RewriteChars` | node-api/src/cleaningredient.js:5-13 | after the first five steps no upper-case letter, `.` or `,` is left |
| `CleanIngredient.RewriteWords` | node-api/src/cleaningredient.js:9-13 | after the first five steps no descriptor is left as a whole word |
| `CleanIngredient.CleanShape` | node-api/src/cleaningredient.js:1-17 | the empty line gives ""; every key is lower case, has no `.` or `,`, no whitespace at either end, no two adjacent whitespace characters and no descriptor word |
| `CleanIngredient.CleanLeadingDecorations` | node-api/src/cleaningredient.js:4-16 | a quantity, a unit and a descriptor before an ingredient word leave only the lower-case word ("2 cups chopped Tomatoes" gives "tomatoes") |
| `CleanIngredient.CleanTrailingDescriptor` | node-api/src/cleaningredient.js:4-16 | a descriptor after a comma goes with the comma ("3 Tomatoes, diced" gives "tomatoes") |
| `CleanIngredient.CleanQuantityWord` | node-api/src/cleaningredient.js:4-16 | a number and a plain word give the lower-case word |
| `CleanIngredient.CleanThreeNumbers` | node-api/src/cleaningredient.js:7 | only the first quantity is stripped: "p q n word" gives "n word" |
| `CleanIngredient.CleanNotIdempotent` | node-api/src/cleaningredient.js:1-17 | cleaning such a line twice differs from cleaning it once |
| `Text.LowerChar` | node-api/src/cleaningredient.js:5 | lower-casing leaves no upper-case letter, fixes every other character, and keeps word and whitespace characters what they are |
| `Text.Trim` | node-api/src/cleaningredient.js:16 | the result is the input minus its leading and trailing whitespace, starts and ends with non-whitespace, and is empty exactly when the input is all whitespace |
| `Text.Split` | node-api/src/auth.js:10 | a split has one more part than the text has separators, and no part holds a separator |
| `Text.SplitJoin` | node-api/src/auth.js:10 | joining the parts of a split with the separator gives the text back |
| `ShoppingList.PostBulk` | node-api/src/shoppingList.js:15-21 | a falsy `user_id` gives the missing-user error and an absent or empty `items` the missing-items error, each exactly then, and neither changes the table |
| `ShoppingList.PostEffect` | node-api/src/shoppingList.js:23-58 | a valid POST answers `added` = the number of items that found no row, appends that many rows with fresh ids, and changes old rows only in quantity |
| `ShoppingList.PostQuantities` | node-api/src/shoppingList.js:36-43 | each old row gains one per item whose key finds it as the user's only row under that key |
| `ShoppingList.RepeatsAddCount` | node-api/src/shoppingList.js:36-43 | k items with the key of an existing row add exactly k to it and leave its ingredient text alone |
| `ShoppingList.PostNewRows` | node-api/src/shoppingList.js:44-56 | each appended row holds the user, the raw item, its key and quantity 1, in item order, with consecutive fresh ids |
| `ShoppingList.DuplicateNewItems` | node-api/src/shoppingList.js:44-56 | two new items with the same key in one batch both become rows |
| `ShoppingList.PostOthersUnchanged` | node-api/src/shoppingList.js:29-34 | a POST leaves every row of another user unchanged |
| `ShoppingList.PostWellFormed` | node-api/src/shoppingList.js:11-63 | POST keeps ids distinct and below the counter and quantities at least 1 |
| `ShoppingList.PostWithCleanKeys` | node-api/src/shoppingList.js:26 | with `cleanIngredient` as key function, each new row stores its key beside the raw line, and the key is lower case without `.` or `,` |
| `ShoppingList.MaybeSingle` | node-api/src/shoppingList.js:34 | the lookup finds a row exactly when one row matches, and then it is that row |
| `ShoppingList.Get` | node-api/src/shoppingList.js:73-80 | GET fails exactly on a database error; otherwise it returns exactly the user's rows, in table order, each as often as in the table |
| `ShoppingList.Patch` | node-api/src/shoppingList.js:96-114 | a database error of the lookup gives 500; otherwise PATCH answers 404 exactly when no row has the id; every non-update leaves the table alone; an updated quantity is at least 1, and a failed update never reports one |
| `ShoppingList.PatchEffect` | node-api/src/shoppingList.js:103-114 | on a well-formed table PATCH never hits the several-rows error and keeps the table well formed; it answers 500 exactly when the lookup fails, or a row has the id and its update fails, and otherwise sets the one row with the id to `max(1, qty + delta)`, changing nothing else |
| `ShoppingList.Delete` | node-api/src/shoppingList.js:129-141 | a database error answers 500 and leaves the table alone; otherwise DELETE answers "Removed" and keeps exactly the rows with another id, in order, whoever owns them |
| `ShoppingList.DeleteWellFormed` | node-api/src/shoppingList.js:129-132 | DELETE keeps the table well formed |
| `Recipes.TagNamesMembers` | node-api/src/recipes.js:20-24 | the tag names are exactly the truthy names of the links |
| `Recipes.TagNamesAppend` | node-api/src/recipes.js:20-24 | tag flattening distributes over concatenation, so names keep link order |
| `Recipes.FormatIngredients` | node-api/src/recipes.js:41-43 | one line per ingredient row, same length and order |
| `Recipes.FormatIngredientParts` | node-api/src/recipes.js:42 | a line is "quantity name" when the quantity is truthy and the name alone otherwise |
| `Recipes.SortStepsSpec` | node-api/src/recipes.js:45-47 | the steps come out as a permutation of the input, ordered by `step_number ?? 0` and stably among equal numbers |
| `Recipes.MapSummary` | node-api/src/recipes.js:26-36 | a summary keeps id, title, image, cooking time, difficulty and rating and carries the flattened tags |
| `Recipes.MapDetailShape` | node-api/src/recipes.js:38-61 | a detail has one ingredient line per ingredient row, ending in its name, one step per step row, and the summary's tags |
| `Recipes.Take` | node-api/src/recipes.js:137 | the row limit keeps a prefix: all rows when there are no more than the limit, otherwise exactly the limit |
| `Recipes.QuerySpec` | node-api/src/recipes.js:134-137 | the database part yields min(120, number of title matches) rows, in table order, only title matches, and every match preceded by fewer than 120 matches; without a truthy `q`, the first 120 rows |
| `Recipes.Search` | node-api/src/recipes.js:137-162 | with string request parameters, the search fails exactly on a database error |
| `Recipes.SearchSpec` | node-api/src/recipes.js:137-156 | search returns at most 120 summaries, in row order, exactly those passing the case-insensitive diet filter when `diet` is non-empty and the cooking-time filter when `maxTime` is given, each as often as its row was fetched (the count, with `Base.FilterUnique`, pins the list) |
| `Recipes.SearchFinds` | node-api/src/recipes.js:134-156 | a row matching the title behind fewer than 120 other matches, whose summary passes the diet and time filters, is found |
| `Recipes.SearchSound` | node-api/src/recipes.js:134-156 | every recipe found is the summary of a table row that matches the title and passes the diet and time filters |
| `Recipes.GetDetail` | node-api/src/recipes.js:173-197 | without a database error: 404 exactly when no row has the id, the detail exactly when one row alone has it (and then it is that row's mapping), and 500 exactly when two rows have it; a database error gives 500 |
| `Recipes.MatchCount` | node-api/src/recipes.js:188-189 | `.eq("id", id)` finds no row exactly when no row holds the id, one exactly when one row alone holds it, and more exactly when two rows do |
| `Auth.BearerToken` | node-api/src/auth.js:2-3 | a token exists exactly when the header starts with the case-sensitive `Bearer `, and it is the rest of the header |
| `Auth.CheckClaims` | node-api/src/auth.js:14-27 | the user id is the claim `sub` exactly when it is truthy; a failed decode gives "Invalid token" and only then; a decoded payload with a missing or empty `sub` gives "Invalid token payload" and only then |
| `Auth.RequireUser` | node-api/src/auth.js:1-28 | every request is either refused with one of the four messages or handed on with a non-empty user id |
| `Auth.MissingTokenIff` | node-api/src/auth.js:2-7 | "Missing Authorization token" exactly for an absent header, a header without the prefix, or the bare prefix |
| `Auth.InvalidFormatIff` | node-api/src/auth.js:10-13 | "Invalid token format" exactly for a non-empty token whose dot count is not 2 |
| `Auth.ThreeParts` | node-api/src/auth.js:10-13 | a token that splits into three parts is the compact form of three dot-free segments |
| `Auth.SplitSegments` | node-api/src/auth.js:10 | the compact form of three dot-free segments splits into exactly those segments |
| `Auth.ShapedHeader` | node-api/src/auth.js:14-23 | for a well-shaped bearer header the outcome is the claims check of the decoded middle segment |
| `Auth.OnlyMiddleMatters` | node-api/src/auth.js:14-16 | the first and third segments never affect the outcome |
| `Auth.PastTheShape` | node-api/src/auth.js:10-27 | any outcome other than the two shape errors comes from a well-shaped header and the claims of its middle segment |
| `Auth.AcceptedIff` | node-api/src/auth.js:22-23 | the request is handed on with user `id` exactly when the header is well shaped and its middle segment decodes to claims with `sub` = `id`, non-empty |
| `Cors.OriginCallback` | node-api/src/server.js:27-43 | a refusal always carries the error "Not allowed by CORS" |
| `Cors.NoOrigin` | node-api/src/server.js:29 | an absent origin is allowed and never echoed |
| `Cors.VercelAllowed` | node-api/src/server.js:32-34 | every `*.vercel.app` origin is allowed and echoed |
| `Cors.ListedOrigins` | node-api/src/server.js:16-22 | apart from Vercel deployments, the allowed origins are exactly `*` and the two local servers, by exact equality |
| `Cors.WildcardIsLiteral` | node-api/src/server.js:37-42 | the `*` entries match only the literal origin `*`; any other unlisted origin is refused |
| `Cors.Override` | node-api/src/server.js:50-67 | whenever it runs (a request that is not a preflight and whose origin the callback allows), the override sets the allowed headers and methods and calls next, and echoes only the request's own origin |
| `Cors.OverrideAgrees` | node-api/src/server.js:53-58 | the override's own origin test agrees with the callback: it would echo the origin exactly when the origin is present and the callback allows it (a refused origin never reaches the override) |
| `LlmClient.Fallback` | python-llm/app/llm_client.py:15-36 | the fallback keeps the request's ingredients, has the five fixed steps, the request title or the default title, the request servings or 2, cook time 30, "easy", rating 4.5, and the request tags or the empty list |
| `LlmClient.IndexOf` | python-llm/app/llm_client.py:59 | the position of the first occurrence of a character, or none |
| `LlmClient.LastIndexOf` | python-llm/app/llm_client.py:59 | the position of the last occurrence of a character, or none |
| `LlmClient.CandidateSpec` | python-llm/app/llm_client.py:59-61 | a candidate exists exactly when a `{` precedes a `}`, and it runs from the first `{` to the last `}` |
| `LlmClient.OrString` | python-llm/app/llm_client.py:67-73 | `a or b` is `a` when it is truthy and `b` otherwise |
| `LlmClient.OrList` | python-llm/app/llm_client.py:68-75 | `a or b` on lists is `a` when it is non-empty and `b` otherwise |
| `LlmClient.OrInt` | python-llm/app/llm_client.py:70 | `a or b` on integers is `a` when it is non-zero and `b` otherwise |
| `LlmClient.OrReal` | python-llm/app/llm_client.py:74 | `a or b` on floats is `a` when it is non-zero and `b` otherwise |
| `LlmClient.Merge` | python-llm/app/llm_client.py:65-77 | a merged recipe never has an empty title or step list, and takes calories, cook time and image from the model alone |
| `LlmClient.ModelPath` | python-llm/app/llm_client.py:63-77 | on the model path each field follows its truthy-or chain: model value, then request value, then default |
| `LlmClient.Generate` | python-llm/app/llm_client.py:38-79 | on every path the title and the steps are non-empty and the id is the fresh one |
| `LlmClient.FallbackPaths` | python-llm/app/llm_client.py:49-79 | no model, a raising call, a reply without braces or an unparseable candidate gives the fallback recipe |
| `FavoritesContext.ToggleCall` | frontend/src/context/FavoritesContext.tsx:49-61 | without a token no call is made; otherwise remove is called exactly for a present id and add exactly for an absent one |
| `FavoritesContext.Toggle` | frontend/src/context/FavoritesContext.tsx:49-66 | no token or a failed call leaves the state alone; a removal drops every occurrence and keeps each other id, in order, as often as it occurred; an addition appends the id |
| `FavoritesContext.Without` | frontend/src/context/FavoritesContext.tsx:58 | the filtered list holds exactly the other ids, in order, each as often as before |
| `Base.FilterUnique` | frontend/src/context/FavoritesContext.tsx:58 | a subsequence of the list made of kept elements, as long as the number of kept elements, is the filtered list: the contracts above determine their results |
| `FavoritesContext.Load` | frontend/src/context/FavoritesContext.tsx:40-47 | a successful load replaces the list wholesale; a failed one changes nothing |
| `FavoritesContext.AuthChanged` | frontend/src/context/FavoritesContext.tsx:25-33 | a session with a token stores it and loads the list; any other session clears token and list |
| `FavoritesContext.SessionRestored` | frontend/src/context/FavoritesContext.tsx:16-23 | a restored session without a token changes nothing; one with a token acts as an auth change |
| `FavoritesContext.WithoutAbsent` | frontend/src/context/FavoritesContext.tsx:58 | removing an absent id changes nothing |
| `FavoritesContext.ToggleTwice` | frontend/src/context/FavoritesContext.tsx:54-61 | toggling an absent id twice with both calls succeeding restores the list |
| `FavoritesContext.ToggleNoDuplicates` | frontend/src/context/FavoritesContext.tsx:54-61 | toggles keep a duplicate-free list duplicate-free |
| `FavoritesView.Render` | frontend/src/routes/favorites.tsx:15-26 | loading shows the spinner; otherwise the empty state shows exactly when no favourite is fetched, and the grid shows the favourite recipes |
| `FavoritesView.FavRecipesSpec` | frontend/src/routes/favorites.tsx:17 | the shown recipes are exactly the fetched ones with a favourite id, in fetched order, each as often as it was fetched (the count, with `Base.FilterUnique`, pins the list) |
| `FavoritesView.NotFetchedNotShown` | frontend/src/routes/favorites.tsx:10-17 | a favourite id missing from the fetched list is not shown |
| `FavoritesView.FavoritesOrderIrrelevant` | frontend/src/routes/favorites.tsx:17 | the order of the favourites list plays no part |
| `FavoritesView.EmptyWithoutFavorites` | frontend/src/routes/favorites.tsx:17-26 | no data or no favourites renders the empty state |
| `FormParsing.ParseListSpec` | frontend/src/routes/profile.tsx:54-61 | parsed entries are non-empty, trimmed and comma-free, and are exactly the non-empty trimmed parts, in input order, repeats included |
| `FormParsing.BlankParsesEmpty` | frontend/src/routes/profile.tsx:54-61 | whitespace and commas alone parse to the empty list |
| `FormParsing.Display` | frontend/src/routes/profile.tsx:35-36 | an absent or empty stored list displays as "", a single entry as itself |
| `FormParsing.DisplayRoundTrip` | frontend/src/routes/profile.tsx:35-61 | parsing the display form gives the stored list back when its entries are non-empty, trimmed and comma-free |
| `FormParsing.Ingredients` | frontend/src/routes/ai-generator.tsx:19-22 | ingredient entries are non-empty, trimmed, and hold no comma or newline |
| `FormParsing.IngredientsSplitNewline` | frontend/src/routes/ai-generator.tsx:19-22 | a newline separates two ingredients |
| `FormParsing.Tags` | frontend/src/routes/ai-generator.tsx:24-27 | tags are non-empty, trimmed and comma-free |
| `FormParsing.TagKeepsNewline` | frontend/src/routes/ai-generator.tsx:24-27 | a newline stays inside its one tag |
| `FormParsing.Submit` | frontend/src/routes/ai-generator.tsx:29-34 | an empty title is sent as undefined, any other as itself, with the parsed ingredients and tags and the servings as set |
| `FormParsing.ServingsField` | frontend/src/routes/ai-generator.tsx:83-86 | a cleared field is undefined, anything else the typed number |
| `ApiClient.NatStringValue` | frontend/src/lib/api.ts:39 | the decimal form of a number reads back as the number |
| `ApiClient.StringifySpec` | frontend/src/lib/api.ts:39 | a string is sent as it is; a number as a decimal numeral, with `-` when negative, that reads back as the number |
| `ApiClient.SearchQuery` | frontend/src/lib/api.ts:37-39 | one pair per kept parameter |
| `ApiClient.SearchQueryIsFilterMap` | frontend/src/lib/api.ts:36-40 | the query is the kept parameters, in order, each paired with its stringified value |
| `ApiClient.SearchQueryMembers` | frontend/src/lib/api.ts:37-39 | every kept parameter is sent, and only kept parameters are |
| `ApiClient.ZeroSent` | frontend/src/lib/api.ts:38-39 | a `maxTime` of 0 is sent as "0" |
| `ApiClient.HandleResponse` | frontend/src/lib/api.ts:21-27 | a non-ok response throws the body text, or the status text for an empty body; an ok response yields the parsed body or the JSON failure |

## Left out

- Supabase, HTTP and fetch: the database is a sequence of rows. A database
  error that the code checks is a flag of the operation (search, detail,
  GET, PATCH's lookup and update, DELETE). The `/recipes/recommended` forwarding
  to the Python service is not modelled.
- ShoppingList.PostBulk: the lookups, updates and the insert always succeed.
  The code ignores their errors: a failed lookup reads as "not found", and a
  failed update or insert still answers success with the same `added`.
- ShoppingList.PostBulk: every item is a string. A falsy item that is not a
  string (`null`, `0`, `false`) is keyed as "" and stored as the row's
  `ingredient` itself; it is not modelled. A truthy item that is not a
  string makes `cleanIngredient` throw on `toLowerCase`, and the POST answers
  500 after the quantity updates for the items before it were already
  written, with nothing inserted; that path is not modelled either.
- The `ilike` title match with its `%` and `_` wildcards is the uninterpreted
  predicate `titleMatches`.
- Row identifiers come from a counter kept beside the table, not from the
  database's generator.
- Concurrency: every request and every state update is one atomic step.
  The read-then-write race of the bulk POST and React's asynchronous state
  updates are not modelled.
- Floating point and JavaScript coercions: quantities, deltas, times and
  servings are integers. The ratings 4.5 and `0.0` are Dafny reals.
- Recipes.Search: `maxTime` is `Some(m)` for a number `m`; a non-numeric
  `maxTime` (for which `Number` gives NaN) is not modelled.
- Recipes.Search: every request parameter is one string. A repeated `diet`
  parameter arrives as an array, `diet.toLowerCase` throws, and the request
  answers 500; that path is not modelled.
- ShoppingList.Patch: `delta` is an integer; a string or fractional `delta`
  (string concatenation, non-integer quantities) is not modelled.
- Unicode: lower-casing, `\s`, `\b`, `\w` and `trim` work on ASCII only.
  Non-ASCII characters are neither letters nor whitespace.
- Auth.RequireUser: a `sub` claim that is not a string (a number, an object)
  is not modelled; the claims hold an optional string.
- Base64url decoding with `JSON.parse`, and `json.loads` with the field
  reads, are uninterpreted partial functions.
- LlmClient.Merge: the `or` chains run on the model's values as pydantic
  will coerce them, not on the raw JSON values. In the source a raw value
  that is truthy but validates to a falsy one escapes the chain:
  `"servings": "0"` gives servings 0 and `"rating": "0"` gives rating 0.0,
  neither of which the model can produce. A raw value pydantic rejects
  makes the whole reply fall back, which `parse` giving `None` covers.
- URL encoding of the search query string is not modelled: the query is its
  list of key-value pairs.
- The `cors` package's own handling is not modelled. When the callback
  refuses an origin, `cors` passes the error to `next`, Express skips every
  ordinary middleware, and its default error handler answers 500; the header
  override never runs. On an allowed `OPTIONS` preflight `cors` answers 204
  itself and the override never runs either. The callback's decision and the
  override's headers are modelled separately.
- Environment and configuration reading (API keys, URLs, ports), logging,
  `alert` pop-ups and React rendering other than the favourites page branch
  are not modelled.
- The thin routers for favourites, ratings and profiles, the allergy filter
  of the Python service, the authentication forms and the browser tests are
  not part of this model.

=== FILE: api_client.dfy ===
/** The front-end API client: the search parameters it puts in the query
    string, and the handling of every response. Fetching, URL encoding and
    JSON parsing are left abstract: a response is its status flag, status
    text and body, and `parse` is the body's JSON reading. */
module ApiClient {
  import opened Base

  /** A search parameter's value: `undefined`, a string, or an integer. */
  datatype Value = Undefined | Str(s: string) | Num(n: int)

  datatype Param = Param(key: string, value: Value)

  /** Kept by the filter: neither `undefined` nor the empty string. */
  predicate Kept(p: Param)
  {
    p.value != Undefined && p.value != Str("")
  }

  /** A decimal digit. */
  function DigitChar(d: nat): (c: char)
    requires d < 10
    ensures '0' <= c <= '9'
  {
    ('0' as int + d) as char
  }

  /** The value of a decimal digit character. */
  function DigitValue(c: char): (d: nat)
    requires '0' <= c <= '9'
    ensures d < 10 && DigitChar(d) == c
  {
    (c as int - '0' as int)
  }

  predicate AllDigits(s: string)
  {
    forall i :: 0 <= i < |s| ==> '0' <= s[i] <= '9'
  }

  /** `String(n)` for a non-negative integer: its decimal digits, without
      leading zeros. */
  function NatString(n: nat): (r: string)
    ensures r != [] && AllDigits(r)
    ensures |r| > 1 ==> r[0] != '0'
  {
    if n < 10 then [DigitChar(n)] else NatString(n / 10) + [DigitChar(n % 10)]
  }

  /** The number a string of decimal digits denotes. */
  function DecimalValue(s: string): nat
    requires AllDigits(s)
  {
    if s == [] then 0 else DecimalValue(s[..|s| - 1]) * 10 + DigitValue(s[|s| - 1])
  }

  /** Reading back the decimal form gives the number. */
  lemma {:induction false} NatStringValue(n: nat)
    ensures DecimalValue(NatString(n)) == n
    decreases n
  {
    var r := NatString(n);
    if n >= 10 {
      NatStringValue(n / 10);
      assert r[..|r| - 1] == NatString(n / 10);
      assert DigitValue(r[|r| - 1]) == n % 10;
    } else {
      assert r[..0] == [];
    }
  }

  /** `String(v)` of a kept value: the string itself, or the integer's
      decimal form with a leading `-` when negative. */
  function Stringify(v: Value): string
    requires v != Undefined
  {
    match v
    case Str(s) => s
    case Num(n) => if n >= 0 then NatString(n) else "-" + NatString(-n)
  }

  /** A number is sent as a decimal numeral that reads back as the number;
      a string is sent as it is. */
  lemma StringifySpec(v: Value)
    requires v != Undefined
    ensures v.Str? ==> Stringify(v) == v.s
    ensures v.Num? && v.n >= 0 ==> AllDigits(Stringify(v)) && DecimalValue(Stringify(v)) == v.n
    ensures v.Num? && v.n < 0 ==> var r := Stringify(v);
      |r| > 1 && r[0] == '-' && AllDigits(r[1..]) && DecimalValue(r[1..]) == -v.n
  {
    if v.Num? {
      if v.n >= 0 {
        NatStringValue(v.n);
      } else {
        NatStringValue(-v.n);
        assert Stringify(v)[1..] == NatString(-v.n);
      }
    }
  }

  /** The query pair of a kept parameter. */
  function Pair(p: Param): (string, string)
    requires Kept(p)
  {
    (p.key, Stringify(p.value))
  }

  /** The query pairs `searchRecipes` sends, in the order of the given
      parameters. */
  function SearchQuery(params: seq<Param>): (r: seq<(string, string)>)
    ensures |r| == CountWhere(params, Kept)
  {
    if params == [] then []
    else if Kept(params[0]) then [Pair(params[0])] + SearchQuery(params[1..])
    else SearchQuery(params[1..])
  }

  /** The pairs of a sequence of kept parameters. */
  function Pairs(params: seq<Param>): (r: seq<(string, string)>)
    requires forall i :: 0 <= i < |params| ==> Kept(params[i])
    ensures |r| == |params| && forall i :: 0 <= i < |params| ==> r[i] == Pair(params[i])
  {
    seq(|params|, i requires 0 <= i < |params| => Pair(params[i]))
  }

  predicate AllKept(params: seq<Param>)
  {
    forall i :: 0 <= i < |params| ==> Kept(params[i])
  }

  /** The query is the filter followed by the map: the pairs of exactly
      the kept parameters, in their order. */
  lemma {:induction false} SearchQueryIsFilterMap(params: seq<Param>)
    ensures AllKept(Filter(params, Kept)) && SearchQuery(params) == Pairs(Filter(params, Kept))
    decreases |params|
  {
    if params != [] {
      SearchQueryIsFilterMap(params[1..]);
      if Kept(params[0]) {
        PairsCons(params[0], Filter(params[1..], Kept));
      }
    }
  }

  lemma PairsCons(p: Param, kept: seq<Param>)
    requires Kept(p) && AllKept(kept)
    ensures AllKept([p] + kept)
    ensures Pairs([p] + kept) == [Pair(p)] + Pairs(kept)
  {
    assert forall i :: 0 < i <= |kept| ==> ([p] + kept)[i] == kept[i - 1];
  }

  /** Every kept parameter is sent with its stringified value, and only
      kept parameters are sent. */
  lemma SearchQueryMembers(params: seq<Param>)
    ensures forall p :: p in params && Kept(p) ==> Pair(p) in SearchQuery(params)
    ensures forall q :: q in SearchQuery(params) ==> exists p :: p in params && Kept(p) && q == Pair(p)
  {
    SearchQueryIsFilterMap(params);
    var kept := Filter(params, Kept);
    forall p | p in params && Kept(p) ensures Pair(p) in SearchQuery(params) {
      var i :| 0 <= i < |kept| && kept[i] == p;
      assert SearchQuery(params)[i] == Pair(p);
    }
    forall q | q in SearchQuery(params) ensures exists p :: p in params && Kept(p) && q == Pair(p) {
      var i :| 0 <= i < |kept| && SearchQuery(params)[i] == q;
      assert kept[i] in kept;
    }
  }

  /** A `maxTime` of 0 is sent as "0". */
  lemma ZeroSent(key: string)
    ensures SearchQuery([Param(key, Num(0))]) == [(key, "0")]
  {
  }

  /** What `handleResponse` yields: the parsed body, an `Error` with a
      message, or the failure of the JSON reading. */
  datatype Outcome<T> = Parsed(value: T) | Thrown(message: string) | BadJson

  /** `handleResponse`. */
  function HandleResponse<T>(ok: bool, statusText: string, body: string, parse: string -> Option<T>): (r: Outcome<T>)
    ensures !ok <==> r.Thrown?
    ensures r.Thrown? ==> (body != "" ==> r.message == body) && (body == "" ==> r.message == statusText)
    ensures ok ==> (r.Parsed? <==> parse(body).Some?) && (r.Parsed? ==> r.value == parse(body).value)
  {
    if !ok then Thrown(if body != "" then body else statusText)
    else
      match parse(body)
      case Some(v) => Parsed(v)
      case None => BadJson
  }
}

=== FILE: auth.dfy ===
/** The bearer-token gate of the API: the `Authorization` header must carry
    `Bearer <token>`, the token must have the three dot-separated segments of
    the JWS Compact Serialization (section 7.1 of RFC 7515), and the payload
    segment must decode to claims with a truthy `sub` (section 4.1.2 of
    RFC 7519). Base64url decoding and JSON parsing together are one
    uninterpreted partial function `decode`; `None` stands for a throw. */
module Auth {
  import opened Base
  import opened Text

  /** The claims of a decoded payload; only `sub` is read. */
  datatype Claims = Claims(sub: Option<string>)

  /** What the middleware does: answer 401 with an error message, or call
      the next handler with the authenticated user id. */
  datatype Outcome = Unauthorized(error: string) | Next(userId: string)

  const Prefix: string := "Bearer "
  const MissingToken: string := "Missing Authorization token"
  const InvalidFormat: string := "Invalid token format"
  const InvalidPayload: string := "Invalid token payload"
  const InvalidToken: string := "Invalid token"

  /** The segment separator of a compact token. */
  const Dot: set<char> := {'.'}

  predicate DotFree(s: string)
  {
    forall i :: 0 <= i < |s| ==> s[i] != '.'
  }

  /** The compact form of three segments, grouped from the right. */
  function Compact(a: string, m: string, c: string): string
  {
    a + ("." + (m + ("." + c)))
  }

  /** The header value of a well-shaped token with segments `a`, `m`, `c`. */
  function Bearer(a: string, m: string, c: string): string
  {
    Prefix + Compact(a, m, c)
  }

  /** `header` is the bearer header of the dot-free segments `a`, `m`, `c`. */
  predicate Shaped(header: Option<string>, a: string, m: string, c: string)
  {
    DotFree(a) && DotFree(m) && DotFree(c) && header == Some(Bearer(a, m, c))
  }

  /** The token after the case-sensitive `Bearer ` prefix; an absent header
      reads as the empty string. */
  function BearerToken(header: Option<string>): (t: Option<string>)
    ensures t.Some? <==> StartsWith(header.GetOr(""), Prefix)
    ensures t.Some? ==> header.GetOr("") == Prefix + t.value
  {
    var h := header.GetOr("");
    if StartsWith(h, Prefix) then
      assert h == h[..|Prefix|] + h[|Prefix|..];
      Some(h[|Prefix|..])
    else None
  }

  /** The decision on the decoded payload: a failed decode, a missing or
      empty `sub`, or the user id. */
  function CheckClaims(payload: Option<Claims>): (r: Outcome)
    ensures r.Next? <==> payload.Some? && payload.value.sub.Some? && payload.value.sub.value != ""
    ensures r.Next? ==> r.userId == payload.value.sub.value
    ensures r == Unauthorized(InvalidToken) <==> payload.None?
    ensures r == Unauthorized(InvalidPayload) <==>
      payload.Some? && (payload.value.sub.None? || payload.value.sub.value == "")
  {
    match payload
    case None => Unauthorized(InvalidToken)
    case Some(claims) =>
      if claims.sub.None? || claims.sub.value == "" then Unauthorized(InvalidPayload)
      else Next(claims.sub.value)
  }

  /** `requireUser`. */
  function RequireUser(header: Option<string>, decode: string -> Option<Claims>): (r: Outcome)
    ensures r.Unauthorized? ==> r.error in {MissingToken, InvalidFormat, InvalidPayload, InvalidToken}
    ensures r.Next? ==> r.userId != ""
  {
    var token := BearerToken(header);
    if token.None? || token.value == "" then Unauthorized(MissingToken)
    else
      var parts := Split(token.value, Dot);
      if |parts| != 3 then Unauthorized(InvalidFormat)
      else CheckClaims(decode(parts[1]))
  }

  /** A dot-free string is one part. */
  lemma SplitDotFree(c: string)
    requires DotFree(c)
    ensures Split(c, Dot) == [c]
  {
    SplitPrefix(c, "", Dot);
    assert c + "" == c;
  }

  /** Joining with dots from the left gives the same string. */
  lemma CompactAssoc(a: string, m: string, c: string)
    ensures a + "." + m + "." + c == Compact(a, m, c)
  {
    SeqAssoc(a + "." + m, ".", c);
    SeqAssoc(a + ".", m, "." + c);
    SeqAssoc(a, ".", m + ("." + c));
  }

  /** Three dot-free segments joined by dots split back into themselves. */
  lemma SplitSegments(a: string, m: string, c: string)
    requires DotFree(a) && DotFree(m) && DotFree(c)
    ensures Split(Compact(a, m, c), Dot) == [a, m, c]
  {
    SplitDotFree(c);
    SplitAtSeparator(m, '.', c, Dot);
    SplitAtSeparator(a, '.', m + ("." + c), Dot);
    assert [a] + ([m] + [c]) == [a, m, c];
  }

  /** A token that splits into three parts is those parts joined by dots. */
  lemma ThreeParts(t: string)
    requires |Split(t, Dot)| == 3
    ensures var p := Split(t, Dot);
      DotFree(p[0]) && DotFree(p[1]) && DotFree(p[2]) && t == Compact(p[0], p[1], p[2])
  {
    var p := Split(t, Dot);
    SplitJoin(t, '.');
    assert p == [p[0], p[1], p[2]];
    JoinThree(p[0], p[1], p[2], ".");
    CompactAssoc(p[0], p[1], p[2]);
  }

  /** A missing header, one without the case-sensitive `Bearer ` prefix, and
      a bare `Bearer ` all give the missing-token 401. */
  lemma MissingTokenIff(header: Option<string>, decode: string -> Option<Claims>)
    ensures RequireUser(header, decode) == Unauthorized(MissingToken)
      <==> header.None? || !StartsWith(header.value, Prefix) || header.value == Prefix
  {
    var t := BearerToken(header);
    if t.Some? && t.value == "" {
      assert header.GetOr("") == Prefix + "";
    }
    if header.Some? && header.value == Prefix {
      assert t.Some?;
      assert |t.value| == 0;
    }
  }

  /** Past the prefix, a non-empty token without exactly two dots gives the
      format 401. */
  lemma InvalidFormatIff(header: Option<string>, decode: string -> Option<Claims>)
    ensures RequireUser(header, decode) == Unauthorized(InvalidFormat)
      <==> exists t :: header == Some(Prefix + t) && t != "" && Occurrences(t, Dot) != 2
  {
    var t := BearerToken(header);
    if exists t' :: header == Some(Prefix + t') && t' != "" && Occurrences(t', Dot) != 2 {
      var t' :| header == Some(Prefix + t') && t' != "" && Occurrences(t', Dot) != 2;
      assert (Prefix + t')[..|Prefix|] == Prefix;
      assert t.Some? && t.value == t';
    }
  }

  /** A well-shaped token is judged by its decoded middle segment alone. */
  lemma ShapedHeader(a: string, m: string, c: string, decode: string -> Option<Claims>)
    requires DotFree(a) && DotFree(m) && DotFree(c)
    ensures RequireUser(Some(Bearer(a, m, c)), decode) == CheckClaims(decode(m))
  {
    var h := Bearer(a, m, c);
    var t := Compact(a, m, c);
    assert h == Prefix + t;
    assert h[..|Prefix|] == Prefix;
    assert BearerToken(Some(h)) == Some(t);
    SplitSegments(a, m, c);
  }

  /** The first and third segments are never inspected, and `decode` is only
      applied to the middle one. */
  lemma OnlyMiddleMatters(a: string, m: string, c: string, a': string, c': string,
                          d1: string -> Option<Claims>, d2: string -> Option<Claims>)
    requires DotFree(a) && DotFree(m) && DotFree(c) && DotFree(a') && DotFree(c')
    requires d1(m) == d2(m)
    ensures RequireUser(Some(Bearer(a, m, c)), d1) == RequireUser(Some(Bearer(a', m, c')), d2)
  {
    ShapedHeader(a, m, c, d1);
    ShapedHeader(a', m, c', d2);
  }

  /** Every outcome other than the two shape 401s comes from a well-shaped
      header, judged by its middle segment. */
  lemma PastTheShape(header: Option<string>, decode: string -> Option<Claims>)
    requires RequireUser(header, decode) !in {Unauthorized(MissingToken), Unauthorized(InvalidFormat)}
    ensures exists a, m, c :: Shaped(header, a, m, c) && RequireUser(header, decode) == CheckClaims(decode(m))
  {
    var t := BearerToken(header).value;
    var p := Split(t, Dot);
    ThreeParts(t);
    assert header.value == Prefix + t;
    assert Shaped(header, p[0], p[1], p[2]);
  }

  /** Success: `next` runs with `sub` as the user id exactly when the header
      is a well-shaped bearer token whose middle segment decodes to claims
      with a non-empty `sub`. */
  lemma AcceptedIff(header: Option<string>, decode: string -> Option<Claims>, id: string)
    ensures RequireUser(header, decode) == Next(id)
      <==> exists a, m, c :: Shaped(header, a, m, c) && decode(m) == Some(Claims(Some(id))) && id != ""
  {
    if RequireUser(header, decode) == Next(id) {
      PastTheShape(header, decode);
    }
    if exists a, m, c :: Shaped(header, a, m, c) && decode(m) == Some(Claims(Some(id))) && id != "" {
      var a, m, c :| Shaped(header, a, m, c) && decode(m) == Some(Claims(Some(id))) && id != "";
      ShapedHeader(a, m, c, decode);
    }
  }
}

=== FILE: base.dfy ===
/** Shared building blocks: an optional value (JavaScript's null/undefined,
    Python's None) and order-preserving filtering of sequences. */
module Base {

  /** A value that may be absent. */
  datatype Option<T> = None | Some(value: T) {
    /** The value, or `default` when absent (the `??` operator). */
    function GetOr(default: T): T
    {
      match this
      case Some(v) => v
      case None => default
    }
  }

  /** `a` can be obtained from `b` by deleting elements: the elements of `a`
      occur in `b` in the same order. */
  predicate IsSubseq<T(==)>(a: seq<T>, b: seq<T>)
    decreases |b|
  {
    if a == [] then true
    else if b == [] then false
    else if a[0] == b[0] then IsSubseq(a[1..], b[1..])
    else IsSubseq(a, b[1..])
  }

  /** Putting an element in front of the larger sequence keeps a
      subsequence, and dropping the first element of the smaller one does
      too. */
  lemma {:induction false} SubseqCons<T>(a: seq<T>, e: T, b: seq<T>)
    requires IsSubseq(a, b)
    ensures IsSubseq(a, [e] + b)
    decreases |b|, 1
  {
    assert ([e] + b)[1..] == b;
    if a != [] && a[0] == e {
      SubseqTail(a, b);
    }
  }

  lemma {:induction false} SubseqTail<T>(a: seq<T>, b: seq<T>)
    requires a != [] && IsSubseq(a, b)
    ensures IsSubseq(a[1..], b)
    decreases |b|, 0
  {
    if a[0] == b[0] {
      SubseqCons(a[1..], b[0], b[1..]);
      assert [b[0]] + b[1..] == b;
    } else {
      SubseqTail(a, b[1..]);
      SubseqCons(a[1..], b[0], b[1..]);
      assert [b[0]] + b[1..] == b;
    }
  }

  /** A subsequence of `d` is a subsequence of `b + d`. */
  lemma {:induction false} SubseqExtend<T>(c: seq<T>, b: seq<T>, d: seq<T>)
    requires IsSubseq(c, d)
    ensures IsSubseq(c, b + d)
    decreases |b|
  {
    if b != [] {
      SubseqExtend(c, b[1..], d);
      SubseqCons(c, b[0], b[1..] + d);
      assert [b[0]] + (b[1..] + d) == b + d;
    } else {
      assert b + d == d;
    }
  }

  /** Subsequences of the two halves make a subsequence of the whole. */
  lemma {:induction false} SubseqAppend<T>(a: seq<T>, b: seq<T>, c: seq<T>, d: seq<T>)
    requires IsSubseq(a, b) && IsSubseq(c, d)
    ensures IsSubseq(a + c, b + d)
    decreases |b|
  {
    if a == [] {
      SubseqExtend(c, b, d);
      assert a + c == c;
    } else if a[0] == b[0] {
      SubseqAppend(a[1..], b[1..], c, d);
      assert (a + c)[1..] == a[1..] + c;
      assert (b + d)[1..] == b[1..] + d;
    } else {
      SubseqAppend(a, b[1..], c, d);
      assert (b + d)[1..] == b[1..] + d;
    }
  }

  /** A subsequence has no element its sequence lacks. */
  lemma {:induction false} SubseqMembers<T>(a: seq<T>, b: seq<T>)
    requires IsSubseq(a, b)
    ensures forall x :: x in a ==> x in b
    decreases |b|
  {
    if a != [] {
      if a[0] == b[0] {
        SubseqMembers(a[1..], b[1..]);
        assert forall x :: x in a ==> x == a[0] || x in a[1..];
      } else {
        SubseqMembers(a, b[1..]);
      }
    }
  }

  /** Being a subsequence is transitive. */
  lemma {:induction false} SubseqTrans<T>(a: seq<T>, b: seq<T>, c: seq<T>)
    requires IsSubseq(a, b) && IsSubseq(b, c)
    ensures IsSubseq(a, c)
    decreases |c|
  {
    if a != [] {
      if b[0] == c[0] {
        if a[0] == b[0] {
          SubseqTrans(a[1..], b[1..], c[1..]);
        } else {
          SubseqTrans(a, b[1..], c[1..]);
          SubseqSkip(a, c);
        }
      } else {
        SubseqTrans(a, b, c[1..]);
        SubseqSkip(a, c);
      }
    }
  }

  /** A subsequence of the tail is a subsequence of the whole. */
  lemma SubseqSkip<T>(a: seq<T>, c: seq<T>)
    requires c != [] && IsSubseq(a, c[1..])
    ensures IsSubseq(a, c)
  {
    SubseqCons(a, c[0], c[1..]);
    ConsJoin(c);
  }

  /** A subsequence is no longer than its sequence. */
  lemma {:induction false} SubseqLength<T>(a: seq<T>, b: seq<T>)
    requires IsSubseq(a, b)
    ensures |a| <= |b|
    decreases |b|
  {
    if a != [] {
      if a[0] == b[0] {
        SubseqLength(a[1..], b[1..]);
      } else {
        SubseqLength(a, b[1..]);
      }
    }
  }

  /** A prefix is a subsequence. */
  lemma {:induction false} PrefixSubseq<T>(s: seq<T>, n: nat)
    requires n <= |s|
    ensures IsSubseq(s[..n], s)
    decreases n
  {
    if n > 0 {
      assert s[..n][1..] == s[1..][..n - 1];
      PrefixSubseq(s[1..], n - 1);
    }
  }

  /** Every sequence is a subsequence of itself. */
  lemma {:induction false} SubseqRefl<T>(a: seq<T>)
    ensures IsSubseq(a, a)
    decreases |a|
  {
    if a != [] {
      SubseqRefl(a[1..]);
    }
  }

  /** Number of elements of `s` satisfying `p`. */
  function CountWhere<T>(s: seq<T>, p: T -> bool): nat
  {
    if s == [] then 0 else (if p(s[0]) then 1 else 0) + CountWhere(s[1..], p)
  }

  /** The elements of `s` satisfying `p`, in their original order
      (JavaScript's `Array.prototype.filter`). */
  function Filter<T(!new)>(s: seq<T>, p: T -> bool): (r: seq<T>)
    ensures forall x :: x in r <==> x in s && p(x)
    ensures IsSubseq(r, s)
    ensures |r| == CountWhere(s, p)
  {
    if s == [] then []
    else if p(s[0]) then [s[0]] + Filter(s[1..], p)
    else
      var rest := Filter(s[1..], p);
      assert rest == [] || rest[0] != s[0] by {
        if rest != [] { assert rest[0] in rest; }
      }
      rest
  }

  /** No element is counted exactly when no position satisfies `p`. */
  lemma {:induction false} CountZero<T>(s: seq<T>, p: T -> bool)
    ensures CountWhere(s, p) == 0 <==> forall i :: 0 <= i < |s| ==> !p(s[i])
    decreases |s|
  {
    if s != [] {
      CountZero(s[1..], p);
      assert forall i :: 0 < i < |s| ==> s[i] == s[1..][i - 1];
    }
  }

  /** At least two elements are counted exactly when two positions satisfy
      `p`. */
  lemma {:induction false} CountTwo<T>(s: seq<T>, p: T -> bool)
    ensures CountWhere(s, p) >= 2 <==> exists i, j :: 0 <= i < j < |s| && p(s[i]) && p(s[j])
    decreases |s|
  {
    if s != [] {
      var t := s[1..];
      CountTwo(t, p);
      CountZero(t, p);
      if CountWhere(s, p) >= 2 {
        if p(s[0]) {
          var j :| 0 <= j < |t| && p(t[j]);
          assert p(s[0]) && p(s[j + 1]);
        } else {
          var i, j :| 0 <= i < j < |t| && p(t[i]) && p(t[j]);
          assert p(s[i + 1]) && p(s[j + 1]);
        }
      } else {
        forall i, j | 0 <= i < j < |s| && p(s[i]) ensures !p(s[j]) {
          assert s[j] == t[j - 1];
          if i > 0 {
            assert s[i] == t[i - 1];
          }
        }
      }
    }
  }

  /** Exactly one element is counted exactly when one position satisfies
      `p` and no other does. */
  lemma CountOne<T>(s: seq<T>, p: T -> bool)
    ensures CountWhere(s, p) == 1 <==>
      exists i :: 0 <= i < |s| && p(s[i]) && forall j :: 0 <= j < |s| && p(s[j]) ==> j == i
  {
    CountZero(s, p);
    CountTwo(s, p);
    if CountWhere(s, p) == 1 {
      var i :| 0 <= i < |s| && p(s[i]);
      forall j | 0 <= j < |s| && p(s[j]) ensures j == i {
        if j != i {
          assert false;
        }
      }
    }
  }

  /** Filtering distributes over concatenation. */
  lemma {:induction false} FilterAppend<T(!new)>(a: seq<T>, b: seq<T>, p: T -> bool)
    ensures Filter(a + b, p) == Filter(a, p) + Filter(b, p)
    decreases |a|
  {
    if a == [] {
      assert a + b == b;
    } else {
      AppendTail(a, b);
      FilterAppend(a[1..], b, p);
    }
  }

  /** An element satisfying `p` sits in the filtered sequence right after
      the kept elements that precede it. */
  lemma FilterAt<T(!new)>(s: seq<T>, p: T -> bool, i: nat)
    requires i < |s| && p(s[i])
    ensures CountWhere(s[..i], p) < |Filter(s, p)|
    ensures Filter(s, p)[CountWhere(s[..i], p)] == s[i]
  {
    SliceJoin(s, i);
    FilterAppend(s[..i], s[i..], p);
    assert s[i..][0] == s[i];
  }

  /** Filtering a sequence whose elements all pass keeps it whole. */
  lemma {:induction false} FilterAll<T(!new)>(s: seq<T>, p: T -> bool)
    requires forall k :: 0 <= k < |s| ==> p(s[k])
    ensures Filter(s, p) == s
    decreases |s|
  {
    if s != [] {
      FilterAll(s[1..], p);
      ConsJoin(s);
    }
  }

  /** A subsequence made of elements satisfying `p` has no more elements
      than `s` has such elements. */
  lemma {:induction false} SubseqCountBound<T>(r: seq<T>, s: seq<T>, p: T -> bool)
    requires IsSubseq(r, s) && forall i :: 0 <= i < |r| ==> p(r[i])
    ensures |r| <= CountWhere(s, p)
    decreases |s|
  {
    if r != [] {
      if r[0] == s[0] {
        SubseqCountBound(r[1..], s[1..], p);
      } else {
        SubseqCountBound(r, s[1..], p);
      }
    }
  }

  /** The filtered sequence is the only subsequence that consists of
      elements satisfying `p` and has as many elements as `s` has such
      elements: the contract of `Filter` determines its result. */
  lemma {:induction false} FilterUnique<T(!new)>(r: seq<T>, s: seq<T>, p: T -> bool)
    requires IsSubseq(r, s) && forall i :: 0 <= i < |r| ==> p(r[i])
    requires |r| == CountWhere(s, p)
    ensures r == Filter(s, p)
    decreases |s|
  {
    if s != [] && r != [] {
      if r[0] == s[0] {
        FilterUnique(r[1..], s[1..], p);
        ConsJoin(r);
      } else {
        SubseqCountBound(r, s[1..], p);
        FilterUnique(r, s[1..], p);
      }
    }
  }

  /** Every element of `s` satisfying `p` is kept. */
  /** Two tests that agree on every element of `s` count the same. */
  lemma {:induction false} CountSame<T>(s: seq<T>, p: T -> bool, q: T -> bool)
    requires forall k :: 0 <= k < |s| ==> p(s[k]) == q(s[k])
    ensures CountWhere(s, p) == CountWhere(s, q)
    decreases |s|
  {
    if s != [] {
      assert forall k :: 0 <= k < |s[1..]| ==> s[1..][k] == s[k + 1];
      CountSame(s[1..], p, q);
    }
  }

  /** Filtering by `p` and then counting by `q` counts the elements that
      pass both. */
  lemma {:induction false} CountFiltered<T(!new)>(s: seq<T>, p: T -> bool, q: T -> bool, both: T -> bool)
    requires forall k :: 0 <= k < |s| ==> both(s[k]) == (p(s[k]) && q(s[k]))
    ensures CountWhere(Filter(s, p), q) == CountWhere(s, both)
    decreases |s|
  {
    if s != [] {
      assert forall k :: 0 <= k < |s[1..]| ==> s[1..][k] == s[k + 1];
      CountFiltered(s[1..], p, q, both);
      if p(s[0]) {
        var f := Filter(s[1..], p);
        assert Filter(s, p) == [s[0]] + f;
        assert ([s[0]] + f)[1..] == f;
      }
    }
  }

  lemma FilterKeepsAt<T(!new)>(s: seq<T>, p: T -> bool, i: nat)
    requires i < |s| && p(s[i])
    ensures s[i] in Filter(s, p)
  {
    assert s[i] in s;
  }

  /** Concatenation is associative. */
  lemma SeqAssoc<T>(a: seq<T>, b: seq<T>, c: seq<T>)
    ensures a + (b + c) == (a + b) + c
  {
  }

  /** A non-empty sequence is its first element followed by the rest. */
  lemma ConsJoin<T>(s: seq<T>)
    requires s != []
    ensures [s[0]] + s[1..] == s
  {
  }

  /** Dropping the first element of a concatenation with a non-empty first
      half drops it from that half. */
  lemma AppendTail<T>(a: seq<T>, b: seq<T>)
    requires a != []
    ensures (a + b)[1..] == a[1..] + b
  {
  }

  /** A sequence is the concatenation of its two slices at `i`. */
  lemma SliceJoin<T>(s: seq<T>, i: nat)
    requires i <= |s|
    ensures s[..i] + s[i..] == s
  {
  }

  /** A suffix from a valid index is its first element and the rest. */
  lemma SliceCons<T>(s: seq<T>, n: nat)
    requires n < |s|
    ensures s[n..] == [s[n]] + s[n + 1..]
  {
  }

  /** Dropping the element put in front gives the sequence back. */
  lemma ConsTail<T>(x: T, s: seq<T>)
    ensures ([x] + s)[1..] == s
  {
  }

  /** A sequence is the concatenation of its three slices at `i` and `j`. */
  lemma SliceSplit<T>(s: seq<T>, i: nat, j: nat)
    requires i <= j <= |s|
    ensures s == s[..i] + (s[i..j] + s[j..])
  {
    assert s[..i] + (s[i..j] + s[j..]) == s[..i] + s[i..];
  }

  /** No element occurs twice. */
  predicate NoDuplicates<T(==)>(s: seq<T>)
  {
    forall i, j :: 0 <= i < j < |s| ==> s[i] != s[j]
  }
}

=== FILE: clean_ingredient.dfy ===
/** `cleanIngredient` (node-api/src/cleaningredient.js): six regular-expression
    rewrites of a free-text ingredient line, producing the key under which the
    shopping list merges ingredients. Each rewrite is a pure function on ASCII
    text; `\b`, `\s`, `\d` and the `i` flag are written out by hand. */
module CleanIngredient {
  import opened Base
  import opened Text

  /** The alternation of the unit pattern, `cloves?` and `pieces?` expanded. */
  const UnitWords: set<string> :=
    {"tsp", "tbsp", "cup", "cups", "lb", "lbs", "oz", "g", "gram", "grams", "kg", "ml",
     "clove", "cloves", "piece", "pieces"}

  const DescriptorWords: set<string> :=
    {"minced", "diced", "chopped", "sliced", "cubed", "fresh", "ground", "grated"}

  predicate NotSpace(c: char)
  {
    !IsSpace(c)
  }

  /** The middle of a quantity such as `1/2`, `1.5` or `1 2`. */
  predicate IsQuantitySeparator(c: char)
  {
    c == '/' || c == '.' || IsSpace(c)
  }

  /** After optional leading whitespace the text starts with a digit: exactly
      when the quantity pattern matches. */
  predicate StartsWithNumber(s: string)
  {
    var a := RunEnd(s, 0, IsSpace);
    a < |s| && IsDigit(s[a])
  }

  /** End of the match of `^\s*\d+([\/\.\s]\d+)?\s*`, or 0 when there is
      none. Every quantifier is greedy and the optional group is taken
      whenever a separator followed by at least one digit is present. The
      match consists of digits, whitespace, `/` and `.` only, and is never
      followed by whitespace. */
  function QuantityEnd(s: string): (n: nat)
    ensures n <= |s|
    ensures n == 0 <==> !StartsWithNumber(s)
    ensures forall i :: 0 <= i < n ==> IsDigit(s[i]) || IsQuantitySeparator(s[i])
    ensures 0 < n < |s| ==> !IsSpace(s[n])
  {
    var a := RunEnd(s, 0, IsSpace);
    var b := RunEnd(s, a, IsDigit);
    if b == a then 0
    else
      var c := if b < |s| && IsQuantitySeparator(s[b]) && RunEnd(s, b + 1, IsDigit) > b + 1
               then RunEnd(s, b + 1, IsDigit) else b;
      RunEnd(s, c, IsSpace)
  }

  /** Step 2: delete a leading quantity. What is left is a suffix of the
      line; it is the whole line exactly when no digit follows the leading
      whitespace; only digits, whitespace, `/` and `.` are removed; and after
      a removal the rest does not begin with whitespace. */
  function StripQuantity(s: string): (r: string)
    ensures |r| <= |s| && r == s[|s| - |r|..]
    ensures r == s <==> !StartsWithNumber(s)
    ensures r != s ==> r == [] || !IsSpace(r[0])
    ensures forall i :: 0 <= i < |s| - |r| ==> IsDigit(s[i]) || IsQuantitySeparator(s[i])
  {
    var n := QuantityEnd(s);
    assert n > 0 ==> |s[n..]| < |s|;
    s[n..]
  }

  /** `\b(w1|w2|...)\b` with the `g` and `i` flags, replaced by "": every
      maximal run of word characters whose lower-case form is in `words` is
      deleted, and nothing else is touched. */
  function DropWords(s: string, words: set<string>): string
    decreases |s|
  {
    if s == [] then []
    else if !IsWordChar(s[0]) then [s[0]] + DropWords(s[1..], words)
    else
      var n := RunOf(s, IsWordChar);
      KeptWord(s[..n], words) + DropWords(s[n..], words)
  }

  /** What is left of one whole word: nothing when it is listed. */
  function KeptWord(w: string, words: set<string>): string
  {
    if Lower(w) in words then [] else w
  }

  /** Word deletion only deletes characters: the result is a subsequence
      of the line. */
  lemma {:induction false} DropWordsDeletes(s: string, words: set<string>)
    ensures IsSubseq(DropWords(s, words), s)
    decreases |s|
  {
    if s != [] {
      if !IsWordChar(s[0]) {
        DropWordsDeletes(s[1..], words);
        DeletesAfterNonWord(s, words);
      } else {
        var n := RunLength(s, IsWordChar);
        DropWordsDeletes(s[n..], words);
        DeletesAfterWord(s, n, words);
      }
    }
  }

  /** One step of `DropWordsDeletes`: a leading character that is not part
      of a word. */
  lemma DeletesAfterNonWord(s: string, words: set<string>)
    requires s != [] && !IsWordChar(s[0])
    requires IsSubseq(DropWords(s[1..], words), s[1..])
    ensures IsSubseq(DropWords(s, words), s)
  {
    DropWordsAfterNonWord(s[0], s[1..], words);
    SubseqRefl([s[0]]);
    SubseqAppend([s[0]], [s[0]], DropWords(s[1..], words), s[1..]);
    ConsJoin(s);
  }

  /** One step of `DropWordsDeletes`: a leading word of length `n`. */
  lemma DeletesAfterWord(s: string, n: nat, words: set<string>)
    requires s != [] && IsWordChar(s[0]) && RunIs(s, IsWordChar, n)
    requires IsSubseq(DropWords(s[n..], words), s[n..])
    ensures IsSubseq(DropWords(s, words), s)
  {
    var w, t := s[..n], s[n..];
    var k, y := KeptWord(w, words), DropWords(t, words);
    assert DropWords(s, words) == k + y by {
      assert AllWordChars(w) by {
        assert forall j :: 0 <= j < n ==> w[j] == s[j];
      }
      DropWordsHead(s, n, words);
    }
    assert IsSubseq(k + y, w + t) by {
      KeptWordSubseq(w, words);
      SubseqAppend(k, w, y, t);
    }
    SliceJoin(s, n);
  }

  lemma KeptWordSubseq(w: string, words: set<string>)
    ensures IsSubseq(KeptWord(w, words), w)
  {
    SubseqRefl(w);
  }

  /** Step 4, `/[.,]/g` replaced by "". */
  function RemovePunctuation(s: string): string
  {
    if s == [] then []
    else (if s[0] == '.' || s[0] == ',' then [] else [s[0]]) + RemovePunctuation(s[1..])
  }

  /** Removing punctuation only deletes characters (the result is a
      subsequence), and deletes every `.` and `,`. */
  lemma {:induction false} RemovePunctuationDeletes(s: string)
    ensures IsSubseq(RemovePunctuation(s), s)
    ensures '.' !in RemovePunctuation(s) && ',' !in RemovePunctuation(s)
    decreases |s|
  {
    if s != [] {
      RemovePunctuationDeletes(s[1..]);
      var head := if s[0] == '.' || s[0] == ',' then [] else [s[0]];
      SubseqRefl([s[0]]);
      SubseqAppend(head, [s[0]], RemovePunctuation(s[1..]), s[1..]);
      ConsJoin(s);
    }
  }

  /** No two neighbouring characters are both whitespace. */
  predicate NoDoubleSpace(s: string)
  {
    forall i :: 0 <= i < |s| - 1 ==> !(IsSpace(s[i]) && IsSpace(s[i + 1]))
  }

  /** Step 6, `/\s{2,}/g` replaced by " ": every maximal whitespace run of
      length two or more becomes one space; a single whitespace character of
      any kind stays as it is. */
  function Collapse(s: string): string
    decreases |s|
  {
    if s == [] then []
    else if IsSpace(s[0]) then
      var n := RunOf(s, IsSpace);
      (if n >= 2 then " " else s[..1]) + Collapse(s[n..])
    else
      var n := RunOf(s, NotSpace);
      s[..n] + Collapse(s[n..])
  }

  /** Collapsing only introduces spaces, leaves no two whitespace characters
      in a row, and keeps whether the text starts with whitespace. */
  lemma {:induction false} CollapseShape(s: string)
    ensures var r := Collapse(s);
      && (forall c :: c in r ==> c in s || c == ' ')
      && NoDoubleSpace(r)
      && (s != [] ==> r != [] && IsSpace(r[0]) == IsSpace(s[0]))
    decreases |s|
  {
    if s != [] {
      var p := if IsSpace(s[0]) then IsSpace else NotSpace;
      var n := RunLength(s, p);
      CollapseShape(s[n..]);
      var rest := Collapse(s[n..]);
      assert forall c :: c in rest ==> c in s || c == ' ' by {
        forall c | c in rest && c != ' ' ensures c in s { assert c in s[n..]; }
      }
      if IsSpace(s[0]) {
        CollapseSpaceShape(s, n, rest);
      } else {
        CollapseWordShape(s, n, rest);
      }
    }
  }

  lemma CollapseSpaceShape(s: string, n: nat, rest: string)
    requires s != [] && IsSpace(s[0]) && RunIs(s, IsSpace, n) && rest == Collapse(s[n..])
    requires forall c :: c in rest ==> c in s || c == ' '
    requires NoDoubleSpace(rest) && (n < |s| ==> rest != [] && !IsSpace(rest[0]))
    ensures var r := Collapse(s);
      && (forall c :: c in r ==> c in s || c == ' ')
      && NoDoubleSpace(r)
      && r != [] && IsSpace(r[0])
  {
    var head := CollapseSpaceHead(s, n);
    assert s[0] in s;
  }

  lemma CollapseWordShape(s: string, n: nat, rest: string)
    requires s != [] && !IsSpace(s[0]) && RunIs(s, NotSpace, n) && rest == Collapse(s[n..])
    requires forall c :: c in rest ==> c in s || c == ' '
    requires NoDoubleSpace(rest)
    ensures var r := Collapse(s);
      && (forall c :: c in r ==> c in s || c == ' ')
      && NoDoubleSpace(r)
      && r != [] && !IsSpace(r[0])
  {
    var r := s[..n] + rest;
    CollapseWordHead(s, n);
    assert forall c :: c in s[..n] ==> c in s;
    assert forall i :: 0 <= i < n ==> !IsSpace(r[i]);
  }

  /** `cleanIngredient(raw)`: an empty (falsy) line gives "", any other line
      goes through the six rewrites in order. */
  function Clean(raw: string): string
  {
    if raw == [] then [] else Trim(Collapse(Rewrite(raw)))
  }

  /** Steps 1 to 5: lower-case, strip the quantity, then `Cleanup`. */
  function Rewrite(raw: string): string
  {
    Cleanup(StripQuantity(Lower(raw)))
  }

  /** Steps 3 to 5: drop unit words, drop `.` and `,`, drop descriptor
      words. */
  function Cleanup(s: string): string
  {
    DropWords(RemovePunctuation(DropWords(s, UnitWords)), DescriptorWords)
  }

  /** The words of `ws` whose lower-case form is not in `words`, in order. */
  function WithoutWords(ws: seq<string>, words: set<string>): (r: seq<string>)
    ensures forall w :: w in r ==> w in ws && Lower(w) !in words
  {
    if ws == [] then []
    else (if Lower(ws[0]) in words then [] else [ws[0]]) + WithoutWords(ws[1..], words)
  }

  /** Dropping words removes exactly the listed words from the word sequence:
      no other word disappears, none is merged with its neighbours, none is
      created. In particular a listed word inside a longer word ("cup" in
      "cupcake") is not touched. */
  lemma {:induction false} DropWordsWords(s: string, words: set<string>)
    ensures Words(DropWords(s, words)) == WithoutWords(Words(s), words)
    decreases |s|
  {
    if s == [] {
    } else if !IsWordChar(s[0]) {
      DropWordsWords(s[1..], words);
      DropWordsAfterNonWord(s[0], s[1..], words);
      WordsAfterNonWord([s[0]], DropWords(s[1..], words));
      WordsSkip(s);
    } else {
      var n := RunLength(s, IsWordChar);
      DropWordsWords(s[n..], words);
      DropWordsWordsStep(s, n, words);
    }
  }

  /** One step of `DropWordsWords`: a leading word of length `n`. */
  lemma DropWordsWordsStep(s: string, n: nat, words: set<string>)
    requires s != [] && IsWordChar(s[0]) && RunIs(s, IsWordChar, n)
    requires Words(DropWords(s[n..], words)) == WithoutWords(Words(s[n..]), words)
    ensures Words(DropWords(s, words)) == WithoutWords(Words(s), words)
  {
    var w := s[..n];
    var rest := DropWords(s[n..], words);
    var part := KeptWord(w, words);
    DropWordsHead(s, n, words);
    assert rest == [] || !IsWordChar(rest[0]) by {
      if n < |s| {
        DropWordsAfterNonWord(s[n], s[n + 1..], words);
        SliceCons(s, n);
      }
    }
    WordsAppend(part, rest);
    WordsOfWord(w);
    WordsHead(s, n);
    ConsTail(w, Words(s[n..]));
  }

  /** A leading character that is not part of a word adds no word. */
  lemma WordsSkip(s: string)
    requires s != [] && !IsWordChar(s[0])
    ensures Words(s) == Words(s[1..])
  {
  }

  /** A line without listed words is left unchanged by the word deletion. */
  lemma {:induction false} DropWordsUnchanged(s: string, words: set<string>)
    requires forall w :: w in Words(s) ==> Lower(w) !in words
    ensures DropWords(s, words) == s
    decreases |s|
  {
    if s == [] {
    } else if !IsWordChar(s[0]) {
      WordsSkip(s);
      DropWordsUnchanged(s[1..], words);
      DropWordsAfterNonWord(s[0], s[1..], words);
      ConsJoin(s);
    } else {
      var n := RunLength(s, IsWordChar);
      WordsHead(s, n);
      assert s[..n] in Words(s);
      assert forall w :: w in Words(s[n..]) ==> w in Words(s);
      DropWordsUnchanged(s[n..], words);
      UnchangedAfterWord(s, n, words);
    }
  }

  lemma UnchangedAfterWord(s: string, n: nat, words: set<string>)
    requires 0 < n <= |s| && (forall j :: 0 <= j < n ==> IsWordChar(s[j])) && (n == |s| || !IsWordChar(s[n]))
    requires Lower(s[..n]) !in words && DropWords(s[n..], words) == s[n..]
    ensures DropWords(s, words) == s
  {
    assert AllWordChars(s[..n]) by {
      assert forall j :: 0 <= j < n ==> s[..n][j] == s[j];
    }
    DropWordsHead(s, n, words);
    assert KeptWord(s[..n], words) == s[..n];
    SliceJoin(s, n);
  }

  /** Collapsing whitespace keeps every word. */
  lemma {:induction false} CollapseWords(s: string)
    ensures Words(Collapse(s)) == Words(s)
    decreases |s|
  {
    if s != [] {
      var p := if IsSpace(s[0]) then IsSpace else NotSpace;
      var n := RunLength(s, p);
      CollapseWords(s[n..]);
      if IsSpace(s[0]) {
        CollapseSpaceRun(s, n);
      } else {
        CollapseWordRun(s, n);
      }
    }
  }

  /** One step of `CollapseWords`: a leading whitespace run has no words. */
  lemma CollapseSpaceRun(s: string, n: nat)
    requires s != [] && IsSpace(s[0]) && RunIs(s, IsSpace, n)
    requires Words(Collapse(s[n..])) == Words(s[n..])
    ensures Words(Collapse(s)) == Words(s)
  {
    var rep := CollapseSpaceHead(s, n);
    WordsAfterNonWord(rep, Collapse(s[n..]));
    WordsAfterSpaceRun(s, n);
  }

  /** `Collapse` on a line starting with whitespace: one whitespace character
      stands for the leading run. */
  lemma CollapseSpaceHead(s: string, n: nat) returns (rep: string)
    requires s != [] && IsSpace(s[0]) && RunIs(s, IsSpace, n)
    ensures rep == if n >= 2 then " " else s[..1]
    ensures |rep| == 1 && !IsWordChar(rep[0])
    ensures Collapse(s) == rep + Collapse(s[n..])
  {
    RunOfAt(s, IsSpace, n);
    rep := if n >= 2 then " " else s[..1];
  }

  lemma WordsAfterSpaceRun(s: string, n: nat)
    requires n <= |s| && forall i :: 0 <= i < n ==> IsSpace(s[i])
    ensures Words(s) == Words(s[n..])
  {
    SliceJoin(s, n);
    WordsAfterNonWord(s[..n], s[n..]);
  }

  /** One step of `CollapseWords`: a leading run without whitespace is kept
      as it is and is followed by whitespace or nothing. */
  lemma CollapseWordRun(s: string, n: nat)
    requires s != [] && !IsSpace(s[0]) && RunIs(s, NotSpace, n)
    requires Words(Collapse(s[n..])) == Words(s[n..])
    ensures Words(Collapse(s)) == Words(s)
  {
    var head, tail := s[..n], s[n..];
    var rest := Collapse(tail);
    assert Collapse(s) == head + rest by {
      CollapseWordHead(s, n);
    }
    assert Words(head + rest) == Words(head) + Words(rest) by {
      assert rest == [] || !IsWordChar(rest[0]) by {
        CollapseShape(tail);
      }
      WordsAppend(head, rest);
    }
    assert Words(s) == Words(head) + Words(tail) by {
      assert tail == [] || IsSpace(tail[0]);
      SliceJoin(s, n);
      WordsAppend(head, tail);
    }
  }

  lemma CollapseWordHead(s: string, n: nat)
    requires s != [] && !IsSpace(s[0]) && RunIs(s, NotSpace, n)
    ensures Collapse(s) == s[..n] + Collapse(s[n..])
  {
    RunOfAt(s, NotSpace, n);
  }

  /** Trimming keeps every word. */
  lemma TrimWords(s: string)
    ensures Words(Trim(s)) == Words(s)
  {
    var r := Trim(s);
    var a := RunLength(s, IsSpace);
    var e := a + |r|;
    assert r == s[a..e];
    SliceSplit(s, a, e);
    WordsAround(s[..a], r, s[e..]);
  }

  /** Whitespace on either side adds no word. */
  lemma WordsAround(head: string, r: string, tail: string)
    requires AllSpace(head) && AllSpace(tail)
    ensures Words(head + (r + tail)) == Words(r)
  {
    WordsOfSpace(head);
    WordsOfSpace(tail);
    WordsAppend(r, tail);
    WordsAppend(head, r + tail);
  }

  /** Whitespace has no words. */
  lemma WordsOfSpace(x: string)
    requires AllSpace(x)
    ensures Words(x) == []
    ensures x == [] || !IsWordChar(x[0])
  {
    WordsOfNonWord(x);
  }

  /** Steps 1 to 5 leave no upper-case letter, `.` or `,`. */
  lemma RewriteChars(raw: string)
    ensures forall c :: c in Rewrite(raw) ==> !IsUpper(c) && c != '.' && c != ','
  {
    var lowered := Lower(raw);
    assert forall c :: c in lowered ==> !IsUpper(c);
    var unquantified := StripQuantity(lowered);
    assert forall c :: c in unquantified ==> c in lowered;
    var noUnits := DropWords(unquantified, UnitWords);
    var noPunctuation := RemovePunctuation(noUnits);
    var r := DropWords(noPunctuation, DescriptorWords);
    DropWordsDeletes(unquantified, UnitWords);
    SubseqMembers(noUnits, unquantified);
    RemovePunctuationDeletes(noUnits);
    SubseqMembers(noPunctuation, noUnits);
    DropWordsDeletes(noPunctuation, DescriptorWords);
    SubseqMembers(r, noPunctuation);
  }

  /** Steps 1 to 5 leave no descriptor as a whole word. */
  lemma RewriteWords(raw: string)
    ensures forall w :: w in Words(Rewrite(raw)) ==> Lower(w) !in DescriptorWords
  {
    var noUnits := DropWords(StripQuantity(Lower(raw)), UnitWords);
    DropWordsWords(RemovePunctuation(noUnits), DescriptorWords);
  }

  /** Steps 6 and 7 only touch whitespace: the result keeps the words and the
      other characters, has no whitespace at either end and no two
      whitespace characters in a row. */
  lemma CollapseTrimShape(s: string)
    ensures var r := Trim(Collapse(s));
      && (forall c :: c in r ==> c in s || c == ' ')
      && (r == [] || (!IsSpace(r[0]) && !IsSpace(r[|r| - 1])))
      && NoDoubleSpace(r)
      && Words(r) == Words(s)
  {
    var collapsed := Collapse(s);
    CollapseShape(s);
    TrimKeeps(collapsed);
    CollapseWords(s);
    TrimWords(collapsed);
  }

  /** `trim` keeps a slice: no new character, no new pair of neighbours. */
  lemma TrimKeeps(x: string)
    ensures forall c :: c in Trim(x) ==> c in x
    ensures NoDoubleSpace(x) ==> NoDoubleSpace(Trim(x))
  {
    var r := Trim(x);
    var a := RunLength(x, IsSpace);
    assert r == x[a..a + |r|];
    assert forall i :: 0 <= i < |r| ==> r[i] == x[a + i];
  }

  /** The empty line gives the empty key. Any key is lower case, has no `.`
      or `,`, no whitespace at either end, never two whitespace characters in
      a row, and no descriptor word left as a whole word: every rewrite after
      the first only deletes characters or puts a single space in place of
      whitespace. */
  lemma CleanShape(raw: string)
    ensures var r := Clean(raw);
      && (raw == [] ==> r == [])
      && NoUpper(r)
      && '.' !in r && ',' !in r
      && (r == [] || (!IsSpace(r[0]) && !IsSpace(r[|r| - 1])))
      && NoDoubleSpace(r)
      && forall w :: w in Words(r) ==> Lower(w) !in DescriptorWords
  {
    if raw != [] {
      RewriteChars(raw);
      RewriteWords(raw);
      KeyShape(Rewrite(raw));
    }
  }

  /** Steps 6 and 7 give the shape `CleanShape` states to any line without
      upper-case letters, `.`, `,` or descriptor words. */
  lemma KeyShape(x: string)
    requires forall c :: c in x ==> !IsUpper(c) && c != '.' && c != ','
    requires forall w :: w in Words(x) ==> Lower(w) !in DescriptorWords
    ensures var r := Trim(Collapse(x));
      && NoUpper(r)
      && '.' !in r && ',' !in r
      && (r == [] || (!IsSpace(r[0]) && !IsSpace(r[|r| - 1])))
      && NoDoubleSpace(r)
      && forall w :: w in Words(r) ==> Lower(w) !in DescriptorWords
  {
    var r := Trim(Collapse(x));
    CollapseTrimShape(x);
    forall i | 0 <= i < |r| ensures !IsUpper(r[i]) {
      assert r[i] in r;
    }
  }

  /** Word deletion works piece by piece across a word boundary. */
  lemma {:induction false} DropWordsAppend(a: string, b: string, words: set<string>)
    requires WordBoundaryBetween(a, b)
    ensures DropWords(a + b, words) == DropWords(a, words) + DropWords(b, words)
    decreases |a|
  {
    if a == [] {
      assert a + b == b;
    } else if !IsWordChar(a[0]) {
      AppendTail(a, b);
      DropWordsAppend(a[1..], b, words);
    } else {
      var n := RunLength(a, IsWordChar);
      if n < |a| {
        DropWordsAppend(a[n..], b, words);
        DropWordsAppendWord(a, b, n, words);
      } else {
        DropWordsAppendWhole(a, b, words);
      }
    }
  }

  /** One step of `DropWordsAppend`: `a` starts with a word that ends inside
      `a`. */
  lemma DropWordsAppendWord(a: string, b: string, n: nat, words: set<string>)
    requires 0 < n < |a| && AllWordChars(a[..n]) && !IsWordChar(a[n])
    requires DropWords(a[n..] + b, words) == DropWords(a[n..], words) + DropWords(b, words)
    ensures DropWords(a + b, words) == DropWords(a, words) + DropWords(b, words)
  {
    var k, x, y := KeptWord(a[..n], words), DropWords(a[n..], words), DropWords(b, words);
    DropWordsHeadAppend(a, b, n, words);
    DropWordsHead(a, n, words);
    SeqAssoc(k, x, y);
  }

  /** `DropWordsHead` for a word that ends inside the first of two pieces. */
  lemma DropWordsHeadAppend(a: string, b: string, n: nat, words: set<string>)
    requires 0 < n < |a| && AllWordChars(a[..n]) && !IsWordChar(a[n])
    ensures DropWords(a + b, words) == KeptWord(a[..n], words) + DropWords(a[n..] + b, words)
  {
    var s := a + b;
    assert s[..n] == a[..n];
    assert s[n..] == a[n..] + b;
    DropWordsHead(s, n, words);
  }

  /** One step of `DropWordsAppend`: `a` is a single word. */
  lemma DropWordsAppendWhole(a: string, b: string, words: set<string>)
    requires a != [] && AllWordChars(a) && (b == [] || !IsWordChar(b[0]))
    ensures DropWords(a + b, words) == DropWords(a, words) + DropWords(b, words)
  {
    var s := a + b;
    var n := |a|;
    assert s[..n] == a;
    assert s[n..] == b;
    DropWordsOfWord(a, words);
    DropWordsHead(s, n, words);
  }

  /** `DropWords` on a line that starts with a word of length `n`. */
  lemma DropWordsHead(s: string, n: nat, words: set<string>)
    requires 0 < n <= |s| && AllWordChars(s[..n]) && (n == |s| || !IsWordChar(s[n]))
    ensures DropWords(s, words) == KeptWord(s[..n], words) + DropWords(s[n..], words)
  {
    assert forall j :: 0 <= j < n ==> IsWordChar(s[..n][j]);
    RunOfAt(s, IsWordChar, n);
  }

  /** A lone word is deleted exactly when it is listed. */
  lemma DropWordsOfWord(w: string, words: set<string>)
    requires AllWordChars(w)
    ensures DropWords(w, words) == KeptWord(w, words)
  {
    if w != [] {
      assert w[..|w|] == w;
      assert w[|w|..] == [];
      DropWordsHead(w, |w|, words);
    } else {
      assert Lower(w) == w;
    }
  }

  /** Text without word characters is never touched by word deletion. */
  lemma {:induction false} DropWordsOfNonWord(s: string, words: set<string>)
    requires forall i :: 0 <= i < |s| ==> !IsWordChar(s[i])
    ensures DropWords(s, words) == s
    decreases |s|
  {
    if s != [] {
      DropWordsOfNonWord(s[1..], words);
      ConsJoin(s);
    }
  }

  predicate AllWordChars(w: string)
  {
    forall i :: 0 <= i < |w| ==> IsWordChar(w[i])
  }

  /** `ws` with every listed word blanked out. */
  function Blank(ws: seq<string>, words: set<string>): (r: seq<string>)
    ensures |r| == |ws|
    ensures forall k :: 0 <= k < |ws| ==> r[k] == KeptWord(ws[k], words)
  {
    if ws == [] then []
    else [KeptWord(ws[0], words)] + Blank(ws[1..], words)
  }

  /** Word deletion on words separated by single spaces leaves the spaces
      and blanks out the listed words. */
  lemma {:induction false} DropWordsSpaced(ws: seq<string>, words: set<string>)
    requires forall k :: 0 <= k < |ws| ==> AllWordChars(ws[k])
    ensures DropWords(Join(ws, " "), words) == Join(Blank(ws, words), " ")
    decreases |ws|
  {
    if |ws| == 1 {
      DropWordsOfWord(ws[0], words);
    } else if |ws| > 1 {
      DropWordsSpaced(ws[1..], words);
      DropWordsSpacedStep(ws, words);
    }
  }

  /** One step of `DropWordsSpaced`: the first word and the space after it. */
  lemma DropWordsSpacedStep(ws: seq<string>, words: set<string>)
    requires |ws| > 1 && AllWordChars(ws[0])
    requires DropWords(Join(ws[1..], " "), words) == Join(Blank(ws[1..], words), " ")
    ensures DropWords(Join(ws, " "), words) == Join(Blank(ws, words), " ")
  {
    var rest := Join(ws[1..], " ");
    var k := KeptWord(ws[0], words);
    SeqAssoc(ws[0], " ", rest);
    DropWordsAppend(ws[0], " " + rest, words);
    DropWordsOfWord(ws[0], words);
    DropWordsAfterNonWord(' ', rest, words);
    BlankTail(ws, words);
    SeqAssoc(k, " ", DropWords(rest, words));
  }

  /** A character that is not part of a word is kept in front. */
  lemma DropWordsAfterNonWord(c: char, s: string, words: set<string>)
    requires !IsWordChar(c)
    ensures DropWords([c] + s, words) == [c] + DropWords(s, words)
  {
    assert ([c] + s)[1..] == s;
  }

  lemma BlankTail(ws: seq<string>, words: set<string>)
    requires ws != []
    ensures Blank(ws, words) == [KeptWord(ws[0], words)] + Blank(ws[1..], words)
    ensures Blank(ws, words)[1..] == Blank(ws[1..], words)
  {
  }

  /** Removing `.` and `,` works piece by piece. */
  lemma {:induction false} RemovePunctuationAppend(a: string, b: string)
    ensures RemovePunctuation(a + b) == RemovePunctuation(a) + RemovePunctuation(b)
    decreases |a|
  {
    if a == [] {
      assert a + b == b;
    } else {
      AppendTail(a, b);
      RemovePunctuationAppend(a[1..], b);
    }
  }

  /** Text without `.` and `,` is left alone. */
  lemma {:induction false} RemovePunctuationNone(s: string)
    requires '.' !in s && ',' !in s
    ensures RemovePunctuation(s) == s
    decreases |s|
  {
    if s != [] {
      assert '.' !in s[1..] && ',' !in s[1..];
      RemovePunctuationNone(s[1..]);
      ConsJoin(s);
    }
  }

  /** Text without two whitespace characters in a row is left alone by the
      collapsing step. */
  lemma {:induction false} CollapseNoDouble(s: string)
    requires NoDoubleSpace(s)
    ensures Collapse(s) == s
    decreases |s|
  {
    if s != [] {
      var n := if IsSpace(s[0]) then 1 else RunLength(s, NotSpace);
      assert NoDoubleSpace(s[n..]) by {
        assert forall i :: 0 <= i < |s| - n ==> s[n..][i] == s[n + i];
      }
      CollapseNoDouble(s[n..]);
      if IsSpace(s[0]) {
        CollapseSingleSpace(s);
      } else {
        CollapseKeepsWord(s, n);
      }
    }
  }

  /** A lone whitespace character is kept as it is. */
  lemma CollapseSingleSpace(s: string)
    requires s != [] && IsSpace(s[0]) && (|s| == 1 || !IsSpace(s[1]))
    requires Collapse(s[1..]) == s[1..]
    ensures Collapse(s) == s
  {
    var rep := CollapseSpaceHead(s, 1);
    ConsJoin(s);
  }

  /** A run without whitespace is kept as it is. */
  lemma CollapseKeepsWord(s: string, n: nat)
    requires s != [] && !IsSpace(s[0]) && RunIs(s, NotSpace, n)
    requires Collapse(s[n..]) == s[n..]
    ensures Collapse(s) == s
  {
    CollapseWordHead(s, n);
    SliceJoin(s, n);
  }

  /** Two leading whitespace characters before a word become one space. */
  lemma CollapseTwoSpaces(w: string)
    requires w != [] && !IsSpace(w[0]) && NoDoubleSpace(w)
    ensures Collapse("  " + w) == " " + w
  {
    var s := "  " + w;
    var rep := CollapseSpaceHead(s, 2);
    assert s[2..] == w;
    CollapseNoDouble(w);
  }

  /** A quantity recognised by `QuantityEnd` when the structure of the match
      is known: whitespace up to `a`, digits up to `b`, an optional group up
      to `c`, whitespace up to `n`. */
  lemma QuantityEndAt(s: string, a: nat, b: nat, c: nat, n: nat)
    requires a < b <= c <= n <= |s|
    requires forall j :: 0 <= j < a ==> IsSpace(s[j])
    requires forall j :: a <= j < b ==> IsDigit(s[j])
    requires b == |s| || !IsDigit(s[b])
    requires c == b ==> b == |s| || !IsQuantitySeparator(s[b]) || b + 1 == |s| || !IsDigit(s[b + 1])
    requires c > b ==> c >= b + 2 && IsQuantitySeparator(s[b])
                       && (forall j :: b + 1 <= j < c ==> IsDigit(s[j])) && (c == |s| || !IsDigit(s[c]))
    requires forall j :: c <= j < n ==> IsSpace(s[j])
    requires n == |s| || !IsSpace(s[n])
    ensures QuantityEnd(s) == n && StripQuantity(s) == s[n..]
  {
    RunEndAt(s, 0, IsSpace, a);
    RunEndAt(s, a, IsDigit, b);
    if b < |s| && IsQuantitySeparator(s[b]) {
      var e := if c > b then c else b + 1;
      RunEndAt(s, b + 1, IsDigit, e);
    }
    RunEndAt(s, c, IsSpace, n);
  }

  /** `trim` removes whitespace around a trimmed, non-empty string. */
  lemma TrimAround(a: string, s: string, b: string)
    requires AllSpace(a) && AllSpace(b)
    requires s != [] && !IsSpace(s[0]) && !IsSpace(s[|s| - 1])
    ensures Trim(a + s + b) == s
  {
    var t := a + s + b;
    assert t[|a|] == s[0];
    RunEndAt(t, 0, IsSpace, |a|);
    var r := Trim(t);
    assert r == t[|a|..|a| + |r|];
    assert t[|a| + |s| - 1] == s[|s| - 1];
    assert t[|a|..|a| + |s|] == s;
  }

  /** Every unit word and every descriptor starts with a letter, and no word
      is both. */
  lemma ListedWordsShape()
    ensures forall x :: x in UnitWords ==> x != [] && IsLower(x[0])
    ensures forall x :: x in DescriptorWords ==> x != [] && IsLower(x[0])
    ensures UnitWords !! DescriptorWords
  {
  }


  predicate AllDigits(q: string)
  {
    forall i :: 0 <= i < |q| ==> IsDigit(q[i])
  }

  /** An ingredient word that is neither a unit nor a descriptor. */
  predicate PlainWord(w: string)
  {
    w != [] && AllWordChars(w) && Lower(w) !in UnitWords && Lower(w) !in DescriptorWords
  }

  /** A quantity, a unit and a descriptor in front of an ingredient word, in
      any letter case ("2 cups chopped Tomatoes"), leave only the lower-case
      ingredient ("tomatoes"). */
  lemma CleanLeadingDecorations(q: string, u: string, d: string, w: string)
    requires q != [] && AllDigits(q)
    requires AllWordChars(u) && Lower(u) in UnitWords
    requires AllWordChars(d) && Lower(d) in DescriptorWords
    requires PlainWord(w)
    ensures Clean(q + " " + u + " " + d + " " + w) == Lower(w)
  {
    RewriteLeading(q, u, d, w);
    LowerWord(w);
    WordChars(Lower(w));
    CleanSpacedWord(q + " " + u + " " + d + " " + w, Lower(w));
  }

  /** A line that steps 1 to 5 turn into two blanks and a word cleans to
      the word. */
  lemma CleanSpacedWord(x: string, lw: string)
    requires x != [] && Rewrite(x) == "  " + lw
    requires lw != [] && !IsSpace(lw[0]) && !IsSpace(lw[|lw| - 1]) && NoDoubleSpace(lw)
    ensures Clean(x) == lw
  {
    CollapseTwoSpaces(lw);
    TrimLeadingSpace(lw);
  }

  /** Steps 1 to 5 on the line of `CleanLeadingDecorations`. */
  lemma RewriteLeading(q: string, u: string, d: string, w: string)
    requires q != [] && AllDigits(q)
    requires AllWordChars(u) && Lower(u) in UnitWords
    requires AllWordChars(d) && Lower(d) in DescriptorWords
    requires PlainWord(w)
    ensures Rewrite(q + " " + u + " " + d + " " + w) == "  " + Lower(w)
  {
    var lu, ld, lw := Lower(u), Lower(d), Lower(w);
    var rest := Join([lu, ld, lw], " ");
    var l := LowerLeading(q, u, d, w);
    assert StripQuantity(l) == rest by {
      ListedWordsShape();
      JoinThree(lu, ld, lw, " ");
      assert rest[0] == lu[0];
      StripNumberPrefix(q, rest);
    }
    assert Cleanup(rest) == "  " + lw by {
      LowerWord(u);
      LowerWord(d);
      LowerWord(w);
      CleanupLeading(lu, ld, lw);
    }
  }

  /** The quantity step removes one number and the space after it when what
      follows is neither whitespace nor a digit. */
  lemma StripNumberPrefix(q: string, rest: string)
    requires q != [] && AllDigits(q)
    requires rest != [] && !IsSpace(rest[0]) && !IsDigit(rest[0])
    ensures StripQuantity(q + " " + rest) == rest
  {
    var l := q + " " + rest;
    assert l[|q| + 1..] == rest;
    assert l[|q|] == ' ' && l[|q| + 1] == rest[0];
    assert forall j :: 0 <= j < |q| ==> l[j] == q[j];
    QuantityEndAt(l, 0, |q|, |q|, |q| + 1);
  }

  /** Leading whitespace is part of the quantity match: an indented number
      goes together with the indentation and the space after it. */
  lemma StripIndentedNumber(ws: string, q: string, rest: string)
    requires AllSpace(ws) && q != [] && AllDigits(q)
    requires rest != [] && !IsSpace(rest[0]) && !IsDigit(rest[0])
    ensures StripQuantity(ws + q + " " + rest) == rest
  {
    var l := ws + q + " " + rest;
    var a := |ws|;
    var b := a + |q|;
    assert l[b + 1..] == rest;
    assert l[b] == ' ' && l[b + 1] == rest[0];
    assert forall j :: 0 <= j < a ==> l[j] == ws[j];
    assert forall j :: a <= j < b ==> l[j] == q[j - a];
    QuantityEndAt(l, a, b, b, b + 1);
  }

  /** The quantity step removes two numbers separated by one space, and the
      space after them. */
  lemma StripTwoNumbers(p: string, q: string, rest: string)
    requires p != [] && AllDigits(p) && q != [] && AllDigits(q)
    requires rest != [] && !IsSpace(rest[0])
    ensures StripQuantity(p + " " + q + " " + rest) == rest
  {
    var l := p + " " + q + " " + rest;
    var b := |p|;
    var c := b + 1 + |q|;
    assert l[c + 1..] == rest;
    assert l[b] == ' ' && l[c] == ' ' && l[c + 1] == rest[0];
    assert forall j :: 0 <= j < b ==> l[j] == p[j];
    assert forall j :: b + 1 <= j < c ==> l[j] == q[j - b - 1];
    QuantityEndAt(l, 0, b, c, c + 1);
  }

  /** Steps 3 to 5 on "unit descriptor word". */
  lemma CleanupLeading(lu: string, ld: string, lw: string)
    requires AllWordChars(lu) && AllWordChars(ld) && AllWordChars(lw) && lw != []
    requires lu in UnitWords && ld in DescriptorWords
    requires Lower(lw) !in UnitWords && Lower(lw) !in DescriptorWords
    requires Lower(lu) == lu && Lower(ld) == ld
    ensures Cleanup(Join([lu, ld, lw], " ")) == "  " + lw
  {
    var x := Join(["", ld, lw], " ");
    DropUnitLeading(lu, ld, lw);
    PunctuationLeading(ld, lw);
    DropDescriptorLeading(ld, lw);
    TwoBlanks(lw);
  }

  lemma PunctuationLeading(ld: string, lw: string)
    requires AllWordChars(ld) && AllWordChars(lw)
    ensures RemovePunctuation(Join(["", ld, lw], " ")) == Join(["", ld, lw], " ")
  {
    var x := Join(["", ld, lw], " ");
    JoinThree("", ld, lw, " ");
    assert "" + " " == " ";
    SpacedAfterSpace(ld, lw);
    RemovePunctuationNone(x);
  }

  lemma TwoBlanks(lw: string)
    ensures Join(["", "", lw], " ") == "  " + lw
  {
    JoinThree("", "", lw, " ");
  }

  /** The lower-case form of a word is a word of the same length. */
  lemma LowerWord(x: string)
    requires AllWordChars(x)
    ensures AllWordChars(Lower(x)) && |Lower(x)| == |x| && Lower(Lower(x)) == Lower(x)
  {
    LowerIdempotent(x);
  }

  /** A word has no whitespace, `.` or `,`. */
  lemma WordChars(x: string)
    requires AllWordChars(x)
    ensures x == [] || (!IsSpace(x[0]) && !IsSpace(x[|x| - 1]))
    ensures NoDoubleSpace(x) && '.' !in x && ',' !in x
  {
  }

  /** Two words with one space between them. */
  lemma SpacedPair(a: string, b: string)
    requires AllWordChars(a) && AllWordChars(b) && a != [] && b != []
    ensures var s := a + " " + b;
      && !IsSpace(s[0]) && !IsSpace(s[|s| - 1]) && NoDoubleSpace(s) && '.' !in s && ',' !in s
  {
    var s := a + " " + b;
    forall i | 0 <= i < |s| - 1
      ensures !(IsSpace(s[i]) && IsSpace(s[i + 1]))
    {
      if i < |a| - 1 {
        assert s[i] == a[i];
      } else if i == |a| - 1 {
        assert s[i] == a[i];
      } else {
        assert s[i + 1] == b[i + 1 - |a| - 1];
      }
    }
    assert forall i :: 0 <= i < |s| ==> IsWordChar(s[i]) || s[i] == ' ';
  }

  /** Lower-casing the line of `CleanLeadingDecorations`. */
  lemma LowerLeading(q: string, u: string, d: string, w: string) returns (l: string)
    requires AllDigits(q)
    ensures l == Lower(q + " " + u + " " + d + " " + w)
    ensures l == q + " " + Join([Lower(u), Lower(d), Lower(w)], " ")
  {
    LowerAppend(q + " " + u + " " + d + " ", w);
    LowerAppend(q + " " + u + " " + d, " ");
    LowerAppend(q + " " + u + " ", d);
    LowerAppend(q + " " + u, " ");
    LowerAppend(q + " ", u);
    LowerAppend(q, " ");
    LowerOfNoUpper(q);
    assert Lower(" ") == " ";
    l := q + " " + Join([Lower(u), Lower(d), Lower(w)], " ");
    JoinThree(Lower(u), Lower(d), Lower(w), " ");
  }

  lemma DropUnitLeading(lu: string, ld: string, lw: string)
    requires AllWordChars(lu) && AllWordChars(ld) && AllWordChars(lw)
    requires lu in UnitWords && ld in DescriptorWords && Lower(lw) !in UnitWords
    requires Lower(lu) == lu && Lower(ld) == ld
    ensures DropWords(Join([lu, ld, lw], " "), UnitWords) == Join(["", ld, lw], " ")
  {
    DropWordsSpaced([lu, ld, lw], UnitWords);
    BlankUnitLeading(lu, ld, lw);
  }

  lemma BlankUnitLeading(lu: string, ld: string, lw: string)
    requires lu in UnitWords && ld in DescriptorWords && Lower(lw) !in UnitWords
    requires Lower(lu) == lu && Lower(ld) == ld
    ensures Blank([lu, ld, lw], UnitWords) == ["", ld, lw]
  {
    ListedWordsShape();
    assert KeptWord(lu, UnitWords) == [];
    assert KeptWord(ld, UnitWords) == ld;
    assert KeptWord(lw, UnitWords) == lw;
  }

  /** " a b" for two words has no `.` or `,`. */
  lemma SpacedAfterSpace(a: string, b: string)
    requires AllWordChars(a) && AllWordChars(b)
    ensures var s := " " + a + " " + b; '.' !in s && ',' !in s
  {
    var s := " " + a + " " + b;
    assert forall i :: 0 <= i < |s| ==> s[i] == ' ' || IsWordChar(s[i]);
  }

  lemma DropDescriptorLeading(ld: string, lw: string)
    requires AllWordChars(ld) && AllWordChars(lw)
    requires ld in DescriptorWords && Lower(lw) !in DescriptorWords
    requires Lower(ld) == ld
    ensures DropWords(Join(["", ld, lw], " "), DescriptorWords) == Join(["", "", lw], " ")
  {
    DropWordsSpaced(["", ld, lw], DescriptorWords);
    BlankDescriptorLeading(ld, lw);
  }

  lemma BlankDescriptorLeading(ld: string, lw: string)
    requires ld in DescriptorWords && Lower(lw) !in DescriptorWords && Lower(ld) == ld
    ensures Blank(["", ld, lw], DescriptorWords) == ["", "", lw]
  {
    assert Lower("") == "";
    assert KeptWord("", DescriptorWords) == "";
    assert KeptWord(ld, DescriptorWords) == [];
    assert KeptWord(lw, DescriptorWords) == lw;
  }

  /** A quantity and an ingredient word: only the lower-case word is left
      ("3 eggs" gives "eggs"). */
  lemma CleanQuantityWord(q: string, w: string)
    requires q != [] && AllDigits(q)
    requires PlainWord(w) && !IsDigit(w[0])
    ensures Clean(q + " " + w) == Lower(w)
  {
    RewriteQuantityWord(q, w);
    LowerWord(w);
    WordChars(Lower(w));
    CollapseNoDouble(Lower(w));
    TrimOfTrimmed(Lower(w));
  }

  /** Steps 1 to 5 on the line of `CleanQuantityWord`. */
  lemma RewriteQuantityWord(q: string, w: string)
    requires q != [] && AllDigits(q)
    requires PlainWord(w) && !IsDigit(w[0])
    ensures Rewrite(q + " " + w) == Lower(w)
  {
    var lw := Lower(w);
    LowerWord(w);
    var l := Lower(q + " " + w);
    assert l == q + " " + lw by {
      LowerAppend(q + " ", w);
      LowerAppend(q, " ");
      LowerOfNoUpper(q);
      assert Lower(" ") == " ";
    }
    assert StripQuantity(l) == lw by {
      StripNumberPrefix(q, lw);
    }
    WordChars(lw);
    assert Rewrite(q + " " + w) == lw by {
      DropWordsOfWord(lw, UnitWords);
      RemovePunctuationNone(lw);
      DropWordsOfWord(lw, DescriptorWords);
    }
  }

  /** Two numbers in front of a third: the quantity pattern takes the first
      two only, so the third stays ("1 2 3 eggs" gives "3 eggs"). */
  lemma CleanThreeNumbers(p: string, q: string, n: string, w: string)
    requires p != [] && AllDigits(p) && q != [] && AllDigits(q) && n != [] && AllDigits(n)
    requires PlainWord(w)
    ensures Clean(p + " " + q + " " + n + " " + w) == n + " " + Lower(w)
  {
    RewriteThreeNumbers(p, q, n, w);
    LowerWord(w);
    SpacedPair(n, Lower(w));
    CollapseNoDouble(n + " " + Lower(w));
    TrimOfTrimmed(n + " " + Lower(w));
  }

  /** Steps 1 to 5 on the line of `CleanThreeNumbers`. */
  lemma RewriteThreeNumbers(p: string, q: string, n: string, w: string)
    requires p != [] && AllDigits(p) && q != [] && AllDigits(q) && n != [] && AllDigits(n)
    requires PlainWord(w)
    ensures Rewrite(p + " " + q + " " + n + " " + w) == n + " " + Lower(w)
  {
    LowerWord(w);
    StripThreeNumbers(p, q, n, w);
    CleanupPair(n, Lower(w));
  }

  /** Lower-casing and the quantity step on the line of `CleanThreeNumbers`. */
  lemma StripThreeNumbers(p: string, q: string, n: string, w: string)
    requires p != [] && AllDigits(p) && q != [] && AllDigits(q) && n != [] && AllDigits(n)
    requires PlainWord(w)
    ensures StripQuantity(Lower(p + " " + q + " " + n + " " + w)) == n + " " + Lower(w)
  {
    var kept := n + " " + Lower(w);
    assert Lower(p + " " + q + " " + n + " " + w) == p + " " + q + " " + kept by {
      LowerAppend(p + " " + q + " " + n + " ", w);
      LowerAppend(p + " " + q + " " + n, " ");
      LowerAppend(p + " " + q + " ", n);
      LowerAppend(p + " " + q, " ");
      LowerAppend(p + " ", q);
      LowerAppend(p, " ");
      LowerOfNoUpper(p);
      LowerOfNoUpper(q);
      LowerOfNoUpper(n);
      assert Lower(" ") == " ";
    }
    StripTwoNumbers(p, q, kept);
  }

  /** Steps 3 to 5 leave two words alone when neither is listed and the
      first is a number. */
  lemma CleanupPair(n: string, lw: string)
    requires n != [] && AllDigits(n)
    requires PlainWord(lw) && Lower(lw) == lw
    ensures Cleanup(n + " " + lw) == n + " " + lw
  {
    var kept := n + " " + lw;
    assert Lower(n) !in UnitWords && Lower(n) !in DescriptorWords by {
      ListedWordsShape();
      LowerOfNoUpper(n);
    }
    JoinTwo(n, lw, " ");
    DropWordsNoneListed([n, lw], UnitWords);
    assert RemovePunctuation(kept) == kept by {
      SpacedPair(n, lw);
      RemovePunctuationNone(kept);
    }
    DropWordsNoneListed([n, lw], DescriptorWords);
  }

  /** Words separated by single spaces, none of them listed, are left
      alone. */
  lemma DropWordsNoneListed(ws: seq<string>, words: set<string>)
    requires forall k :: 0 <= k < |ws| ==> AllWordChars(ws[k]) && Lower(ws[k]) !in words
    ensures DropWords(Join(ws, " "), words) == Join(ws, " ")
  {
    DropWordsSpaced(ws, words);
    assert Blank(ws, words) == ws;
  }

  /** `cleanIngredient` is not idempotent: cleaning a cleaned key can change
      it again ("1 2 3 eggs" gives "3 eggs", which gives "eggs"). */
  lemma CleanNotIdempotent(p: string, q: string, n: string, w: string)
    requires p != [] && AllDigits(p) && q != [] && AllDigits(q) && n != [] && AllDigits(n)
    requires PlainWord(w) && !IsDigit(w[0])
    ensures var once := Clean(p + " " + q + " " + n + " " + w);
      Clean(once) != once
  {
    CleanThreeNumbers(p, q, n, w);
    LowerWord(w);
    assert Lower(w) == Lower(Lower(w));
    assert !IsDigit(Lower(w)[0]);
    CleanQuantityWord(n, Lower(w));
  }

  /** A descriptor after a comma is dropped with the comma ("3 Tomatoes,
      diced" gives "tomatoes"). */
  lemma CleanTrailingDescriptor(q: string, w: string, d: string)
    requires q != [] && AllDigits(q)
    requires PlainWord(w) && !IsDigit(w[0])
    requires AllWordChars(d) && Lower(d) in DescriptorWords
    ensures Clean(q + " " + w + ", " + d) == Lower(w)
  {
    RewriteTrailing(q, w, d);
    LowerWord(w);
    CleanWordSpace(q + " " + w + ", " + d, Lower(w));
  }

  /** A line that steps 1 to 5 turn into a word and a blank cleans to the
      word. */
  lemma CleanWordSpace(x: string, lw: string)
    requires x != [] && Rewrite(x) == lw + " "
    requires lw != [] && AllWordChars(lw)
    ensures Clean(x) == lw
  {
    WordSpaceCleaned(lw);
  }

  /** Steps 6 and 7 turn a word and a blank into the word. */
  lemma WordSpaceCleaned(lw: string)
    requires lw != [] && AllWordChars(lw)
    ensures Trim(Collapse(lw + " ")) == lw
  {
    WordChars(lw);
    assert NoDoubleSpace(lw + " ");
    CollapseNoDouble(lw + " ");
    TrimAround("", lw, " ");
    assert "" + lw + " " == lw + " ";
  }

  /** Steps 1 to 5 on the line of `CleanTrailingDescriptor`. */
  lemma RewriteTrailing(q: string, w: string, d: string)
    requires q != [] && AllDigits(q)
    requires PlainWord(w) && !IsDigit(w[0])
    requires AllWordChars(d) && Lower(d) in DescriptorWords
    ensures Rewrite(q + " " + w + ", " + d) == Lower(w) + " "
  {
    LowerWord(w);
    LowerWord(d);
    StripTrailing(q, w, d);
    CleanupComma(Lower(w), Lower(d));
  }

  /** Lower-casing and the quantity step on the line of
      `CleanTrailingDescriptor`. */
  lemma StripTrailing(q: string, w: string, d: string)
    requires q != [] && AllDigits(q)
    requires PlainWord(w) && !IsDigit(w[0])
    ensures StripQuantity(Lower(q + " " + w + ", " + d)) == Lower(w) + (", " + Lower(d))
  {
    var lw, ld := Lower(w), Lower(d);
    LowerWord(w);
    var rest := lw + (", " + ld);
    var l := Lower(q + " " + w + ", " + d);
    assert l == q + " " + rest by {
      LowerAppend(q + " " + w + ", ", d);
      LowerAppend(q + " " + w, ", ");
      LowerAppend(q + " ", w);
      LowerAppend(q, " ");
      LowerOfNoUpper(q);
      assert Lower(" ") == " " && Lower(", ") == ", ";
    }
    StripNumberPrefix(q, rest);
  }

  /** Steps 3 to 5 on "w, d" with a plain word and a descriptor. */
  lemma CleanupComma(lw: string, ld: string)
    requires PlainWord(lw) && Lower(lw) == lw
    requires AllWordChars(ld) && Lower(ld) == ld && ld in DescriptorWords
    ensures Cleanup(lw + (", " + ld)) == lw + " "
  {
    ListedWordsShape();
    UnitsComma(lw, ld);
    PunctuationComma(lw, ld);
    JoinTwo(lw, ld, " ");
    DropWordsSpaced([lw, ld], DescriptorWords);
    assert Blank([lw, ld], DescriptorWords) == [lw, ""];
    JoinTwo(lw, "", " ");
  }

  /** Neither word of "a, b" is a unit: the units step leaves it alone. */
  lemma UnitsComma(a: string, b: string)
    requires AllWordChars(a) && AllWordChars(b) && a != [] && b != []
    requires Lower(a) !in UnitWords && Lower(b) !in UnitWords
    ensures DropWords(a + (", " + b), UnitWords) == a + (", " + b)
  {
    DropWordsAppend(a, ", " + b, UnitWords);
    DropWordsAppend(", ", b, UnitWords);
    DropWordsOfWord(a, UnitWords);
    DropWordsOfWord(b, UnitWords);
    DropWordsOfNonWord(", ", UnitWords);
  }

  /** The comma of "a, b" is removed and the space stays. */
  lemma PunctuationComma(a: string, b: string)
    requires AllWordChars(a) && AllWordChars(b)
    ensures RemovePunctuation(a + (", " + b)) == a + " " + b
  {
    var tail := ", " + b;
    assert RemovePunctuation(tail) == " " + b by {
      assert tail[1..] == " " + b;
      assert (" " + b)[1..] == b;
      WordChars(b);
      RemovePunctuationNone(b);
    }
    assert RemovePunctuation(a) == a by {
      WordChars(a);
      RemovePunctuationNone(a);
    }
    RemovePunctuationAppend(a, tail);
    assert a + (" " + b) == a + " " + b;
  }
}

=== FILE: cors.dfy ===
/** The cross-origin policy of the API server: one origin test, used by the
    `cors` middleware's origin callback and again by the header override that
    runs after it on every request that is not a preflight and whose origin
    the callback allows (`cors` answers a preflight itself, and a refused
    origin goes to the error handler). */
module Cors {
  import opened Base
  import opened Text

  /** The allow-list, with its entries in the order the server declares
      them (the wildcard appears twice and matches only itself). */
  const AllowedOrigins: seq<string> := [
    "*",
    "https://recipe-finder-v2-b8be-qp0kej4bd.vercel.app",
    "http://localhost:5173",
    "http://127.0.0.1:5173",
    "*"
  ]

  const VercelSuffix: string := ".vercel.app"
  const AllowHeaders: string := "Content-Type, Authorization, user-id"
  const AllowMethods: string := "GET,PUT,POST,DELETE,OPTIONS"

  /** The test both middlewares apply to a present origin: a Vercel
      deployment, or an exact allow-list entry. */
  predicate Permitted(origin: string)
  {
    EndsWith(origin, VercelSuffix) || origin in AllowedOrigins
  }

  /** JavaScript truthiness of the `Origin` header. */
  predicate Present(origin: Option<string>)
  {
    origin.Some? && origin.value != ""
  }

  /** The answer of the origin callback: allowed, or refused with an error. */
  datatype Decision = Allow | Refuse(error: string)

  /** The origin callback of the `cors` middleware. */
  function OriginCallback(origin: Option<string>): (d: Decision)
    ensures d.Refuse? ==> d.error == "Not allowed by CORS"
  {
    if !Present(origin) then Allow
    else if EndsWith(origin.value, VercelSuffix) then Allow
    else if origin.value in AllowedOrigins then Allow
    else Refuse("Not allowed by CORS")
  }

  /** The response headers the override sets, and whether it hands on. */
  datatype Headers = Headers(allowOrigin: Option<string>, allowHeaders: string,
                             allowMethods: string, callsNext: bool)

  /** The manual `Access-Control-*` override. */
  function Override(origin: Option<string>): (h: Headers)
    ensures h.allowHeaders == AllowHeaders && h.allowMethods == AllowMethods
    ensures h.callsNext
    ensures h.allowOrigin.Some? ==> h.allowOrigin == origin
  {
    var allowOrigin := if Present(origin) && Permitted(origin.value) then origin else None;
    Headers(allowOrigin, AllowHeaders, AllowMethods, true)
  }

  /** An absent or empty origin is allowed by the callback but never
      echoed by the override. */
  lemma NoOrigin(origin: Option<string>)
    requires !Present(origin)
    ensures OriginCallback(origin) == Allow
    ensures Override(origin).allowOrigin == None
  {
  }

  /** The override echoes the origin exactly when it is present and the
      callback allows it: the two middlewares agree on present origins. */
  lemma OverrideAgrees(origin: Option<string>)
    ensures Override(origin).allowOrigin.Some?
      <==> Present(origin) && OriginCallback(origin) == Allow
  {
  }

  /** Every `*.vercel.app` origin is allowed and echoed. */
  lemma VercelAllowed(host: string)
    ensures OriginCallback(Some(host + VercelSuffix)) == Allow
    ensures Override(Some(host + VercelSuffix)).allowOrigin == Some(host + VercelSuffix)
  {
    var o := host + VercelSuffix;
    assert o[|o| - |VercelSuffix|..] == VercelSuffix;
  }

  /** The allowed origins that are not Vercel deployments are exactly the
      wildcard literal and the two local development servers. */
  lemma ListedOrigins(o: string)
    requires !EndsWith(o, VercelSuffix)
    ensures Permitted(o) <==> o in {"*", "http://localhost:5173", "http://127.0.0.1:5173"}
  {
    var d := "https://recipe-finder-v2-b8be-qp0kej4bd.vercel.app";
    assert EndsWith(d, VercelSuffix) by {
      assert d[|d| - |VercelSuffix|..] == VercelSuffix;
    }
  }

  /** The wildcard entries do not act as wildcards: an origin that is not a
      Vercel deployment, not `*` and not a local server is refused. */
  lemma WildcardIsLiteral(o: string)
    requires o != "" && !EndsWith(o, VercelSuffix)
    requires o !in {"*", "http://localhost:5173", "http://127.0.0.1:5173"}
    ensures OriginCallback(Some(o)) == Refuse("Not allowed by CORS")
    ensures Override(Some(o)).allowOrigin == None
  {
    ListedOrigins(o);
  }
}

=== FILE: favorites_context.dfy ===
/** The client-side favourites state: the session token and the list of
    favourite recipe ids, changed by toggles, loads and auth changes. The
    API calls appear as their outcomes; each step is atomic. */
module FavoritesContext {
  import opened Base

  datatype State = State(token: Option<string>, favorites: seq<string>)

  /** The API call a toggle makes, if any. */
  datatype Call = NoCall | AddFavorite(id: string) | RemoveFavorite(id: string)

  /** JavaScript truthiness of the token. */
  predicate SignedIn(s: State)
  {
    s.token.Some? && s.token.value != ""
  }

  /** The provider's initial state. */
  const Initial: State := State(None, [])

  /** The filter callback that drops `id`. */
  function Other(id: string): string -> bool
  {
    x => x != id
  }

  /** The list after a successful remove: every occurrence of `id` gone,
      the other ids kept in order. */
  function Without(favorites: seq<string>, id: string): (r: seq<string>)
    ensures forall x :: x in r <==> x in favorites && x != id
    ensures IsSubseq(r, favorites) && |r| == CountWhere(favorites, Other(id))
  {
    Filter(favorites, Other(id))
  }

  /** The API call `toggleFavorite(id)` makes in state `s`. */
  function ToggleCall(s: State, id: string): (c: Call)
    ensures !SignedIn(s) <==> c == NoCall
    ensures SignedIn(s) ==> (c == RemoveFavorite(id) <==> id in s.favorites)
    ensures SignedIn(s) ==> (c == AddFavorite(id) <==> id !in s.favorites)
  {
    if !SignedIn(s) then NoCall
    else if id in s.favorites then RemoveFavorite(id)
    else AddFavorite(id)
  }

  /** `toggleFavorite(id)`, where `ok` says whether the API call succeeded. */
  function Toggle(s: State, id: string, ok: bool): (r: State)
    ensures r.token == s.token
    ensures !SignedIn(s) || !ok ==> r == s
    ensures SignedIn(s) && ok && id in s.favorites ==>
      && (forall x :: x in r.favorites <==> x in s.favorites && x != id)
      && IsSubseq(r.favorites, s.favorites)
      && |r.favorites| == CountWhere(s.favorites, Other(id))
    ensures SignedIn(s) && ok && id !in s.favorites ==> r.favorites == s.favorites + [id]
  {
    match ToggleCall(s, id)
    case NoCall => s
    case RemoveFavorite(_) => if ok then s.(favorites := Without(s.favorites, id)) else s
    case AddFavorite(_) => if ok then s.(favorites := s.favorites + [id]) else s
  }

  /** `loadFavorites`: `fetched` is the API's answer, `None` when it failed. */
  function Load(s: State, fetched: Option<seq<string>>): (r: State)
    ensures r.token == s.token
    ensures fetched.Some? ==> r.favorites == fetched.value
    ensures fetched.None? ==> r == s
  {
    match fetched
    case Some(ids) => s.(favorites := ids)
    case None => s
  }

  /** The auth-state handler: a session with a token stores it and loads
      the favourites; any other session clears the token and the list. */
  function AuthChanged(s: State, sessionToken: Option<string>, fetched: Option<seq<string>>): (r: State)
    ensures sessionToken.Some? && sessionToken.value != "" ==>
      r.token == sessionToken && (fetched.Some? ==> r.favorites == fetched.value)
        && (fetched.None? ==> r.favorites == s.favorites)
    ensures !(sessionToken.Some? && sessionToken.value != "") ==> r == Initial
  {
    if sessionToken.Some? && sessionToken.value != "" then Load(s.(token := sessionToken), fetched)
    else State(None, [])
  }

  /** The session restored on mount: only a session with a token changes
      anything. */
  function SessionRestored(s: State, sessionToken: Option<string>, fetched: Option<seq<string>>): (r: State)
    ensures !(sessionToken.Some? && sessionToken.value != "") ==> r == s
    ensures sessionToken.Some? && sessionToken.value != "" ==> r == AuthChanged(s, sessionToken, fetched)
  {
    if sessionToken.Some? && sessionToken.value != "" then AuthChanged(s, sessionToken, fetched) else s
  }

  /** Removing an id the list does not hold changes nothing. */
  lemma {:induction false} WithoutAbsent(favorites: seq<string>, id: string)
    requires id !in favorites
    ensures Without(favorites, id) == favorites
    decreases |favorites|
  {
    if favorites != [] {
      assert favorites[0] != id;
      WithoutAbsent(favorites[1..], id);
      ConsJoin(favorites);
    }
  }

  /** Removing `id` from a list ending in `id` removes that last element
      as well as the earlier occurrences. */
  lemma {:induction false} WithoutAppended(favorites: seq<string>, id: string)
    ensures Without(favorites + [id], id) == Without(favorites, id)
    decreases |favorites|
  {
    if favorites == [] {
      assert [id][1..] == [];
    } else {
      AppendTail(favorites, [id]);
      WithoutAppended(favorites[1..], id);
    }
  }

  /** Toggling an absent id twice, both calls succeeding, restores the
      list. */
  lemma ToggleTwice(s: State, id: string)
    requires SignedIn(s) && id !in s.favorites
    ensures Toggle(Toggle(s, id, true), id, true) == s
  {
    var t := Toggle(s, id, true);
    assert id in t.favorites;
    WithoutAppended(s.favorites, id);
    WithoutAbsent(s.favorites, id);
  }

  /** A subsequence of a duplicate-free list is duplicate-free. */
  lemma {:induction false} SubseqNoDuplicates(a: seq<string>, b: seq<string>)
    requires IsSubseq(a, b) && NoDuplicates(b)
    ensures NoDuplicates(a)
    decreases |b|
  {
    if a != [] {
      assert NoDuplicates(b[1..]) by {
        forall i, j | 0 <= i < j < |b| - 1 ensures b[1..][i] != b[1..][j] {
          assert b[1..][i] == b[i + 1] && b[1..][j] == b[j + 1];
        }
      }
      if a[0] == b[0] {
        SubseqNoDuplicates(a[1..], b[1..]);
        SubseqMembers(a[1..], b[1..]);
        assert b[0] !in b[1..] by {
          forall k | 0 <= k < |b| - 1 ensures b[1..][k] != b[0] {
            assert b[1..][k] == b[k + 1];
          }
        }
        forall i, j | 0 <= i < j < |a| ensures a[i] != a[j] {
          if i == 0 {
            assert a[j] == a[1..][j - 1];
            assert a[1..][j - 1] in a[1..];
          } else {
            assert a[i] == a[1..][i - 1] && a[j] == a[1..][j - 1];
          }
        }
      } else {
        SubseqNoDuplicates(a, b[1..]);
      }
    }
  }

  /** Toggles keep a duplicate-free list duplicate-free. */
  lemma ToggleNoDuplicates(s: State, id: string, ok: bool)
    requires NoDuplicates(s.favorites)
    ensures NoDuplicates(Toggle(s, id, ok).favorites)
  {
    if SignedIn(s) && ok {
      if id in s.favorites {
        SubseqNoDuplicates(Without(s.favorites, id), s.favorites);
      } else {
        var f := s.favorites + [id];
        forall i, j | 0 <= i < j < |f| ensures f[i] != f[j] {
          if j == |f| - 1 {
            assert f[i] == s.favorites[i];
            assert s.favorites[i] in s.favorites;
          }
        }
      }
    }
  }
}

=== FILE: favorites_view.dfy ===
/** The favourites page: the fetched recommended recipes narrowed to the
    favourite ids, or an empty state when none remain. */
module FavoritesView {
  import opened Base

  /** A recipe card; only the id takes part in the filter. */
  datatype Card = Card(id: string, title: string)

  /** What the page renders. */
  datatype View = Spinner | EmptyState | Grid(recipes: seq<Card>)

  /** The favourite recipes among the fetched ones (`data ?? []` when the
      query has no data). */
  function FavRecipes(data: Option<seq<Card>>, favorites: seq<string>): (r: seq<Card>)
  {
    Filter(data.GetOr([]), IsFavorite(favorites))
  }

  /** The card's id is one of the favourites. */
  function IsFavorite(favorites: seq<string>): Card -> bool
  {
    (c: Card) => c.id in favorites
  }

  /** The page for a query that is loading or has answered `data`. */
  function Render(loading: bool, data: Option<seq<Card>>, favorites: seq<string>): (v: View)
    ensures loading <==> v == Spinner
    ensures !loading ==> (v == EmptyState <==> FavRecipes(data, favorites) == [])
    ensures v.Grid? ==> v.recipes == FavRecipes(data, favorites) && v.recipes != []
  {
    if loading then Spinner
    else
      var favs := FavRecipes(data, favorites);
      if |favs| == 0 then EmptyState else Grid(favs)
  }

  /** The shown recipes are exactly the fetched ones whose id is a
      favourite, in the fetched order, each as often as it was fetched. */
  lemma FavRecipesSpec(data: seq<Card>, favorites: seq<string>)
    ensures forall c :: c in FavRecipes(Some(data), favorites) <==> c in data && c.id in favorites
    ensures IsSubseq(FavRecipes(Some(data), favorites), data)
    ensures |FavRecipes(Some(data), favorites)| == CountWhere(data, IsFavorite(favorites))
  {
  }

  /** A favourite id that the fetched list lacks shows nothing. */
  lemma NotFetchedNotShown(data: seq<Card>, favorites: seq<string>, id: string)
    requires forall c :: c in data ==> c.id != id
    ensures forall c :: c in FavRecipes(Some(data), favorites) ==> c.id != id
  {
  }

  /** The order of the favourites list plays no part: any two lists with
      the same ids show the same recipes. */
  lemma {:induction false} FavoritesOrderIrrelevant(data: seq<Card>, f1: seq<string>, f2: seq<string>)
    requires forall x :: x in f1 <==> x in f2
    ensures FavRecipes(Some(data), f1) == FavRecipes(Some(data), f2)
    decreases |data|
  {
    if data != [] {
      FavoritesOrderIrrelevant(data[1..], f1, f2);
    }
  }

  /** Without data, or with no favourites, the empty state is shown. */
  lemma EmptyWithoutFavorites(data: Option<seq<Card>>, favorites: seq<string>)
    requires data.None? || favorites == []
    ensures Render(false, data, favorites) == EmptyState
  {
    var favs := FavRecipes(data, favorites);
    assert forall i :: 0 <= i < |favs| ==> favs[i] !in favs;
  }
}

=== FILE: form_parsing.dfy ===
/** The list fields of the front-end forms. The profile page stores
    allergies and favourite cuisines as lists, shows them joined by ", " and
    parses the edited text back by splitting at commas; the AI generator
    splits its ingredient box at newlines and commas and its tag box at
    commas. Each parse is `split`, then `trim` of every part, then
    `filter(Boolean)`. */
module FormParsing {
  import opened Base
  import opened Text

  const Comma: set<char> := {','}
  const CommaOrNewline: set<char> := {'\n', ','}

  /** `map((s) => s.trim())`. */
  function TrimAll(parts: seq<string>): (r: seq<string>)
    ensures |r| == |parts|
    ensures forall i :: 0 <= i < |parts| ==> r[i] == Trim(parts[i])
  {
    seq(|parts|, i requires 0 <= i < |parts| => Trim(parts[i]))
  }

  /** `filter(Boolean)` on strings: the empty string is false. */
  function NonEmpty(): string -> bool
  {
    x => x != ""
  }

  /** `text.split(seps).map(trim).filter(Boolean)`. */
  function ParseList(text: string, seps: set<char>): (r: seq<string>)
  {
    Filter(TrimAll(Split(text, seps)), NonEmpty())
  }

  /** Already in the form `trim` produces. */
  predicate Trimmed(x: string)
  {
    x == [] || (!IsSpace(x[0]) && !IsSpace(x[|x| - 1]))
  }

  predicate Avoids(x: string, seps: set<char>)
  {
    forall i :: 0 <= i < |x| ==> x[i] !in seps
  }

  /** Every character of a part of a split comes from the split text. */
  lemma {:induction false} SplitCharsFrom(s: string, seps: set<char>)
    ensures forall k, i :: 0 <= k < |Split(s, seps)| && 0 <= i < |Split(s, seps)[k]| ==> Split(s, seps)[k][i] in s
    decreases |s|
  {
    if s != [] {
      var rest := Split(s[1..], seps);
      SplitCharsFrom(s[1..], seps);
      assert forall c :: c in s[1..] ==> c in s;
    }
  }

  /** Trimming a separator-free part gives a trimmed, separator-free
      string. */
  lemma TrimPart(p: string, seps: set<char>)
    requires Avoids(p, seps)
    ensures Trim(Trim(p)) == Trim(p) && Avoids(Trim(p), seps)
  {
    var e := Trim(p);
    var a := RunLength(p, IsSpace);
    assert forall i :: 0 <= i < |e| ==> e[i] == p[a + i];
    TrimOfTrimmed(e);
  }

  /** The parsed entries are non-empty, trimmed and free of separators;
      they are exactly the non-empty trimmed parts, in input order. */
  lemma ParseListSpec(text: string, seps: set<char>)
    ensures forall e :: e in ParseList(text, seps) ==> e != "" && Trim(e) == e && Avoids(e, seps)
    ensures forall e :: e in ParseList(text, seps) <==> e != "" && e in TrimAll(Split(text, seps))
    ensures IsSubseq(ParseList(text, seps), TrimAll(Split(text, seps)))
    ensures |ParseList(text, seps)| == CountWhere(TrimAll(Split(text, seps)), NonEmpty())
  {
    var parts := Split(text, seps);
    var trimmed := TrimAll(parts);
    forall k | 0 <= k < |parts|
      ensures Trim(trimmed[k]) == trimmed[k] && Avoids(trimmed[k], seps)
    {
      assert Avoids(parts[k], seps);
      TrimPart(parts[k], seps);
    }
  }

  /** Text made only of whitespace and commas parses to the empty list. */
  lemma BlankParsesEmpty(text: string)
    requires forall i :: 0 <= i < |text| ==> IsSpace(text[i]) || text[i] == ','
    ensures ParseList(text, Comma) == []
  {
    var parts := Split(text, Comma);
    SplitCharsFrom(text, Comma);
    forall k | 0 <= k < |parts|
      ensures Trim(parts[k]) == ""
    {
      assert forall i :: 0 <= i < |parts[k]| ==> parts[k][i] in text && parts[k][i] != ',';
      assert AllSpace(parts[k]);
    }
    var r := ParseList(text, Comma);
    assert forall i :: 0 <= i < |r| ==> r[i] !in r;
  }

  /** The profile's display form of a stored list; an absent list shows
      as the empty string. */
  function Display(stored: Option<seq<string>>): (r: string)
    ensures stored.None? || stored.value == [] ==> r == ""
    ensures stored.Some? && |stored.value| == 1 ==> r == stored.value[0]
  {
    Join(stored.GetOr([]), ", ")
  }

  /** The parts the display form splits into at commas: the first entry,
      then each later one after the blank that followed its comma. */
  function Padded(xs: seq<string>): (r: seq<string>)
    ensures |r| == |xs|
  {
    seq(|xs|, i requires 0 <= i < |xs| => if i == 0 then xs[0] else " " + xs[i])
  }

  /** A separator-free string splits into itself. */
  lemma SplitWhole(x: string, seps: set<char>)
    requires Avoids(x, seps)
    ensures Split(x, seps) == [x]
  {
    SplitPrefix(x, "", seps);
    assert x + "" == x;
  }

  /** Splitting the joined form at commas gives the padded entries. */
  lemma {:induction false} SplitDisplay(xs: seq<string>)
    requires xs != []
    requires forall k :: 0 <= k < |xs| ==> Avoids(xs[k], Comma)
    ensures Split(Join(xs, ", "), Comma) == Padded(xs)
    decreases |xs|
  {
    if |xs| == 1 {
      SplitWhole(xs[0], Comma);
    } else {
      var j := Join(xs[1..], ", ");
      SplitDisplay(xs[1..]);
      SplitStep(xs[0], j, Padded(xs[1..]));
      JoinCons(xs);
      PaddedCons(xs);
    }
  }

  /** The display form of two or more entries: the first, a comma, a
      blank, and the display form of the rest. */
  lemma JoinCons(xs: seq<string>)
    requires |xs| >= 2
    ensures Join(xs, ", ") == xs[0] + ("," + (" " + Join(xs[1..], ", ")))
  {
  }

  lemma PaddedCons(xs: seq<string>)
    requires |xs| >= 2
    ensures Padded(xs) == [xs[0]] + [" " + Padded(xs[1..])[0]] + Padded(xs[1..])[1..]
  {
    var p := Padded(xs[1..]);
    var q := [xs[0]] + [" " + p[0]] + p[1..];
    assert forall i :: 1 < i < |xs| ==> q[i] == p[i - 1];
  }

  /** One joint of the display form: `x, ` in front of a string whose
      split is known. */
  lemma SplitStep(x: string, j: string, p: seq<string>)
    requires Avoids(x, Comma) && Split(j, Comma) == p
    ensures Split(x + ("," + (" " + j)), Comma) == [x] + [" " + p[0]] + p[1..]
  {
    SplitPrefix(" ", j, Comma);
    SplitAtSeparator(x, ',', " " + j, Comma);
  }

  /** Trimming the padded entries gives the entries back. */
  lemma TrimPadded(xs: seq<string>)
    requires forall k :: 0 <= k < |xs| ==> xs[k] != "" && Trimmed(xs[k])
    ensures TrimAll(Padded(xs)) == xs
  {
    forall k | 0 <= k < |xs|
      ensures Trim(Padded(xs)[k]) == xs[k]
    {
      if k == 0 {
        TrimOfTrimmed(xs[0]);
      } else {
        TrimLeadingSpace(xs[k]);
      }
    }
  }

  /** Parsing the display form of a stored list gives the list back when
      its entries are non-empty, trimmed and comma-free. */
  lemma DisplayRoundTrip(xs: seq<string>)
    requires forall k :: 0 <= k < |xs| ==> xs[k] != "" && Trimmed(xs[k]) && Avoids(xs[k], Comma)
    ensures ParseList(Display(Some(xs)), Comma) == xs
  {
    if xs == [] {
      assert Split("", Comma) == [""];
      assert TrimAll([""]) == [""];
      assert Filter([""], NonEmpty()) == [];
    } else {
      SplitDisplay(xs);
      TrimPadded(xs);
      FilterAll(xs, NonEmpty());
    }
  }

  /** The ingredient box: entries contain neither commas nor newlines. */
  function Ingredients(text: string): (r: seq<string>)
    ensures forall e :: e in r ==> e != "" && Trim(e) == e && Avoids(e, CommaOrNewline)
  {
    ParseListSpec(text, CommaOrNewline);
    ParseList(text, CommaOrNewline)
  }

  /** The tag box splits at commas only, so a newline stays inside a tag. */
  function Tags(text: string): (r: seq<string>)
    ensures forall e :: e in r ==> e != "" && Trim(e) == e && Avoids(e, Comma)
  {
    ParseListSpec(text, Comma);
    ParseList(text, Comma)
  }

  /** A newline inside comma-free text stays inside its one tag. */
  lemma TagKeepsNewline(a: string, b: string)
    requires a != "" && b != "" && Trimmed(a) && Trimmed(b)
    requires Avoids(a, CommaOrNewline) && Avoids(b, CommaOrNewline)
    ensures Tags(a + "\n" + b) == [a + "\n" + b]
  {
    var t := a + "\n" + b;
    assert Avoids(t, Comma) by {
      assert forall i :: 0 <= i < |t| ==> t[i] == '\n' || t[i] in a || t[i] in b;
    }
    SplitWhole(t, Comma);
    TrimOfTrimmed(t);
    assert TrimAll([t]) == [t];
    FilterAll([t], NonEmpty());
  }

  /** The ingredient box splits the same text at the newline. */
  lemma IngredientsSplitNewline(a: string, b: string)
    requires a != "" && b != "" && Trimmed(a) && Trimmed(b)
    requires Avoids(a, CommaOrNewline) && Avoids(b, CommaOrNewline)
    ensures Ingredients(a + "\n" + b) == [a, b]
  {
    assert a + "\n" + b == a + ("\n" + b);
    SplitWhole(b, CommaOrNewline);
    assert ("\n" + b)[1..] == b;
    assert Split("\n" + b, CommaOrNewline) == [""] + [b];
    SplitPrefix(a, "\n" + b, CommaOrNewline);
    assert a + "" == a;
    TrimOfTrimmed(a);
    TrimOfTrimmed(b);
    assert TrimAll([a, b]) == [a, b];
    FilterAll([a, b], NonEmpty());
  }

  /** The request the generator sends. */
  datatype GeneratePayload = GeneratePayload(title: Option<string>, ingredients: seq<string>,
                                             servings: Option<int>, dietaryTags: seq<string>)

  /** The servings field: a cleared field is `undefined`, anything else is
      the number typed (`number` stands for JavaScript's `Number`). */
  function ServingsField(value: string, number: string -> int): (r: Option<int>)
    ensures r.None? <==> value == ""
    ensures r.Some? ==> r.value == number(value)
  {
    if value == "" then None else Some(number(value))
  }

  /** `handleSubmit`: an empty title is sent as `undefined`. */
  function Submit(title: string, ingredients: string, servings: Option<int>, tags: string): (p: GeneratePayload)
    ensures p.title.None? <==> title == ""
    ensures p.title.Some? ==> p.title.value == title
    ensures p.ingredients == Ingredients(ingredients) && p.dietaryTags == Tags(tags)
    ensures p.servings == servings
  {
    GeneratePayload(if title == "" then None else Some(title), Ingredients(ingredients), servings, Tags(tags))
  }
}

=== FILE: llm_client.dfy ===
/** Recipe generation in the Python service: the model's reply is searched
    for a `{...}` span, its fields are merged with the request through
    Python's truthy-or chains, and every failure gives a fixed fallback
    recipe. The model call, `json.loads`, pydantic validation and uuid
    generation are inputs: the call's outcome is a `Reply`, parsing is a
    partial function `parse`, and the fresh id is the parameter `id`. */
module LlmClient {
  import opened Base

  /** `GenerateRecipeRequest`. */
  datatype Request = Request(title: Option<string>, ingredients: seq<string>,
                             servings: Option<int>, dietaryTags: Option<seq<string>>)

  /** `RecipeDetail`; the rating is a float in the service. */
  datatype RecipeDetail = RecipeDetail(
    id: string, title: string, ingredients: seq<string>, steps: seq<string>,
    servings: Option<int>, calories: Option<int>, cookTimeMinutes: Option<int>,
    difficulty: Option<string>, rating: Option<real>, tags: Option<seq<string>>,
    imageUrl: Option<string>)

  /** The fields read from the parsed model output, each absent when the
      key is missing or null. */
  datatype ModelData = ModelData(
    title: Option<string>, ingredients: Option<seq<string>>, steps: Option<seq<string>>,
    servings: Option<int>, calories: Option<int>, cookTimeMinutes: Option<int>,
    difficulty: Option<string>, rating: Option<real>, tags: Option<seq<string>>,
    imageUrl: Option<string>)

  /** How the model call went: no model is configured, the call (or reading
      its text) raised, or it answered with a possibly missing text. */
  datatype Reply = Unconfigured | Raised | Answered(text: Option<string>)

  const DefaultTitle: string := "AI generated recipe"
  const DefaultServings: int := 2
  const FallbackCookTime: int := 30
  const DefaultDifficulty: string := "easy"
  const DefaultRating: real := 4.5

  const FallbackSteps: seq<string> := [
    "Read through the ingredients and preheat your oven or pan if needed.",
    "Prepare all ingredients by washing, chopping and measuring.",
    "Cook the ingredients using appropriate methods (sauté, boil, bake) until done.",
    "Taste and adjust seasoning with salt, pepper and herbs.",
    "Serve warm and enjoy your AI-generated meal!"
  ]

  /** `a or b` for an optional string, list, int and float: Python treats
      `None`, the empty string, the empty list, 0 and 0.0 as false. */
  function OrString(a: Option<string>, b: string): (r: string)
    ensures a.Some? && a.value != "" ==> r == a.value
    ensures !(a.Some? && a.value != "") ==> r == b
  {
    if a.Some? && a.value != "" then a.value else b
  }

  function OrList(a: Option<seq<string>>, b: seq<string>): (r: seq<string>)
    ensures a.Some? && a.value != [] ==> r == a.value
    ensures !(a.Some? && a.value != []) ==> r == b
  {
    if a.Some? && a.value != [] then a.value else b
  }

  function OrInt(a: Option<int>, b: int): (r: int)
    ensures a.Some? && a.value != 0 ==> r == a.value
    ensures !(a.Some? && a.value != 0) ==> r == b
  {
    if a.Some? && a.value != 0 then a.value else b
  }

  function OrReal(a: Option<real>, b: real): (r: real)
    ensures a.Some? && a.value != 0.0 ==> r == a.value
    ensures !(a.Some? && a.value != 0.0) ==> r == b
  {
    if a.Some? && a.value != 0.0 then a.value else b
  }

  /** `_fallback_recipe`. */
  function Fallback(req: Request, id: string): (r: RecipeDetail)
    ensures r.id == id && r.ingredients == req.ingredients && r.steps == FallbackSteps
    ensures r.title == (if req.title.Some? && req.title.value != "" then req.title.value else DefaultTitle)
    ensures r.servings == Some(if req.servings.Some? && req.servings.value != 0 then req.servings.value else DefaultServings)
    ensures r.calories == None && r.cookTimeMinutes == Some(FallbackCookTime) && r.imageUrl == None
    ensures r.difficulty == Some(DefaultDifficulty) && r.rating == Some(DefaultRating)
    ensures r.tags == Some(req.dietaryTags.GetOr([]))
  {
    RecipeDetail(
      id, OrString(req.title, DefaultTitle), req.ingredients, FallbackSteps,
      Some(OrInt(req.servings, DefaultServings)), None, Some(FallbackCookTime),
      Some(DefaultDifficulty), Some(DefaultRating),
      Some(OrList(req.dietaryTags, [])), None)
  }

  /** Position of the first occurrence of `c`. */
  function IndexOf(s: string, c: char): (r: Option<nat>)
    ensures r.Some? ==> r.value < |s| && s[r.value] == c
    ensures forall k :: 0 <= k < |s| && (r.None? || k < r.value) ==> s[k] != c
  {
    if s == [] then None
    else if s[0] == c then Some(0)
    else
      match IndexOf(s[1..], c)
      case None => None
      case Some(i) => Some(i + 1)
  }

  /** Position of the last occurrence of `c`. */
  function LastIndexOf(s: string, c: char): (r: Option<nat>)
    ensures r.Some? ==> r.value < |s| && s[r.value] == c
    ensures forall k :: 0 <= k < |s| && (r.None? || k > r.value) ==> s[k] != c
  {
    if s == [] then None
    else if s[|s| - 1] == c then Some(|s| - 1)
    else LastIndexOf(s[..|s| - 1], c)
  }

  /** Some `{` comes before some `}`: the pattern `\{[\s\S]*\}` matches. */
  predicate HasBraces(text: string)
  {
    exists i, j :: 0 <= i < j < |text| && text[i] == '{' && text[j] == '}'
  }

  /** The span `re.search(r"\{[\s\S]*\}", text)` finds: the leftmost match
      starts at the first `{`, and the greedy `[\s\S]*` runs to the last
      `}`. */
  function JsonCandidate(text: string): (r: Option<string>)
  {
    match (IndexOf(text, '{'), LastIndexOf(text, '}'))
    case (Some(i), Some(j)) => if i < j then Some(text[i..j + 1]) else None
    case _ => None
  }

  /** A candidate exists exactly when some `{` precedes some `}`; it then
      starts with a `{` no other `{` precedes, ends with a `}` no other `}`
      follows, and so contains every such pair of braces. */
  lemma CandidateSpec(text: string)
    ensures JsonCandidate(text).Some? <==> HasBraces(text)
    ensures JsonCandidate(text).Some? ==> exists i, j ::
      0 <= i < j < |text| && JsonCandidate(text).value == text[i..j + 1] &&
      text[i] == '{' && text[j] == '}' &&
      (forall k :: 0 <= k < i ==> text[k] != '{') &&
      (forall k :: j < k < |text| ==> text[k] != '}')
  {
    var first := IndexOf(text, '{');
    var last := LastIndexOf(text, '}');
    if HasBraces(text) {
      var i, j :| 0 <= i < j < |text| && text[i] == '{' && text[j] == '}';
      assert first.Some? && first.value <= i;
      assert last.Some? && last.value >= j;
    }
  }

  /** The fields of a successful reply, each from the model when truthy,
      then from the request, then a default. */
  function Merge(req: Request, data: ModelData, id: string): (r: RecipeDetail)
    ensures r.title != "" && r.steps != []
    ensures r.calories == data.calories && r.cookTimeMinutes == data.cookTimeMinutes
    ensures r.imageUrl == data.imageUrl
  {
    RecipeDetail(
      id,
      OrString(data.title, OrString(req.title, DefaultTitle)),
      OrList(data.ingredients, req.ingredients),
      OrList(data.steps, FallbackSteps),
      Some(OrInt(data.servings, OrInt(req.servings, DefaultServings))),
      data.calories,
      data.cookTimeMinutes,
      Some(OrString(data.difficulty, DefaultDifficulty)),
      Some(OrReal(data.rating, DefaultRating)),
      Some(OrList(data.tags, OrList(req.dietaryTags, []))),
      data.imageUrl)
  }

  /** `generate_recipe`; `parse` stands for `json.loads` followed by the
      field reads and the pydantic checks, `None` for any of them raising.
      The fields it yields are the values pydantic would keep, so the `or`
      chains see coerced values where the source sees raw ones. */
  function Generate(req: Request, reply: Reply, parse: string -> Option<ModelData>, id: string): (r: RecipeDetail)
    ensures r.title != "" && r.steps != []
    ensures r.id == id
  {
    match reply
    case Unconfigured => Fallback(req, id)
    case Raised => Fallback(req, id)
    case Answered(t) =>
      match JsonCandidate(t.GetOr(""))
      case None => Fallback(req, id)
      case Some(candidate) =>
        match parse(candidate)
        case None => Fallback(req, id)
        case Some(data) => Merge(req, data, id)
  }

  /** Without a model, with a raising call, with a reply that holds no
      braces, or with an unparseable candidate, the result is the fallback
      recipe. */
  lemma FallbackPaths(req: Request, reply: Reply, parse: string -> Option<ModelData>, id: string)
    requires reply.Unconfigured? || reply.Raised?
      || (reply.Answered? && !HasBraces(reply.text.GetOr("")))
      || (reply.Answered? && HasBraces(reply.text.GetOr("")) && parse(JsonCandidate(reply.text.GetOr("")).value).None?)
    ensures Generate(req, reply, parse, id) == Fallback(req, id)
  {
    if reply.Answered? {
      CandidateSpec(reply.text.GetOr(""));
    }
  }

  /** On the model path each field follows its truthy-or chain, and
      calories, cook time and image come from the model alone. */
  lemma ModelPath(req: Request, text: string, parse: string -> Option<ModelData>, id: string, data: ModelData)
    requires HasBraces(text) && parse(JsonCandidate(text).value) == Some(data)
    ensures var r := Generate(req, Answered(Some(text)), parse, id);
      && r.title == (if data.title.Some? && data.title.value != "" then data.title.value
                     else if req.title.Some? && req.title.value != "" then req.title.value
                     else DefaultTitle)
      && r.ingredients == (if data.ingredients.Some? && data.ingredients.value != [] then data.ingredients.value
                           else req.ingredients)
      && r.steps == (if data.steps.Some? && data.steps.value != [] then data.steps.value else FallbackSteps)
      && r.servings == Some(if data.servings.Some? && data.servings.value != 0 then data.servings.value
                            else if req.servings.Some? && req.servings.value != 0 then req.servings.value
                            else DefaultServings)
      && r.calories == data.calories && r.cookTimeMinutes == data.cookTimeMinutes
      && r.imageUrl == data.imageUrl
      && r.difficulty == Some(if data.difficulty.Some? && data.difficulty.value != "" then data.difficulty.value
                              else DefaultDifficulty)
      && r.rating == Some(if data.rating.Some? && data.rating.value != 0.0 then data.rating.value else DefaultRating)
      && r.tags == Some(if data.tags.Some? && data.tags.value != [] then data.tags.value
                        else if req.dietaryTags.Some? && req.dietaryTags.value != [] then req.dietaryTags.value
                        else [])
  {
    CandidateSpec(text);
  }
}

=== FILE: recipes.dfy ===
/** The recipe routes of node-api/src/recipes.js: mapping database rows to
    the shapes the front end reads, ordering steps, and the in-memory diet
    and cooking-time filters of `/recipes/search`. The database is a
    sequence of rows; its title search is an uninterpreted predicate. */
module Recipes {
  import opened Base
  import opened Text

  /** One `recipe_tags` link; `name` is `None` when the link has no tag or
      the tag no name. */
  datatype TagLink = TagLink(name: Option<string>)

  /** One `ingredients` row. */
  datatype IngredientRow = IngredientRow(name: string, quantity: Option<string>)

  /** One `steps` row. */
  datatype StepRow = StepRow(stepNumber: Option<int>, instruction: string)

  /** One `recipes` row with its joined tables; `None` is a null column. */
  datatype RecipeRow = RecipeRow(
    id: string, title: string, imageUrl: Option<string>, cookTime: Option<int>,
    difficulty: Option<string>, rating: Option<real>, calories: Option<int>,
    tagLinks: Option<seq<TagLink>>, ingredients: Option<seq<IngredientRow>>,
    steps: Option<seq<StepRow>>)

  /** What the list pages read. */
  datatype Summary = Summary(
    id: string, title: string, imageUrl: Option<string>, cookTime: Option<int>,
    difficulty: Option<string>, rating: Option<real>, tags: seq<string>)

  /** What the detail page reads. */
  datatype Detail = Detail(
    id: string, title: string, imageUrl: Option<string>, cookTime: Option<int>,
    difficulty: Option<string>, rating: Option<real>, tags: seq<string>,
    ingredients: seq<string>, steps: seq<string>, calories: Option<int>)

  /** JavaScript truthiness of an optional string. */
  predicate TruthyString(s: Option<string>)
  {
    s.Some? && s.value != ""
  }

  // ---------------------------------------------------------------------
  // Tags
  // ---------------------------------------------------------------------

  /** `links.map(rt => rt.tags?.name).filter(Boolean)`. */
  function TagNames(links: seq<TagLink>): seq<string>
  {
    if links == [] then []
    else (if TruthyString(links[0].name) then [links[0].name.value] else []) + TagNames(links[1..])
  }

  /** `mapTags`: a missing join counts as no links. */
  function MapTags(row: RecipeRow): seq<string>
  {
    TagNames(row.tagLinks.GetOr([]))
  }

  /** The tag names are exactly the non-empty names of the links. */
  lemma {:induction false} TagNamesMembers(links: seq<TagLink>)
    ensures forall x :: x in TagNames(links) <==> x != "" && TagLink(Some(x)) in links
    decreases |links|
  {
    if links != [] {
      TagNamesMembers(links[1..]);
      assert forall l :: l in links <==> l == links[0] || l in links[1..];
    }
  }

  /** The tag names keep the order of the links: the names of two runs of
      links are the names of the first followed by those of the second. */
  lemma {:induction false} TagNamesAppend(a: seq<TagLink>, b: seq<TagLink>)
    ensures TagNames(a + b) == TagNames(a) + TagNames(b)
    decreases |a|
  {
    if a == [] {
      assert a + b == b;
    } else {
      AppendTail(a, b);
      TagNamesAppend(a[1..], b);
      SeqAssoc(if TruthyString(a[0].name) then [a[0].name.value] else [], TagNames(a[1..]), TagNames(b));
    }
  }

  /** A link with a name contributes it; one without contributes nothing. */
  lemma TagNamesOne(l: TagLink)
    ensures TagNames([l]) == if TruthyString(l.name) then [l.name.value] else []
  {
    assert [l][1..] == [];
  }

  // ---------------------------------------------------------------------
  // Ingredients
  // ---------------------------------------------------------------------

  /** One ingredient line: "quantity name" when the quantity is truthy,
      otherwise the name alone. */
  function FormatIngredient(i: IngredientRow): string
  {
    if TruthyString(i.quantity) then i.quantity.value + " " + i.name else i.name
  }

  /** The ingredient lines, one per row, in order. */
  function FormatIngredients(rows: seq<IngredientRow>): (r: seq<string>)
    ensures |r| == |rows|
    ensures forall k :: 0 <= k < |rows| ==> r[k] == FormatIngredient(rows[k])
  {
    seq(|rows|, k requires 0 <= k < |rows| => FormatIngredient(rows[k]))
  }

  /** A line ends with the name, and starts with the truthy quantity and a
      space: dropping that prefix gives the name back. */
  lemma FormatIngredientParts(i: IngredientRow)
    ensures EndsWith(FormatIngredient(i), i.name)
    ensures TruthyString(i.quantity) ==>
      var line := FormatIngredient(i);
      var p := |i.quantity.value| + 1;
      StartsWith(line, i.quantity.value + " ") && line[p..] == i.name
    ensures !TruthyString(i.quantity) ==> FormatIngredient(i) == i.name
  {
    var line := FormatIngredient(i);
    if TruthyString(i.quantity) {
      var prefix := i.quantity.value + " ";
      assert line == prefix + i.name;
      assert line[..|prefix|] == prefix;
      assert line[|prefix|..] == i.name;
      assert line[|line| - |i.name|..] == i.name;
    } else {
      assert line[|line| - |i.name|..] == i.name;
    }
  }

  // ---------------------------------------------------------------------
  // Steps
  // ---------------------------------------------------------------------

  /** The sort key: `step_number ?? 0`. */
  function StepKey(s: StepRow): int
  {
    s.stepNumber.GetOr(0)
  }

  /** A step with its position in the joined list; the position is not
      used for ordering, it only lets the contracts speak of stability. */
  datatype Numbered = Numbered(pos: nat, step: StepRow)

  function Key(n: Numbered): int
  {
    StepKey(n.step)
  }

  function Enumerate(steps: seq<StepRow>): (r: seq<Numbered>)
    ensures |r| == |steps|
    ensures forall i :: 0 <= i < |steps| ==> r[i] == Numbered(i, steps[i])
  {
    seq(|steps|, i requires 0 <= i < |steps| => Numbered(i, steps[i]))
  }

  /** Insertion before the first element with a key at least as large:
      elements with equal keys keep the order in which they arrive. */
  function Insert(x: Numbered, s: seq<Numbered>): seq<Numbered>
  {
    if s == [] then [x]
    else if Key(x) <= Key(s[0]) then [x] + s
    else [s[0]] + Insert(x, s[1..])
  }

  /** A stable sort by key (JavaScript's `Array.prototype.sort` is stable). */
  function SortByKey(s: seq<Numbered>): seq<Numbered>
  {
    if s == [] then [] else Insert(s[0], SortByKey(s[1..]))
  }

  /** The instructions, ordered by step number. */
  function SortSteps(steps: seq<StepRow>): seq<string>
  {
    var sorted := SortByKey(Enumerate(steps));
    seq(|sorted|, i requires 0 <= i < |sorted| => sorted[i].step.instruction)
  }

  /** `a` comes before `b`: a smaller key, or the same key and an earlier
      position. */
  predicate Before(a: Numbered, b: Numbered)
  {
    Key(a) < Key(b) || (Key(a) == Key(b) && a.pos < b.pos)
  }

  /** Ordered by key, and by position among equal keys. */
  predicate StablySorted(s: seq<Numbered>)
  {
    forall i, j :: 0 <= i < j < |s| ==> Before(s[i], s[j])
  }

  lemma {:induction false} InsertPerm(x: Numbered, s: seq<Numbered>)
    ensures multiset(Insert(x, s)) == multiset{x} + multiset(s)
    decreases |s|
  {
    if s != [] && Key(x) > Key(s[0]) {
      InsertPerm(x, s[1..]);
      ConsJoin(s);
    }
  }

  /** The sort only reorders. */
  lemma {:induction false} SortPerm(s: seq<Numbered>)
    ensures multiset(SortByKey(s)) == multiset(s)
    decreases |s|
  {
    if s != [] {
      SortPerm(s[1..]);
      InsertPerm(s[0], SortByKey(s[1..]));
      ConsJoin(s);
    }
  }

  /** Putting `a` in front of a stably sorted list that it comes before keeps
      it stably sorted. */
  lemma SortedCons(a: Numbered, s: seq<Numbered>)
    requires StablySorted(s) && forall y :: y in s ==> Before(a, y)
    ensures StablySorted([a] + s)
  {
    var r := [a] + s;
    forall i, j | 0 <= i < j < |r| ensures Before(r[i], r[j]) {
      if i == 0 {
        assert r[j] == s[j - 1];
        assert s[j - 1] in s;
      } else {
        assert r[i] == s[i - 1] && r[j] == s[j - 1];
      }
    }
  }

  /** Inserting an element that is earlier than everything in a stably
      sorted list keeps it stably sorted. */
  lemma {:induction false} InsertSorted(x: Numbered, s: seq<Numbered>)
    requires StablySorted(s) && forall y :: y in s ==> x.pos < y.pos
    ensures StablySorted(Insert(x, s))
    decreases |s|
  {
    if s == [] {
    } else if Key(x) <= Key(s[0]) {
      forall y | y in s ensures Before(x, y) {
        var j :| 0 <= j < |s| && s[j] == y;
        if j > 0 {
          assert Before(s[0], s[j]);
        }
      }
      SortedCons(x, s);
    } else {
      var rest := s[1..];
      assert StablySorted(rest) by {
        forall i, j | 0 <= i < j < |rest| ensures Before(rest[i], rest[j]) {
          assert rest[i] == s[i + 1] && rest[j] == s[j + 1];
        }
      }
      assert forall y :: y in rest ==> y in s;
      InsertSorted(x, rest);
      InsertPerm(x, rest);
      forall y | y in Insert(x, rest) ensures Before(s[0], y) {
        assert y in multiset(Insert(x, rest));
        if y != x {
          assert y in rest;
          var j :| 0 <= j < |rest| && rest[j] == y;
          assert s[j + 1] == y;
        }
      }
      SortedCons(s[0], Insert(x, rest));
    }
  }

  /** Positions strictly increase along the list. */
  predicate PositionsIncrease(s: seq<Numbered>)
  {
    forall i, j :: 0 <= i < j < |s| ==> s[i].pos < s[j].pos
  }

  /** Sorting a list whose positions increase gives a stably sorted list. */
  lemma {:induction false} SortSorted(s: seq<Numbered>)
    requires PositionsIncrease(s)
    ensures StablySorted(SortByKey(s))
    decreases |s|
  {
    if s != [] {
      var rest := s[1..];
      assert PositionsIncrease(rest) by {
        forall i, j | 0 <= i < j < |rest| ensures rest[i].pos < rest[j].pos {
          assert rest[i] == s[i + 1] && rest[j] == s[j + 1];
        }
      }
      SortSorted(rest);
      SortPerm(rest);
      forall y | y in SortByKey(rest) ensures s[0].pos < y.pos {
        assert y in multiset(SortByKey(rest));
        var j :| 0 <= j < |rest| && rest[j] == y;
        assert s[j + 1] == y;
      }
      InsertSorted(s[0], SortByKey(rest));
    }
  }

  /** The steps of a recipe come out as a permutation of its step rows,
      ordered by `step_number ?? 0`, rows with equal numbers in the order
      the database returned them. */
  lemma SortStepsSpec(steps: seq<StepRow>)
    ensures var sorted := SortByKey(Enumerate(steps));
      && multiset(sorted) == multiset(Enumerate(steps))
      && |sorted| == |steps|
      && StablySorted(sorted)
      && (forall i :: 0 <= i < |sorted| ==> sorted[i].pos < |steps| && sorted[i].step == steps[sorted[i].pos])
      && SortSteps(steps) == seq(|sorted|, i requires 0 <= i < |sorted| => sorted[i].step.instruction)
  {
    var e := Enumerate(steps);
    var sorted := SortByKey(e);
    SortPerm(e);
    SortSorted(e);
    assert |sorted| == |steps| by {
      assert |multiset(sorted)| == |multiset(e)|;
    }
    forall i | 0 <= i < |sorted|
      ensures sorted[i].pos < |steps| && sorted[i].step == steps[sorted[i].pos]
    {
      assert sorted[i] in multiset(e);
      var j :| 0 <= j < |e| && e[j] == sorted[i];
    }
  }

  // ---------------------------------------------------------------------
  // Row mapping
  // ---------------------------------------------------------------------

  /** `mapRecipeSummary`. */
  function MapSummary(row: RecipeRow): (r: Summary)
    ensures r.tags == MapTags(row)
    ensures r.id == row.id && r.title == row.title && r.cookTime == row.cookTime
    ensures r.imageUrl == row.imageUrl && r.difficulty == row.difficulty && r.rating == row.rating
  {
    Summary(row.id, row.title, row.imageUrl, row.cookTime, row.difficulty, row.rating, MapTags(row))
  }

  /** `mapRecipeDetail`: missing joins count as empty lists. */
  function MapDetail(row: RecipeRow): Detail
  {
    Detail(row.id, row.title, row.imageUrl, row.cookTime, row.difficulty, row.rating,
           MapTags(row), FormatIngredients(row.ingredients.GetOr([])),
           SortSteps(row.steps.GetOr([])), row.calories)
  }

  /** A detail has one ingredient line per ingredient row, in order, and
      one step per step row. */
  lemma MapDetailShape(row: RecipeRow)
    ensures var d := MapDetail(row);
      && |d.ingredients| == |row.ingredients.GetOr([])|
      && (forall k :: 0 <= k < |d.ingredients| ==> EndsWith(d.ingredients[k], row.ingredients.GetOr([])[k].name))
      && |d.steps| == |row.steps.GetOr([])|
      && d.tags == MapSummary(row).tags
  {
    var d := MapDetail(row);
    var ing := row.ingredients.GetOr([]);
    forall k | 0 <= k < |ing| ensures EndsWith(d.ingredients[k], ing[k].name) {
      FormatIngredientParts(ing[k]);
    }
    SortStepsSpec(row.steps.GetOr([]));
  }

  // ---------------------------------------------------------------------
  // Search and detail
  // ---------------------------------------------------------------------

  /** The row limit of the database query. */
  const SearchLimit: nat := 120

  /** At most `n` elements from the front: all of them when there are no
      more than `n`, otherwise exactly `n`. */
  function Take<T>(s: seq<T>, n: nat): (r: seq<T>)
    ensures |r| == if |s| <= n then |s| else n
    ensures r == s[..|r|]
  {
    if |s| <= n then s else s[..n]
  }

  /** The title filter of the query; a falsy `q` adds no filter, so every
      row passes. */
  function TitleHit(q: Option<string>, titleMatches: (string, string) -> bool): RecipeRow -> bool
  {
    (r: RecipeRow) => !TruthyString(q) || titleMatches(r.title, q.value)
  }

  /** The database part of the search: the title filter, then the row
      limit. */
  function Query(table: seq<RecipeRow>, q: Option<string>, titleMatches: (string, string) -> bool): seq<RecipeRow>
  {
    Take(Filter(table, TitleHit(q, titleMatches)), SearchLimit)
  }

  /** The recipe has a tag equal to `d` ignoring letter case. */
  predicate HasDiet(r: Summary, d: string)
  {
    exists i :: 0 <= i < |r.tags| && Lower(r.tags[i]) == d
  }

  /** No cooking time, a cooking time of 0, or one within `max`. */
  predicate WithinTime(r: Summary, max: int)
  {
    r.cookTime == None || r.cookTime == Some(0) || r.cookTime.value <= max
  }

  datatype SearchResult = Recipes(found: seq<Summary>) | SearchFailed

  /** `GET /recipes/search`. `maxTime` is `Some(m)` when the parameter is a
      non-empty string whose number is `m`; `failed` is a database error. */
  function Search(table: seq<RecipeRow>, q: Option<string>, diet: Option<string>, maxTime: Option<int>,
                  titleMatches: (string, string) -> bool, failed: bool): (r: SearchResult)
    ensures r.SearchFailed? <==> failed
  {
    if failed then SearchFailed
    else
      var rows := Query(table, q, titleMatches);
      var all := seq(|rows|, i requires 0 <= i < |rows| => MapSummary(rows[i]));
      var byDiet := if TruthyString(diet) then Filter(all, DietHit(diet.value)) else all;
      var byTime := if maxTime.Some? then Filter(byDiet, TimeHit(maxTime.value)) else byDiet;
      Recipes(byTime)
  }

  /** The diet filter for a non-empty `diet`. */
  function DietHit(diet: string): Summary -> bool
  {
    (r: Summary) => HasDiet(r, Lower(diet))
  }

  /** The time filter for a given `maxTime`. */
  function TimeHit(max: int): Summary -> bool
  {
    (r: Summary) => WithinTime(r, max)
  }

  /** Both filters of the search together, each applying only when its
      parameter is given. */
  function Passes(diet: Option<string>, maxTime: Option<int>): Summary -> bool
  {
    (r: Summary) =>
      (TruthyString(diet) ==> HasDiet(r, Lower(diet.value)))
      && (maxTime.Some? ==> WithinTime(r, maxTime.value))
  }

  /** Search returns at most 120 recipes, keeps the order of the database
      rows, and keeps exactly the mapped rows that pass the diet filter
      (when `diet` is non-empty) and the time filter (when `maxTime` is
      given), each as often as its row was fetched. */
  lemma SearchSpec(table: seq<RecipeRow>, q: Option<string>, diet: Option<string>, maxTime: Option<int>,
                   titleMatches: (string, string) -> bool)
    ensures var r := Search(table, q, diet, maxTime, titleMatches, false);
      var rows := Query(table, q, titleMatches);
      var all := seq(|rows|, i requires 0 <= i < |rows| => MapSummary(rows[i]));
      && r.Recipes?
      && |r.found| <= SearchLimit
      && IsSubseq(r.found, all)
      && |r.found| == CountWhere(all, Passes(diet, maxTime))
      && forall x :: x in r.found <==>
           x in all
           && (TruthyString(diet) ==> HasDiet(x, Lower(diet.value)))
           && (maxTime.Some? ==> WithinTime(x, maxTime.value))
  {
    var rows := Query(table, q, titleMatches);
    var all := seq(|rows|, i requires 0 <= i < |rows| => MapSummary(rows[i]));
    var r := Search(table, q, diet, maxTime, titleMatches, false);
    var byDiet := if TruthyString(diet) then Filter(all, DietHit(diet.value)) else all;
    var keep := Passes(diet, maxTime);
    if TruthyString(diet) && maxTime.Some? {
      CountFiltered(all, DietHit(diet.value), TimeHit(maxTime.value), keep);
    } else if TruthyString(diet) {
      CountSame(all, DietHit(diet.value), keep);
    } else if maxTime.Some? {
      CountSame(all, TimeHit(maxTime.value), keep);
    } else {
      FilterAll(all, keep);
    }
    SubseqRefl(all);
    SubseqRefl(byDiet);
    SubseqTrans(r.found, byDiet, all);
    SubseqLength(r.found, all);
  }

  /** The query returns the first 120 rows that pass the title filter, in
      table order: as many as pass, up to 120; only passing rows; and every
      passing row that has fewer than 120 passing rows before it. Without a
      truthy `q` it is the first 120 rows of the table. */
  lemma QuerySpec(table: seq<RecipeRow>, q: Option<string>, titleMatches: (string, string) -> bool)
    ensures var rows := Query(table, q, titleMatches);
      var hit := TitleHit(q, titleMatches);
      var n := CountWhere(table, hit);
      && |rows| == (if n <= SearchLimit then n else SearchLimit)
      && IsSubseq(rows, table)
      && (forall x :: x in rows ==> x in table && (TruthyString(q) ==> titleMatches(x.title, q.value)))
      && (forall i :: 0 <= i < |table| && hit(table[i]) && CountWhere(table[..i], hit) < SearchLimit ==>
            table[i] in rows)
      && (!TruthyString(q) ==> rows == Take(table, SearchLimit))
  {
    var hit := TitleHit(q, titleMatches);
    var matching := Filter(table, hit);
    var rows := Query(table, q, titleMatches);
    PrefixSubseq(matching, |rows|);
    SubseqTrans(rows, matching, table);
    SubseqMembers(rows, matching);
    forall i | 0 <= i < |table| && hit(table[i]) && CountWhere(table[..i], hit) < SearchLimit
      ensures table[i] in rows
    {
      FilterAt(table, hit, i);
      assert rows[CountWhere(table[..i], hit)] == table[i];
    }
    if !TruthyString(q) {
      FilterAll(table, hit);
    }
  }

  /** A row that passes the title filter behind fewer than 120 other
      passing rows, and whose summary passes the diet and time filters, is
      found. */
  lemma SearchFinds(table: seq<RecipeRow>, q: Option<string>, diet: Option<string>, maxTime: Option<int>,
                    titleMatches: (string, string) -> bool, i: nat)
    requires i < |table| && (TruthyString(q) ==> titleMatches(table[i].title, q.value))
    requires CountWhere(table[..i], TitleHit(q, titleMatches)) < SearchLimit
    requires TruthyString(diet) ==> HasDiet(MapSummary(table[i]), Lower(diet.value))
    requires maxTime.Some? ==> WithinTime(MapSummary(table[i]), maxTime.value)
    ensures MapSummary(table[i]) in Search(table, q, diet, maxTime, titleMatches, false).found
  {
    var rows := Query(table, q, titleMatches);
    var all := seq(|rows|, k requires 0 <= k < |rows| => MapSummary(rows[k]));
    QuerySpec(table, q, titleMatches);
    SearchSpec(table, q, diet, maxTime, titleMatches);
    assert table[i] in rows;
    var k :| 0 <= k < |rows| && rows[k] == table[i];
    assert all[k] == MapSummary(table[i]);
  }

  /** Every recipe found is the summary of a table row that passes the
      title filter, the diet filter and the time filter. */
  lemma SearchSound(table: seq<RecipeRow>, q: Option<string>, diet: Option<string>, maxTime: Option<int>,
                    titleMatches: (string, string) -> bool)
    ensures forall x :: x in Search(table, q, diet, maxTime, titleMatches, false).found ==>
      && (exists i :: 0 <= i < |table| && x == MapSummary(table[i])
            && (TruthyString(q) ==> titleMatches(table[i].title, q.value)))
      && (TruthyString(diet) ==> HasDiet(x, Lower(diet.value)))
      && (maxTime.Some? ==> WithinTime(x, maxTime.value))
  {
    var rows := Query(table, q, titleMatches);
    var all := seq(|rows|, k requires 0 <= k < |rows| => MapSummary(rows[k]));
    QuerySpec(table, q, titleMatches);
    SearchSpec(table, q, diet, maxTime, titleMatches);
    forall x | x in Search(table, q, diet, maxTime, titleMatches, false).found
      ensures exists i :: (0 <= i < |table| && x == MapSummary(table[i])
        && (TruthyString(q) ==> titleMatches(table[i].title, q.value)))
    {
      var k :| 0 <= k < |all| && all[k] == x;
      assert rows[k] in rows;
      var i :| 0 <= i < |table| && table[i] == rows[k];
    }
  }

  datatype DetailResult = Found(detail: Detail) | NotFound | DetailFailed

  /** The filter `.eq("id", id)`. */
  function IdIs(id: string): RecipeRow -> bool
  {
    (x: RecipeRow) => x.id == id
  }

  /** The row at `i` holds `id`, and no other row does. */
  predicate OnlyAt(table: seq<RecipeRow>, id: string, i: int)
  {
    0 <= i < |table| && table[i].id == id && forall j :: 0 <= j < |table| && table[j].id == id ==> j == i
  }

  /** Two rows hold `id`. */
  predicate Repeated(table: seq<RecipeRow>, id: string)
  {
    exists i, j :: 0 <= i < j < |table| && table[i].id == id && table[j].id == id
  }

  /** `GET /recipes/:id`: `.maybeSingle()` finds the row when it is the only
      one with that id, gives nothing for none (404) and an error for
      several (500); `failed` is a database error. */
  function GetDetail(table: seq<RecipeRow>, id: string, failed: bool): (r: DetailResult)
    ensures r == NotFound <==> !failed && forall i :: 0 <= i < |table| ==> table[i].id != id
    ensures r.Found? <==> !failed && exists i :: OnlyAt(table, id, i)
    ensures r.Found? ==> forall i :: OnlyAt(table, id, i) ==> r.detail == MapDetail(table[i])
    ensures r == DetailFailed <==> failed || Repeated(table, id)
  {
    var m := Filter(table, IdIs(id));
    MatchCount(table, id);
    if failed then DetailFailed
    else if m == [] then NotFound
    else if |m| > 1 then DetailFailed
    else Found(MapDetail(m[0]))
  }

  /** What `.eq("id", id)` finds: nothing exactly when no row holds the id,
      one row exactly when one row alone holds it, more exactly when two
      rows do. */
  lemma MatchCount(table: seq<RecipeRow>, id: string)
    ensures var m := Filter(table, IdIs(id));
      && (m == [] <==> forall i :: 0 <= i < |table| ==> table[i].id != id)
      && (|m| == 1 <==> exists i :: OnlyAt(table, id, i))
      && (|m| > 1 <==> Repeated(table, id))
      && (|m| == 1 ==> forall i :: OnlyAt(table, id, i) ==> m[0] == table[i])
  {
    MatchNone(table, id);
    MatchOne(table, id);
    MatchMany(table, id);
  }

  lemma MatchNone(table: seq<RecipeRow>, id: string)
    ensures Filter(table, IdIs(id)) == [] <==> forall i :: 0 <= i < |table| ==> table[i].id != id
  {
    CountZero(table, IdIs(id));
    assert forall i :: 0 <= i < |table| ==> (IdIs(id)(table[i]) <==> table[i].id == id);
  }

  lemma MatchOne(table: seq<RecipeRow>, id: string)
    ensures var m := Filter(table, IdIs(id));
      && (|m| == 1 <==> exists i :: OnlyAt(table, id, i))
      && (|m| == 1 ==> forall i :: OnlyAt(table, id, i) ==> m[0] == table[i])
  {
    var m := Filter(table, IdIs(id));
    var p := IdIs(id);
    CountOne(table, p);
    if i :| OnlyAt(table, id, i) {
      assert p(table[i]) && forall j :: 0 <= j < |table| && p(table[j]) ==> j == i;
    }
    if |m| == 1 {
      var i :| 0 <= i < |table| && p(table[i]) && forall j :: 0 <= j < |table| && p(table[j]) ==> j == i;
      assert OnlyAt(table, id, i);
      assert m[0] in table;
    }
  }

  lemma MatchMany(table: seq<RecipeRow>, id: string)
    ensures |Filter(table, IdIs(id))| > 1 <==> Repeated(table, id)
  {
    CountTwo(table, IdIs(id));
    assert forall i :: 0 <= i < |table| ==> (IdIs(id)(table[i]) <==> table[i].id == id);
  }
}

=== FILE: shopping_list.dfy ===
/** The shopping-list endpoints (node-api/src/shoppingList.js) as transitions
    over the `shopping_list` table. The table is a sequence of rows; the
    database's identifier generator is a counter kept next to it. Every
    query is evaluated atomically on the current table. */
module ShoppingList {
  import opened Base
  import Text
  import CleanIngredient

  /** One row of `shopping_list`. */
  datatype Row = Row(id: nat, userId: string, ingredient: string, clean: string, qty: int)

  /** A row collected for insertion; the database gives it its id. */
  datatype NewRow = NewRow(userId: string, ingredient: string, clean: string, qty: int)

  /** The table and the next identifier the database hands out. */
  datatype Store = Store(rows: seq<Row>, nextId: nat)

  /** No identifier is used twice. */
  predicate DistinctIds(t: seq<Row>)
  {
    forall i, j :: 0 <= i < j < |t| ==> t[i].id != t[j].id
  }

  /** Identifiers are distinct and below the counter, and every quantity is
      at least 1. */
  predicate WellFormed(s: Store)
  {
    && DistinctIds(s.rows)
    && (forall i :: 0 <= i < |s.rows| ==> s.rows[i].id < s.nextId)
    && (forall i :: 0 <= i < |s.rows| ==> s.rows[i].qty >= 1)
  }

  /** The filter `.eq("user_id", user).eq("ingredient_clean", key)`. */
  predicate IsMatch(r: Row, user: string, key: string)
  {
    r.userId == user && r.clean == key
  }

  function Matching(t: seq<Row>, user: string, key: string): seq<Row>
  {
    Filter(t, (r: Row) => IsMatch(r, user, key))
  }

  /** `.maybeSingle()` with its error ignored: a row only when exactly one
      row matches; none for zero rows and for the multiple-rows error. */
  function MaybeSingle(m: seq<Row>): (r: Option<Row>)
    ensures r.Some? <==> |m| == 1
    ensures r.Some? ==> r.value == m[0]
  {
    if |m| == 1 then Some(m[0]) else None
  }

  /** The user already has exactly one row under `key`. */
  predicate Found(t: seq<Row>, user: string, key: string)
  {
    |Matching(t, user, key)| == 1
  }

  /** `.update({ total_qty: q }).eq("id", id)`. */
  function SetQty(t: seq<Row>, id: nat, q: int): (r: seq<Row>)
    ensures |r| == |t|
    ensures forall i :: 0 <= i < |t| ==> r[i] == if t[i].id == id then t[i].(qty := q) else t[i]
  {
    seq(|t|, i requires 0 <= i < |t| => if t[i].id == id then t[i].(qty := q) else t[i])
  }

  /** The loop of the bulk POST: each item either adds 1 to the user's only
      row under its key, at once, or joins the rows to insert after the
      loop. Rows waiting for insertion are not seen by later lookups. */
  function Merge(t: seq<Row>, pending: seq<NewRow>, user: string, items: seq<string>, keyOf: string -> string): (seq<Row>, seq<NewRow>)
    decreases |items|
  {
    if items == [] then (t, pending)
    else
      var key := keyOf(items[0]);
      match MaybeSingle(Matching(t, user, key))
      case Some(r) => Merge(SetQty(t, r.id, r.qty + 1), pending, user, items[1..], keyOf)
      case None => Merge(t, pending + [NewRow(user, items[0], key, 1)], user, items[1..], keyOf)
  }

  /** The bulk insert: the database numbers the new rows from `next` on. */
  function InsertRows(t: seq<Row>, pending: seq<NewRow>, next: nat): (r: seq<Row>)
    ensures |r| == |t| + |pending|
    ensures r[..|t|] == t
    ensures forall i :: 0 <= i < |t| ==> r[i] == t[i]
    ensures forall i :: |t| <= i < |r| ==>
      var k := i - |t|;
      r[i] == Row(next + k, pending[k].userId, pending[k].ingredient, pending[k].clean, pending[k].qty)
  {
    t + seq(|pending|, k requires 0 <= k < |pending| =>
      Row(next + k, pending[k].userId, pending[k].ingredient, pending[k].clean, pending[k].qty))
  }

  /** Outcome of the bulk POST. */
  datatype PostResult = MissingUser | MissingItems | Added(count: nat)

  /** Truthiness of `user_id`: absent or the empty string is falsy. */
  predicate Truthy(user: Option<string>)
  {
    user.Some? && user.value != ""
  }

  /** `POST /shopping-list`. `items` is `None` when the body has no array
      under that name. */
  function PostBulk(s: Store, user: Option<string>, items: Option<seq<string>>, keyOf: string -> string): (r: (PostResult, Store))
    ensures r.0 == MissingUser <==> !Truthy(user)
    ensures r.0 == MissingItems <==> Truthy(user) && (items == None || items.value == [])
    ensures !r.0.Added? ==> r.1 == s
  {
    if !Truthy(user) then (MissingUser, s)
    else if items == None || items.value == [] then (MissingItems, s)
    else
      var merged := Merge(s.rows, [], user.value, items.value, keyOf);
      var pending := merged.1;
      (Added(|pending|), Store(InsertRows(merged.0, pending, s.nextId), s.nextId + |pending|))
  }

  /** The filter `.eq("user_id", user)`. */
  function OfUser(user: string): Row -> bool
  {
    (x: Row) => x.userId == user
  }

  /** Outcome of `GET /shopping-list`: the rows, or the 500 answer. */
  datatype GetResult = Rows(rows: seq<Row>) | LoadFailed

  /** `GET /shopping-list`: the rows of one user, in table order; `failed`
      is a database error. */
  function Get(s: Store, user: string, failed: bool): (r: GetResult)
    ensures r.LoadFailed? <==> failed
    ensures r.Rows? ==> forall x :: x in r.rows <==> x in s.rows && x.userId == user
    ensures r.Rows? ==> IsSubseq(r.rows, s.rows) && |r.rows| == CountWhere(s.rows, OfUser(user))
  {
    if failed then LoadFailed else Rows(Filter(s.rows, OfUser(user)))
  }

  /** Outcome of `PATCH /shopping-list/:id`. */
  datatype PatchResult = Updated(qty: int) | NotFound | Failed

  /** The rows with identifier `id` (`.eq("id", id)`), in table order. */
  function WithId(t: seq<Row>, id: nat): (m: seq<Row>)
    ensures forall x :: x in m <==> x in t && x.id == id
  {
    if t == [] then []
    else (if t[0].id == id then [t[0]] else []) + WithId(t[1..], id)
  }

  /** `PATCH /shopping-list/:id`: the only row with that id gets
      `max(1, total_qty + delta)`; no row gives 404, several rows are the
      lookup's error and give 500, and so do `lookupFailed`, a database
      error of the lookup, and `updateFailed`, one of the update. */
  function Patch(s: Store, id: nat, delta: int, lookupFailed: bool, updateFailed: bool): (r: (PatchResult, Store))
    ensures lookupFailed ==> r.0 == Failed
    ensures r.0 == NotFound <==> !lookupFailed && forall i :: 0 <= i < |s.rows| ==> s.rows[i].id != id
    ensures !r.0.Updated? ==> r.1 == s
    ensures r.0.Updated? ==> r.0.qty >= 1 && !updateFailed
  {
    var m := WithId(s.rows, id);
    if lookupFailed then (Failed, s)
    else match MaybeSingle(m)
    case Some(row) =>
      var q := if row.qty + delta > 1 then row.qty + delta else 1;
      if updateFailed then (Failed, s)
      else (Updated(q), Store(SetQty(s.rows, id, q), s.nextId))
    case None =>
      if m == [] then
        assert forall i :: 0 <= i < |s.rows| ==> s.rows[i].id != id by {
          forall i | 0 <= i < |s.rows| ensures s.rows[i].id != id {
            assert s.rows[i] in s.rows;
          }
        }
        (NotFound, s)
      else
        assert m[0] in s.rows;
        (Failed, s)
  }

  /** The filter callback of DELETE: keep rows with another id. */
  function NotId(id: nat): Row -> bool
  {
    (x: Row) => x.id != id
  }

  /** Outcome of `DELETE /shopping-list/:id`. */
  datatype DeleteResult = Removed | DeleteFailed

  /** `DELETE /shopping-list/:id`: whoever owns it, every row with that id
      goes; the answer is "Removed" whether or not a row existed. `failed`
      is a database error, which leaves the table alone. */
  function Delete(s: Store, id: nat, failed: bool): (r: (DeleteResult, Store))
    ensures r.0 == DeleteFailed <==> failed
    ensures failed ==> r.1 == s
    ensures !failed ==> forall x :: x in r.1.rows <==> x in s.rows && x.id != id
    ensures !failed ==> IsSubseq(r.1.rows, s.rows) && |r.1.rows| == CountWhere(s.rows, NotId(id))
    ensures r.1.nextId == s.nextId
  {
    if failed then (DeleteFailed, s)
    else (Removed, Store(Filter(s.rows, NotId(id)), s.nextId))
  }

  // ---------------------------------------------------------------------
  // The bulk POST in terms of the table it started from.
  // ---------------------------------------------------------------------

  /** Only quantities differ. */
  predicate SameButQty(a: seq<Row>, b: seq<Row>)
  {
    |a| == |b| &&
    forall i :: 0 <= i < |a| ==>
      a[i].id == b[i].id && a[i].userId == b[i].userId &&
      a[i].ingredient == b[i].ingredient && a[i].clean == b[i].clean
  }

  /** The rows the POST inserts, decided against the starting table: one per
      item whose key does not find exactly one row of the user, duplicates
      within the batch included. */
  function NewRowsFor(t: seq<Row>, user: string, items: seq<string>, keyOf: string -> string): seq<NewRow>
  {
    if items == [] then []
    else
      (if Found(t, user, keyOf(items[0])) then [] else [NewRow(user, items[0], keyOf(items[0]), 1)])
      + NewRowsFor(t, user, items[1..], keyOf)
  }

  /** How many items clean to `key`. */
  function CountKey(items: seq<string>, key: string, keyOf: string -> string): nat
  {
    if items == [] then 0
    else (if keyOf(items[0]) == key then 1 else 0) + CountKey(items[1..], key, keyOf)
  }

  /** What the POST adds to row `r` of its own starting table: one per item
      with the row's key, when it is the user's only row under that key. */
  function Increment(t: seq<Row>, r: Row, user: string, items: seq<string>, keyOf: string -> string): nat
  {
    if r.userId == user && Found(t, user, r.clean) then CountKey(items, r.clean, keyOf) else 0
  }

  /** Tables that differ only in quantities match the same number of rows. */
  lemma {:induction false} MatchingSame(a: seq<Row>, b: seq<Row>, user: string, key: string)
    requires SameButQty(a, b)
    ensures |Matching(a, user, key)| == |Matching(b, user, key)|
    decreases |a|
  {
    if a != [] {
      MatchingSame(a[1..], b[1..], user, key);
      assert a[0].userId == b[0].userId && a[0].clean == b[0].clean;
    }
  }

  /** The one matching row is the row at `j`, and no other row matches. */
  lemma FoundAt(t: seq<Row>, user: string, key: string) returns (j: nat)
    requires DistinctIds(t) && Found(t, user, key)
    ensures j < |t| && t[j] == Matching(t, user, key)[0]
    ensures forall i :: 0 <= i < |t| ==> (IsMatch(t[i], user, key) <==> i == j)
  {
    var m := Matching(t, user, key);
    assert m[0] in m;
    j :| 0 <= j < |t| && t[j] == m[0];
    forall i | 0 <= i < |t|
      ensures IsMatch(t[i], user, key) <==> i == j
    {
      if IsMatch(t[i], user, key) {
        assert t[i] in m;
        assert m == [m[0]];
      }
      if i != j {
        assert t[i].id != t[j].id by {
          if i < j { } else { }
        }
      }
    }
  }

  /** One item that finds its row adds 1 to that row and to no other. */
  lemma BumpOne(t: seq<Row>, user: string, key: string, r: Row)
    requires DistinctIds(t) && MaybeSingle(Matching(t, user, key)) == Some(r)
    ensures var t1 := SetQty(t, r.id, r.qty + 1);
      forall i :: 0 <= i < |t| ==> t1[i].qty == t[i].qty + (if IsMatch(t[i], user, key) then 1 else 0)
  {
    var j := FoundAt(t, user, key);
    var t1 := SetQty(t, r.id, r.qty + 1);
    forall i | 0 <= i < |t|
      ensures t1[i].qty == t[i].qty + (if IsMatch(t[i], user, key) then 1 else 0)
    {
      if i != j {
        assert t[i].id != t[j].id by {
          if i < j { } else { }
        }
      }
    }
  }

  /** Changing quantities keeps identifiers, owners, texts and keys. */
  lemma SetQtySame(t: seq<Row>, id: nat, q: int)
    ensures SameButQty(t, SetQty(t, id, q))
    ensures DistinctIds(t) ==> DistinctIds(SetQty(t, id, q))
  {
  }

  /** One turn of the loop, for an item that finds its row and for one
      that does not. */
  lemma MergeFoundStep(t: seq<Row>, pending: seq<NewRow>, user: string, items: seq<string>, keyOf: string -> string, r: Row)
    requires items != [] && MaybeSingle(Matching(t, user, keyOf(items[0]))) == Some(r)
    ensures Merge(t, pending, user, items, keyOf) == Merge(SetQty(t, r.id, r.qty + 1), pending, user, items[1..], keyOf)
  {
  }

  lemma MergeNewStep(t: seq<Row>, pending: seq<NewRow>, user: string, items: seq<string>, keyOf: string -> string)
    requires items != [] && MaybeSingle(Matching(t, user, keyOf(items[0]))) == None
    ensures Merge(t, pending, user, items, keyOf)
      == Merge(t, pending + [NewRow(user, items[0], keyOf(items[0]), 1)], user, items[1..], keyOf)
  {
  }

  lemma SameButQtyTrans(a: seq<Row>, b: seq<Row>, c: seq<Row>)
    requires SameButQty(a, b) && SameButQty(b, c)
    ensures SameButQty(a, c)
  {
  }

  /** The loop only changes quantities. */
  lemma {:induction false} MergeShape(t: seq<Row>, pending: seq<NewRow>, user: string, items: seq<string>, keyOf: string -> string)
    ensures SameButQty(t, Merge(t, pending, user, items, keyOf).0)
    decreases |items|
  {
    if items == [] {
      assert Merge(t, pending, user, items, keyOf).0 == t;
    } else {
      var key := keyOf(items[0]);
      match MaybeSingle(Matching(t, user, key))
      case Some(r) =>
        var t1 := SetQty(t, r.id, r.qty + 1);
        SetQtySame(t, r.id, r.qty + 1);
        MergeShape(t1, pending, user, items[1..], keyOf);
        MergeFoundStep(t, pending, user, items, keyOf, r);
        SameButQtyTrans(t, t1, Merge(t1, pending, user, items[1..], keyOf).0);
      case None =>
        MergeShape(t, pending + [NewRow(user, items[0], key, 1)], user, items[1..], keyOf);
        MergeNewStep(t, pending, user, items, keyOf);
    }
  }

  /** The loop leaves for insertion exactly the rows `NewRowsFor` decides
      against the starting table. */
  lemma {:induction false} MergePending(t: seq<Row>, pending: seq<NewRow>, user: string, items: seq<string>, keyOf: string -> string)
    ensures Merge(t, pending, user, items, keyOf).1 == pending + NewRowsFor(t, user, items, keyOf)
    decreases |items|
  {
    if items != [] {
      var key := keyOf(items[0]);
      var rest := items[1..];
      match MaybeSingle(Matching(t, user, key))
      case Some(r) =>
        var t1 := SetQty(t, r.id, r.qty + 1);
        MergeFoundStep(t, pending, user, items, keyOf, r);
        MergePending(t1, pending, user, rest, keyOf);
        assert NewRowsFor(t1, user, rest, keyOf) == NewRowsFor(t, user, items, keyOf) by {
          SetQtySame(t, r.id, r.qty + 1);
          NewRowsSame(t, t1, user, rest, keyOf);
          NewRowsStep(t, user, items, keyOf);
        }
      case None =>
        var n := NewRow(user, items[0], key, 1);
        MergeNewStep(t, pending, user, items, keyOf);
        MergePending(t, pending + [n], user, rest, keyOf);
        SeqAssoc(pending, [n], NewRowsFor(t, user, rest, keyOf));
        NewRowsStep(t, user, items, keyOf);
    }
  }

  lemma NewRowsStep(t: seq<Row>, user: string, items: seq<string>, keyOf: string -> string)
    requires items != []
    ensures NewRowsFor(t, user, items, keyOf)
      == (if Found(t, user, keyOf(items[0])) then [] else [NewRow(user, items[0], keyOf(items[0]), 1)])
         + NewRowsFor(t, user, items[1..], keyOf)
  {
  }

  /** The rows to insert depend only on which keys are found. */
  lemma {:induction false} NewRowsSame(a: seq<Row>, b: seq<Row>, user: string, items: seq<string>, keyOf: string -> string)
    requires SameButQty(a, b)
    ensures NewRowsFor(a, user, items, keyOf) == NewRowsFor(b, user, items, keyOf)
    decreases |items|
  {
    if items != [] {
      MatchingSame(a, b, user, keyOf(items[0]));
      NewRowsSame(a, b, user, items[1..], keyOf);
    }
  }

  /** What the loop adds to a row, item by item. */
  lemma IncrementStep(t: seq<Row>, r: Row, user: string, items: seq<string>, keyOf: string -> string)
    requires items != []
    ensures Increment(t, r, user, items, keyOf)
      == (if r.userId == user && Found(t, user, r.clean) && keyOf(items[0]) == r.clean then 1 else 0)
         + Increment(t, r, user, items[1..], keyOf)
  {
  }

  /** Increments agree on tables that differ only in quantities. */
  lemma IncrementSame(a: seq<Row>, b: seq<Row>, i: nat, user: string, items: seq<string>, keyOf: string -> string)
    requires SameButQty(a, b) && i < |a|
    ensures Increment(a, a[i], user, items, keyOf) == Increment(b, b[i], user, items, keyOf)
  {
    MatchingSame(a, b, user, a[i].clean);
  }

  /** The quantities after the loop, against the starting table. */
  lemma {:induction false} MergeQty(t: seq<Row>, pending: seq<NewRow>, user: string, items: seq<string>, keyOf: string -> string)
    requires DistinctIds(t)
    ensures var t' := Merge(t, pending, user, items, keyOf).0;
      |t'| == |t| &&
      forall i :: 0 <= i < |t| ==> t'[i].qty == t[i].qty + Increment(t, t[i], user, items, keyOf)
    decreases |items|
  {
    MergeShape(t, pending, user, items, keyOf);
    if items != [] {
      var key := keyOf(items[0]);
      var rest := items[1..];
      match MaybeSingle(Matching(t, user, key))
      case Some(r) =>
        var t1 := SetQty(t, r.id, r.qty + 1);
        SetQtySame(t, r.id, r.qty + 1);
        BumpOne(t, user, key, r);
        MergeFoundStep(t, pending, user, items, keyOf, r);
        MergeQty(t1, pending, user, rest, keyOf);
        forall i | 0 <= i < |t|
          ensures Increment(t1, t1[i], user, rest, keyOf) + (if IsMatch(t[i], user, key) then 1 else 0)
                  == Increment(t, t[i], user, items, keyOf)
        {
          IncrementSame(t, t1, i, user, rest, keyOf);
          IncrementStep(t, t[i], user, items, keyOf);
        }
      case None =>
        var n := NewRow(user, items[0], key, 1);
        MergeNewStep(t, pending, user, items, keyOf);
        MergeQty(t, pending + [n], user, rest, keyOf);
        forall i | 0 <= i < |t|
          ensures Increment(t, t[i], user, rest, keyOf) == Increment(t, t[i], user, items, keyOf)
        {
          IncrementStep(t, t[i], user, items, keyOf);
        }
    }
  }

  /** Every row to insert belongs to the user, has quantity 1, and is keyed
      by `keyOf` of its own text. */
  lemma {:induction false} NewRowsShape(t: seq<Row>, user: string, items: seq<string>, keyOf: string -> string)
    ensures forall k :: 0 <= k < |NewRowsFor(t, user, items, keyOf)| ==>
      var n := NewRowsFor(t, user, items, keyOf)[k];
      n.userId == user && n.qty == 1 && n.clean == keyOf(n.ingredient)
    decreases |items|
  {
    if items != [] {
      NewRowsShape(t, user, items[1..], keyOf);
    }
  }

  /** The bulk POST, in terms of the table it started from: it answers
      with the number of items that found no single row of the user under
      their key, appends that many rows numbered from the counter on, and
      leaves identifiers, owners and texts of the existing rows alone. */
  lemma PostEffect(s: Store, user: string, items: seq<string>, keyOf: string -> string)
    requires WellFormed(s) && user != "" && items != []
    ensures var (res, s') := PostBulk(s, Some(user), Some(items), keyOf);
      var inserted := NewRowsFor(s.rows, user, items, keyOf);
      && res == Added(|inserted|)
      && |s'.rows| == |s.rows| + |inserted|
      && SameButQty(s.rows, s'.rows[..|s.rows|])
      && s'.nextId == s.nextId + |inserted|
  {
    var merged := Merge(s.rows, [], user, items, keyOf);
    var inserted := NewRowsFor(s.rows, user, items, keyOf);
    PostBulkIs(s, user, items, keyOf);
    MergeFacts(s.rows, user, items, keyOf);
    InsertedShape(s.rows, merged.0, inserted, s.nextId, user, items, keyOf);
  }

  /** Rows of other users keep their quantity; each row of the user goes up
      by one per item with its key when it is the only row under that
      key. */
  lemma PostQuantities(s: Store, user: string, items: seq<string>, keyOf: string -> string)
    requires WellFormed(s) && user != "" && items != []
    ensures var s' := PostBulk(s, Some(user), Some(items), keyOf).1;
      |s.rows| <= |s'.rows| &&
      forall i :: 0 <= i < |s.rows| ==>
        s'.rows[i].qty == s.rows[i].qty + Increment(s.rows, s.rows[i], user, items, keyOf)
  {
    var merged := Merge(s.rows, [], user, items, keyOf);
    var inserted := NewRowsFor(s.rows, user, items, keyOf);
    PostBulkIs(s, user, items, keyOf);
    MergeFacts(s.rows, user, items, keyOf);
    InsertedShape(s.rows, merged.0, inserted, s.nextId, user, items, keyOf);
  }

  /** The appended rows: one per item that found no single row, in item
      order, owned by the user, with the raw text, its key and quantity 1,
      numbered from the counter on. */
  lemma PostNewRows(s: Store, user: string, items: seq<string>, keyOf: string -> string)
    requires WellFormed(s) && user != "" && items != []
    ensures var s' := PostBulk(s, Some(user), Some(items), keyOf).1;
      var inserted := NewRowsFor(s.rows, user, items, keyOf);
      |s'.rows| == |s.rows| + |inserted| &&
      forall i :: |s.rows| <= i < |s'.rows| ==>
        s'.rows[i] == Row(s.nextId + (i - |s.rows|), user, inserted[i - |s.rows|].ingredient,
                          keyOf(inserted[i - |s.rows|].ingredient), 1)
  {
    var merged := Merge(s.rows, [], user, items, keyOf);
    var inserted := NewRowsFor(s.rows, user, items, keyOf);
    PostBulkIs(s, user, items, keyOf);
    MergeFacts(s.rows, user, items, keyOf);
    InsertedRows(merged.0, inserted, s.nextId, user, keyOf);
    var rows := InsertRows(merged.0, inserted, s.nextId);
    var post := PostBulk(s, Some(user), Some(items), keyOf).1;
    assert post.rows == rows;
    assert |merged.0| == |s.rows|;
    forall i | |s.rows| <= i < |post.rows|
      ensures post.rows[i] == Row(s.nextId + (i - |s.rows|), user, inserted[i - |s.rows|].ingredient,
                                  keyOf(inserted[i - |s.rows|].ingredient), 1)
    {
      assert post.rows[i] == rows[i];
    }
  }

  /** The rows the bulk insert appends, from the facts about the rows to
      insert. */
  lemma InsertedRows(m: seq<Row>, inserted: seq<NewRow>, next: nat, user: string, keyOf: string -> string)
    requires forall k :: 0 <= k < |inserted| ==>
      inserted[k].userId == user && inserted[k].qty == 1 && inserted[k].clean == keyOf(inserted[k].ingredient)
    ensures var rows := InsertRows(m, inserted, next);
      forall i :: |m| <= i < |rows| ==>
        rows[i] == Row(next + (i - |m|), user, inserted[i - |m|].ingredient, keyOf(inserted[i - |m|].ingredient), 1)
  {
  }

  /** The accepted POST is the merge loop followed by the bulk insert. */
  lemma PostBulkIs(s: Store, user: string, items: seq<string>, keyOf: string -> string)
    requires WellFormed(s) && user != "" && items != []
    ensures var merged := Merge(s.rows, [], user, items, keyOf);
      var inserted := NewRowsFor(s.rows, user, items, keyOf);
      PostBulk(s, Some(user), Some(items), keyOf)
        == (Added(|inserted|), Store(InsertRows(merged.0, inserted, s.nextId), s.nextId + |inserted|))
  {
    MergePending(s.rows, [], user, items, keyOf);
    assert [] + NewRowsFor(s.rows, user, items, keyOf) == NewRowsFor(s.rows, user, items, keyOf);
  }

  /** The table after the bulk insert, from the facts about the loop. */
  lemma InsertedShape(t: seq<Row>, m: seq<Row>, inserted: seq<NewRow>, next: nat,
                      user: string, items: seq<string>, keyOf: string -> string)
    requires SameButQty(t, m)
    requires forall i :: 0 <= i < |t| ==> m[i].qty == t[i].qty + Increment(t, t[i], user, items, keyOf)
    requires forall k :: 0 <= k < |inserted| ==> inserted[k].userId == user && inserted[k].qty == 1
    ensures var rows := InsertRows(m, inserted, next);
      && |rows| == |t| + |inserted|
      && SameButQty(t, rows[..|t|])
      && (forall i :: 0 <= i < |t| ==> rows[i].qty == t[i].qty + Increment(t, t[i], user, items, keyOf))
      && (forall i :: |t| <= i < |rows| ==>
            var k := i - |t|;
            rows[i] == Row(next + k, user, inserted[k].ingredient, inserted[k].clean, 1))
  {
    var rows := InsertRows(m, inserted, next);
    assert rows[..|t|] == m;
  }

  /** The loop of the POST against its starting table, in one statement. */
  lemma MergeFacts(t: seq<Row>, user: string, items: seq<string>, keyOf: string -> string)
    requires DistinctIds(t)
    ensures var merged := Merge(t, [], user, items, keyOf);
      var inserted := NewRowsFor(t, user, items, keyOf);
      && merged.1 == inserted
      && SameButQty(t, merged.0)
      && (forall i :: 0 <= i < |t| ==> merged.0[i].qty == t[i].qty + Increment(t, t[i], user, items, keyOf))
      && (forall k :: 0 <= k < |inserted| ==>
            inserted[k].userId == user && inserted[k].qty == 1 && inserted[k].clean == keyOf(inserted[k].ingredient))
  {
    MergePending(t, [], user, items, keyOf);
    assert [] + NewRowsFor(t, user, items, keyOf) == NewRowsFor(t, user, items, keyOf);
    MergeShape(t, [], user, items, keyOf);
    MergeQty(t, [], user, items, keyOf);
    NewRowsShape(t, user, items, keyOf);
  }

  /** Rows of other users are untouched by the POST. */
  lemma PostOthersUnchanged(s: Store, user: string, items: seq<string>, keyOf: string -> string, i: nat)
    requires WellFormed(s) && user != "" && items != []
    requires i < |s.rows| && s.rows[i].userId != user
    ensures var rows := PostBulk(s, Some(user), Some(items), keyOf).1.rows;
      i < |rows| && rows[i] == s.rows[i]
  {
    PostEffect(s, user, items, keyOf);
    PostQuantities(s, user, items, keyOf);
    var rows := PostBulk(s, Some(user), Some(items), keyOf).1.rows;
    assert rows[..|s.rows|][i] == rows[i];
  }

  /** Two items of one batch with the same key that finds no row both make a
      row: the lookups do not see rows waiting for insertion. */
  lemma DuplicateNewItems(t: seq<Row>, user: string, a: string, b: string, keyOf: string -> string)
    requires keyOf(a) == keyOf(b) && !Found(t, user, keyOf(a))
    ensures NewRowsFor(t, user, [a, b], keyOf) == [NewRow(user, a, keyOf(a), 1), NewRow(user, b, keyOf(b), 1)]
  {
    assert [a, b][1..] == [b];
    assert [b][1..] == [];
    assert NewRowsFor(t, user, [b], keyOf) == [NewRow(user, b, keyOf(b), 1)];
  }

  /** An item that finds its row adds exactly 1 to it, at once: `k` items
      with that key add `k`, and the text of the row is kept. */
  lemma RepeatsAddCount(t: seq<Row>, user: string, items: seq<string>, keyOf: string -> string, i: nat)
    requires DistinctIds(t) && i < |t| && t[i].userId == user && Found(t, user, t[i].clean)
    ensures var t' := Merge(t, [], user, items, keyOf).0;
      i < |t'| && t'[i].qty == t[i].qty + CountKey(items, t[i].clean, keyOf) && t'[i].ingredient == t[i].ingredient
  {
    MergeQty(t, [], user, items, keyOf);
    MergeShape(t, [], user, items, keyOf);
  }

  /** Appending rows numbered from the counter on keeps a table well
      formed when the old rows keep their identifiers and quantities stay
      at least 1. */
  lemma AppendWellFormed(s: Store, rows: seq<Row>, count: nat)
    requires WellFormed(s) && |rows| == |s.rows| + count
    requires forall i :: 0 <= i < |s.rows| ==> rows[i].id == s.rows[i].id
    requires forall i :: |s.rows| <= i < |rows| ==> rows[i].id == s.nextId + (i - |s.rows|)
    requires forall i :: 0 <= i < |rows| ==> rows[i].qty >= 1
    ensures WellFormed(Store(rows, s.nextId + count))
  {
  }

  /** The bulk POST keeps the table well formed. */
  lemma PostWellFormed(s: Store, user: Option<string>, items: Option<seq<string>>, keyOf: string -> string)
    requires WellFormed(s)
    ensures WellFormed(PostBulk(s, user, items, keyOf).1)
  {
    if Truthy(user) && items.Some? && items.value != [] {
      var merged := Merge(s.rows, [], user.value, items.value, keyOf);
      var inserted := NewRowsFor(s.rows, user.value, items.value, keyOf);
      PostBulkIs(s, user.value, items.value, keyOf);
      MergeFacts(s.rows, user.value, items.value, keyOf);
      var rows := InsertRows(merged.0, inserted, s.nextId);
      assert PostBulk(s, user, items, keyOf).1 == Store(rows, s.nextId + |inserted|);
      AppendWellFormed(s, rows, |inserted|);
    }
  }

  /** On distinct identifiers the rows with identifier `id` are the one row
      at `j`. */
  lemma {:induction false} WithIdSingle(t: seq<Row>, id: nat, j: nat)
    requires DistinctIds(t) && j < |t| && t[j].id == id
    ensures WithId(t, id) == [t[j]]
    decreases |t|
  {
    if j == 0 {
      WithIdNone(t[1..], id);
    } else {
      WithIdSingle(t[1..], id, j - 1);
      assert t[0].id != t[j].id;
    }
  }

  lemma {:induction false} WithIdNone(t: seq<Row>, id: nat)
    requires forall i :: 0 <= i < |t| ==> t[i].id != id
    ensures WithId(t, id) == []
    decreases |t|
  {
    if t != [] {
      WithIdNone(t[1..], id);
    }
  }

  /** PATCH keeps the table well formed, and on a well-formed table the
      lookup never finds several rows: the answer is 500 exactly when the
      lookup fails, or a row has the id and its update fails; otherwise either 404, or the one row with the
      id, and only that row, gets `max(1, total_qty + delta)`. */
  lemma PatchEffect(s: Store, id: nat, delta: int, lookupFailed: bool, updateFailed: bool)
    requires WellFormed(s)
    ensures var (res, s') := Patch(s, id, delta, lookupFailed, updateFailed);
      && WellFormed(s')
      && (res == Failed <==>
            lookupFailed || (updateFailed && exists j :: 0 <= j < |s.rows| && s.rows[j].id == id))
      && (res.Updated? ==>
            exists j :: (0 <= j < |s.rows| && s.rows[j].id == id &&
              res.qty == (if s.rows[j].qty + delta > 1 then s.rows[j].qty + delta else 1) &&
              s'.rows == s.rows[j := s.rows[j].(qty := res.qty)]))
  {
    if j :| 0 <= j < |s.rows| && s.rows[j].id == id {
      var q := if s.rows[j].qty + delta > 1 then s.rows[j].qty + delta else 1;
      PatchAt(s, id, delta, lookupFailed, updateFailed, j);
      UpdateWellFormed(s, j, q);
    }
  }

  /** PATCH of the row at `j`. */
  lemma PatchAt(s: Store, id: nat, delta: int, lookupFailed: bool, updateFailed: bool, j: nat)
    requires WellFormed(s) && j < |s.rows| && s.rows[j].id == id
    ensures var q := if s.rows[j].qty + delta > 1 then s.rows[j].qty + delta else 1;
      Patch(s, id, delta, lookupFailed, updateFailed) ==
        if lookupFailed || updateFailed then (Failed, s) else (Updated(q), Store(s.rows[j := s.rows[j].(qty := q)], s.nextId))
  {
    WithIdSingle(s.rows, id, j);
    var q := if s.rows[j].qty + delta > 1 then s.rows[j].qty + delta else 1;
    SetQtyAt(s.rows, j, q);
  }

  /** On distinct identifiers `SetQty` changes the one row with the id. */
  lemma SetQtyAt(t: seq<Row>, j: nat, q: int)
    requires DistinctIds(t) && j < |t|
    ensures SetQty(t, t[j].id, q) == t[j := t[j].(qty := q)]
  {
    forall i | 0 <= i < |t| && i != j ensures t[i].id != t[j].id {
      if i < j { } else { }
    }
  }

  /** A new positive quantity for one row keeps the table well formed. */
  lemma UpdateWellFormed(s: Store, j: nat, q: int)
    requires WellFormed(s) && j < |s.rows| && q >= 1
    ensures WellFormed(Store(s.rows[j := s.rows[j].(qty := q)], s.nextId))
  {
  }

  /** DELETE keeps the table well formed. */
  lemma DeleteWellFormed(s: Store, id: nat, failed: bool)
    requires WellFormed(s)
    ensures WellFormed(Delete(s, id, failed).1)
  {
    var r := Delete(s, id, failed).1.rows;
    DeleteKeepsOrder(s.rows, id);
    forall i | 0 <= i < |r| ensures r[i].id < s.nextId && r[i].qty >= 1 {
      assert r[i] in s.rows;
    }
  }

  /** Deleting keeps the remaining rows in order, so distinct identifiers
      stay distinct. */
  lemma {:induction false} DeleteKeepsOrder(t: seq<Row>, id: nat)
    requires DistinctIds(t)
    ensures DistinctIds(Filter(t, NotId(id)))
    decreases |t|
  {
    if t != [] {
      assert DistinctIds(t[1..]) by {
        forall i, j | 0 <= i < j < |t| - 1 ensures t[1..][i].id != t[1..][j].id {
          assert t[1..][i] == t[i + 1] && t[1..][j] == t[j + 1];
        }
      }
      DeleteKeepsOrder(t[1..], id);
      var r1 := Filter(t[1..], NotId(id));
      if t[0].id != id {
        forall y | y in r1 ensures y.id != t[0].id {
          var k :| 0 <= k < |t| - 1 && t[1..][k] == y;
          assert y == t[k + 1];
        }
        ConsDistinct(t[0], r1);
      }
    }
  }

  /** A row whose id no other row has can go in front. */
  lemma ConsDistinct(x: Row, r: seq<Row>)
    requires DistinctIds(r) && forall y :: y in r ==> y.id != x.id
    ensures DistinctIds([x] + r)
  {
    forall i, j | 0 <= i < j < |r| + 1 ensures ([x] + r)[i].id != ([x] + r)[j].id {
      assert ([x] + r)[j] == r[j - 1];
      if i == 0 {
        assert r[j - 1] in r;
      } else {
        assert ([x] + r)[i] == r[i - 1];
      }
    }
  }

  /** With the server's key function, `cleanIngredient`, every inserted
      row stores the raw line beside its key, and the key is lower case and
      free of `.` and `,`. */
  lemma PostWithCleanKeys(s: Store, user: string, items: seq<string>)
    requires WellFormed(s) && user != "" && items != []
    ensures var s' := PostBulk(s, Some(user), Some(items), CleanIngredient.Clean).1;
      forall i :: |s.rows| <= i < |s'.rows| ==>
        var key := s'.rows[i].clean;
        key == CleanIngredient.Clean(s'.rows[i].ingredient) && Text.NoUpper(key) && '.' !in key && ',' !in key
  {
    var s' := PostBulk(s, Some(user), Some(items), CleanIngredient.Clean).1;
    PostNewRows(s, user, items, CleanIngredient.Clean);
    forall i | |s.rows| <= i < |s'.rows|
      ensures s'.rows[i].clean == CleanIngredient.Clean(s'.rows[i].ingredient)
    {
    }
    forall i | |s.rows| <= i < |s'.rows|
      ensures Text.NoUpper(s'.rows[i].clean) && '.' !in s'.rows[i].clean && ',' !in s'.rows[i].clean
    {
      CleanIngredient.CleanShape(s'.rows[i].ingredient);
    }
  }
}

=== FILE: text.dfy ===
/** String operations the JavaScript and Python sources take from their
    runtimes, over the ASCII alphabet: character classes of regular
    expressions (`\s`, `\d`, `\w`), `toLowerCase`, `trim`, `split`, `join`,
    `startsWith`, `endsWith`. */
module Text {
  import opened Base

  /** `\s` restricted to ASCII: space, tab, line feed, vertical tab,
      form feed and carriage return. */
  predicate IsSpace(c: char)
  {
    c == ' ' || c == '\t' || c == '\n' || c == '\U{0B}' || c == '\U{0C}' || c == '\r'
  }

  /** `\d`. */
  predicate IsDigit(c: char)
  {
    '0' <= c <= '9'
  }

  predicate IsUpper(c: char)
  {
    'A' <= c <= 'Z'
  }

  predicate IsLower(c: char)
  {
    'a' <= c <= 'z'
  }

  /** `\w`: the characters a `\b` word boundary separates from the rest. */
  predicate IsWordChar(c: char)
  {
    IsUpper(c) || IsLower(c) || IsDigit(c) || c == '_'
  }

  function LowerChar(c: char): (d: char)
    ensures !IsUpper(d)
    ensures IsWordChar(d) == IsWordChar(c)
    ensures IsSpace(d) == IsSpace(c)
    ensures !IsUpper(c) ==> d == c
  {
    if IsUpper(c) then (c as int + 32) as char else c
  }

  /** `toLowerCase` on ASCII text. */
  function Lower(s: string): (r: string)
    ensures |r| == |s|
    ensures forall i :: 0 <= i < |s| ==> r[i] == LowerChar(s[i])
  {
    seq(|s|, i requires 0 <= i < |s| => LowerChar(s[i]))
  }

  /** Lower-casing works character by character. */
  lemma LowerAppend(a: string, b: string)
    ensures Lower(a + b) == Lower(a) + Lower(b)
  {
    assert forall i :: 0 <= i < |a + b| ==> Lower(a + b)[i] == (Lower(a) + Lower(b))[i];
  }

  /** Text without upper-case letters is its own lower-case form; in
      particular lower-casing twice changes nothing more. */
  lemma LowerOfNoUpper(s: string)
    requires NoUpper(s)
    ensures Lower(s) == s
  {
  }

  lemma LowerIdempotent(s: string)
    ensures Lower(Lower(s)) == Lower(s)
  {
    LowerOfNoUpper(Lower(s));
  }

  predicate NoUpper(s: string)
  {
    forall i :: 0 <= i < |s| ==> !IsUpper(s[i])
  }

  predicate StartsWith(s: string, prefix: string)
  {
    |prefix| <= |s| && s[..|prefix|] == prefix
  }

  predicate EndsWith(s: string, suffix: string)
  {
    |suffix| <= |s| && s[|s| - |suffix|..] == suffix
  }

  predicate AllSpace(s: string)
  {
    forall i :: 0 <= i < |s| ==> IsSpace(s[i])
  }

  /** End of the longest run of characters satisfying `p` that starts at
      index `i` of `s`. */
  function RunEnd(s: string, i: nat, p: char -> bool): (e: nat)
    requires i <= |s|
    ensures i <= e <= |s|
    ensures forall j :: i <= j < e ==> p(s[j])
    ensures e < |s| ==> !p(s[e])
    decreases |s| - i
  {
    if i < |s| && p(s[i]) then RunEnd(s, i + 1, p) else i
  }

  /** A run is determined by where its first failing character is. */
  lemma RunEndAt(s: string, i: nat, p: char -> bool, e: nat)
    requires i <= e <= |s|
    requires forall j :: i <= j < e ==> p(s[j])
    requires e == |s| || !p(s[e])
    ensures RunEnd(s, i, p) == e
  {
  }

  /** Length of the longest prefix of `s` whose characters satisfy `p`. */
  function RunLength(s: string, p: char -> bool): (n: nat)
    ensures n <= |s|
    ensures forall i :: 0 <= i < n ==> p(s[i])
    ensures n < |s| ==> !p(s[n])
  {
    RunEnd(s, 0, p)
  }

  /** Length of the longest suffix of `s` made of whitespace. */
  function TrailingSpaces(s: string): (n: nat)
    ensures n <= |s|
    ensures forall i :: |s| - n <= i < |s| ==> IsSpace(s[i])
    ensures n < |s| ==> !IsSpace(s[|s| - n - 1])
  {
    if s != [] && IsSpace(s[|s| - 1]) then 1 + TrailingSpaces(s[..|s| - 1]) else 0
  }

  /** `trim`: the result is the part of `s` between a whitespace prefix and a
      whitespace suffix, and neither begins nor ends with whitespace. */
  function Trim(s: string): (r: string)
    ensures |r| <= |s|
    ensures var a := RunLength(s, IsSpace);
      a + |r| <= |s| && r == s[a..a + |r|] && AllSpace(s[..a]) && AllSpace(s[a + |r|..])
    ensures r == [] || (!IsSpace(r[0]) && !IsSpace(r[|r| - 1]))
    ensures r == [] <==> AllSpace(s)
  {
    var a := RunLength(s, IsSpace);
    var rest := s[a..];
    var b := TrailingSpaces(rest);
    assert AllSpace(s[..a]);
    assert forall j :: a + |rest| - b <= j < |s| ==> IsSpace(s[j]) by {
      forall j | a + |rest| - b <= j < |s|
        ensures IsSpace(s[j])
      {
        assert s[j] == rest[j - a];
      }
    }
    assert AllSpace(s) ==> a == |s|;
    rest[..|rest| - b]
  }

  /** A string already in trimmed form is left alone by `trim`. */
  lemma TrimOfTrimmed(s: string)
    requires s == [] || (!IsSpace(s[0]) && !IsSpace(s[|s| - 1]))
    ensures Trim(s) == s
  {
    if s != [] {
      var r := Trim(s);
      assert RunLength(s, IsSpace) == 0;
      assert r != [];
    }
  }

  /** `trim` drops whitespace put in front of a trimmed, non-empty string. */
  lemma TrimLeadingSpace(s: string)
    requires s != [] && !IsSpace(s[0]) && !IsSpace(s[|s| - 1])
    ensures Trim(" " + s) == s
  {
    var t := " " + s;
    assert t[1..] == s;
    assert RunLength(t, IsSpace) == 1;
    TrimOfTrimmed(s);
    var r := Trim(t);
    assert r == t[1..1 + |r|];
  }

  /** Number of characters of `s` that belong to `cs`. */
  function Occurrences(s: string, cs: set<char>): nat
  {
    if s == [] then 0 else (if s[0] in cs then 1 else 0) + Occurrences(s[1..], cs)
  }

  /** `split` at every character of `seps` (a one-character string separator,
      or a regular expression alternating single characters). Like the
      JavaScript method, the empty string splits into one empty part. */
  function Split(s: string, seps: set<char>): (parts: seq<string>)
    ensures |parts| == 1 + Occurrences(s, seps)
    ensures forall k, i :: 0 <= k < |parts| && 0 <= i < |parts[k]| ==> parts[k][i] !in seps
    decreases |s|
  {
    if s == [] then [""]
    else
      var rest := Split(s[1..], seps);
      if s[0] in seps then [""] + rest
      else
        var first := [s[0]] + rest[0];
        assert forall i :: 0 < i < |first| ==> first[i] == rest[0][i - 1];
        [first] + rest[1..]
  }

  /** `join`: the parts with `sep` between neighbours; no parts give "". */
  function Join(parts: seq<string>, sep: string): string
  {
    if |parts| == 0 then ""
    else if |parts| == 1 then parts[0]
    else parts[0] + sep + Join(parts[1..], sep)
  }

  /** `join` of two and of three parts. */
  lemma JoinTwo(a: string, b: string, sep: string)
    ensures Join([a, b], sep) == a + sep + b
  {
    assert [a, b][1..] == [b];
  }

  lemma JoinThree(a: string, b: string, c: string, sep: string)
    ensures Join([a, b, c], sep) == a + sep + b + sep + c
  {
    assert [a, b, c][1..] == [b, c];
    JoinTwo(b, c, sep);
  }

  /** Splitting at one character and joining with it gives the input back. */
  lemma {:induction false} SplitJoin(s: string, c: char)
    ensures Join(Split(s, {c}), [c]) == s
    decreases |s|
  {
    if s != [] {
      var rest := Split(s[1..], {c});
      SplitJoin(s[1..], c);
      if s[0] == c {
        assert Split(s, {c}) == [""] + rest;
        assert Join(Split(s, {c}), [c]) == "" + [c] + Join(rest, [c]);
      } else {
        if |rest| == 1 {
          assert Join(Split(s, {c}), [c]) == [s[0]] + rest[0];
        } else {
          assert Split(s, {c}) == [[s[0]] + rest[0]] + rest[1..];
          assert Join(rest, [c]) == rest[0] + [c] + Join(rest[1..], [c]);
          assert Join(Split(s, {c}), [c]) == [s[0]] + rest[0] + [c] + Join(rest[1..], [c]);
        }
        ConsJoin(s);
      }
    }
  }

  /** A separator-free prefix only extends the first part of a split. */
  lemma {:induction false} SplitPrefix(a: string, b: string, seps: set<char>)
    requires forall i :: 0 <= i < |a| ==> a[i] !in seps
    ensures Split(a + b, seps) == [a + Split(b, seps)[0]] + Split(b, seps)[1..]
    decreases |a|
  {
    if a != [] {
      AppendTail(a, b);
      SplitPrefix(a[1..], b, seps);
      assert [a[0]] + (a[1..] + Split(b, seps)[0]) == a + Split(b, seps)[0];
    } else {
      assert a + b == b;
      assert a + Split(b, seps)[0] == Split(b, seps)[0];
      assert [Split(b, seps)[0]] + Split(b, seps)[1..] == Split(b, seps);
    }
  }

  /** A separator-free string, a separator and `rest` split into that
      string followed by the parts of `rest`. */
  lemma SplitAtSeparator(a: string, c: char, rest: string, seps: set<char>)
    requires c in seps && forall i :: 0 <= i < |a| ==> a[i] !in seps
    ensures Split(a + ([c] + rest), seps) == [a] + Split(rest, seps)
  {
    assert ([c] + rest)[1..] == rest;
    SplitPrefix(a, [c] + rest, seps);
    assert a + "" == a;
  }

  /** `RunLength` again, by a plain recursion and with only its bounds in
      the contract; `RunOfAt` says which run it finds. Functions that are
      unfolded often (`Words`, and the rewrites of an ingredient line) use
      this one, so that each unfolding stays small. */
  function RunOf(s: string, p: char -> bool): (n: nat)
    ensures n <= |s|
    ensures s != [] && p(s[0]) ==> n > 0
  {
    if s != [] && p(s[0]) then 1 + RunOf(s[1..], p) else 0
  }

  /** `s` starts with a run of exactly `n` characters satisfying `p`. */
  predicate RunIs(s: string, p: char -> bool, n: nat)
  {
    n <= |s| && (forall j :: 0 <= j < n ==> p(s[j])) && (n == |s| || !p(s[n]))
  }

  /** `RunOf` finds that run. */
  lemma {:induction false} RunOfAt(s: string, p: char -> bool, n: nat)
    requires RunIs(s, p, n)
    ensures RunOf(s, p) == n
    decreases n
  {
    if n > 0 {
      assert RunIs(s[1..], p, n - 1) by {
        assert forall j :: 0 <= j < |s| - 1 ==> s[1..][j] == s[j + 1];
      }
      RunOfAt(s[1..], p, n - 1);
    }
  }

  /** The maximal runs of word characters of `s`, left to right: the words a
      `\b...\b` pattern can match as a whole. */
  function Words(s: string): seq<string>
    decreases |s|
  {
    if s == [] then []
    else if !IsWordChar(s[0]) then Words(s[1..])
    else
      var n := RunOf(s, IsWordChar);
      [s[..n]] + Words(s[n..])
  }

  /** No word character on one side of the junction of `a` and `b`. */
  predicate WordBoundaryBetween(a: string, b: string)
  {
    a == [] || b == [] || !IsWordChar(a[|a| - 1]) || !IsWordChar(b[0])
  }

  /** At a junction that is a word boundary, the words of a concatenation are
      the words of its halves. */
  lemma {:induction false} WordsAppend(a: string, b: string)
    requires WordBoundaryBetween(a, b)
    ensures Words(a + b) == Words(a) + Words(b)
    decreases |a|
  {
    if a == [] {
      assert a + b == b;
    } else if !IsWordChar(a[0]) {
      AppendTail(a, b);
      WordsAppend(a[1..], b);
    } else {
      var n := RunLength(a, IsWordChar);
      if n < |a| {
        WordsAppend(a[n..], b);
        WordsAppendWord(a, b, n);
      } else {
        WordsAppendWhole(a, b);
      }
    }
  }

  /** The words of a string that starts with a word of length `n`. */
  lemma WordsHead(s: string, n: nat)
    requires 0 < n && RunIs(s, IsWordChar, n)
    ensures Words(s) == [s[..n]] + Words(s[n..])
  {
    RunOfAt(s, IsWordChar, n);
  }

  /** One step of `WordsAppend`: `a` starts with a word that ends inside
      `a`. */
  lemma WordsAppendWord(a: string, b: string, n: nat)
    requires 0 < n < |a| && (forall j :: 0 <= j < n ==> IsWordChar(a[j])) && !IsWordChar(a[n])
    requires Words(a[n..] + b) == Words(a[n..]) + Words(b)
    ensures Words(a + b) == Words(a) + Words(b)
  {
    WordsHeadAppend(a, b, n);
    WordsHead(a, n);
    SeqAssoc([a[..n]], Words(a[n..]), Words(b));
  }

  lemma WordsHeadAppend(a: string, b: string, n: nat)
    requires 0 < n < |a| && (forall j :: 0 <= j < n ==> IsWordChar(a[j])) && !IsWordChar(a[n])
    ensures Words(a + b) == [a[..n]] + Words(a[n..] + b)
  {
    var s := a + b;
    assert s[..n] == a[..n];
    assert s[n..] == a[n..] + b;
    WordsHead(s, n);
  }

  /** One step of `WordsAppend`: `a` is a single word. */
  lemma WordsAppendWhole(a: string, b: string)
    requires a != [] && (forall j :: 0 <= j < |a| ==> IsWordChar(a[j])) && (b == [] || !IsWordChar(b[0]))
    ensures Words(a + b) == Words(a) + Words(b)
  {
    var s := a + b;
    assert s[..|a|] == a;
    assert s[|a|..] == b;
    WordsHead(s, |a|);
    WordsOfWord(a);
  }

  /** A string without word characters has no words. */
  lemma {:induction false} WordsOfNonWord(s: string)
    requires forall i :: 0 <= i < |s| ==> !IsWordChar(s[i])
    ensures Words(s) == []
    decreases |s|
  {
    if s != [] {
      WordsOfNonWord(s[1..]);
    }
  }

  /** A prefix without word characters contributes no words. */
  lemma WordsAfterNonWord(a: string, b: string)
    requires forall i :: 0 <= i < |a| ==> !IsWordChar(a[i])
    ensures Words(a + b) == Words(b)
  {
    WordsAppend(a, b);
    WordsOfNonWord(a);
  }

  /** A non-empty run of word characters is a single word. */
  lemma WordsOfWord(w: string)
    requires w != [] && forall i :: 0 <= i < |w| ==> IsWordChar(w[i])
    ensures Words(w) == [w]
  {
    WordsHead(w, |w|);
    assert w[..|w|] == w;
    assert w[|w|..] == [];
  }
}
